=== FILE: README.md ===
# Flattening conditional branches, and the game's actor bookkeeping

A Dafny model of two unrelated parts of the DiligentEngine fork.

**The SPIR-V fuzzer transformation "flatten conditional branch".** It turns a
selection construct (a header ending in `OpBranchConditional`, plus an
`OpSelectionMerge`) into straight-line code:

- The blocks of both arms are laid out one after the other.
- The phis at the block where the arms converge become `OpSelect`s on the
  original condition.
- Every side-effecting instruction in an arm gets its own small conditional.
  The instruction runs only when the original condition picks its arm.
  When its result is used later, a placeholder value comes from an
  alternative block and a phi joins the two.

The operations are in three modules:

- `Ir`: the part of the IR the transformation touches. It holds blocks with
  an optional merge instruction, a body and a terminator; the function's
  block layout; the id bound; the void-type table; zero constants; the ids
  the module's other functions define; the ids read by annotations; and
  dominance and post-dominance as relations.
- `FlattenCheck`: `IsApplicable`. It covers the header shape, the
  single-entry/single-exit test, the breadth-first walk over the divergent
  blocks, the instruction classification, and the freshness of the
  caller-supplied ids.
- `FlattenApply`: `Apply` and `EncloseInstructionInConditional`. It covers
  finding the convergence block, rewriting phis to selects, walking each arm
  and wrapping instructions, relinking the header, and recording dead-block
  and irrelevant-id facts.

Six more modules hold what is proved about them:

- `LayoutOrder`: block order in the layout (`Before`), and how inserting
  and moving blocks keep it.
- `Region`: the divergent region as the blocks on either arm (`InRegion`),
  and the exact meaning of the region walk.
- `FlattenShape`: what wrapping one block's instructions leaves behind
  (`GuardedBy`, `Chain`), and where the new blocks are laid out.
- `ArmWalk`: the same for the walk along a whole arm.
- `WrapFreshness`: why the ids of an applicable message only ever create
  new blocks.
- `FlattenResult`: the transformed function as a whole.

**The TownRunner game's bookkeeping**, in three modules:

- `Components`: an actor's component list, kept sorted by update order.
- `Scene`: the scene's unordered actor list. Removal swaps the actor with
  the last one and pops it.
- `Contacts`: the physics trigger listener. It classifies the two bodies of
  each overlapping pair and lets a player touching a plane jump.

`Seqs` holds the `std::find` position shared by the lists.

Inputs the code gets from its environment are parameters of the model:

- the dominator and post-dominator analyses (`Ir.Dominance`);
- the type manager's "is this type void" answer (`Module.typeIsVoid`);
- the constant lookup (`Module.zeroConstants`);
- the ids that `OpName`, `OpDecorate` and other module-level instructions
  read (`Module.annotationUses`);
- the fact manager (`FlattenApply.FactState`);
- the overflow id source (`FlattenCheck.OverflowIds`).

An instruction is identified by its block and its position in the
original function (`Ir.InstRef`).

## Model

| member | source | states |
|---|---|---|
| Ir.UpdateIdBound | DiligentCore/ThirdParty/SPIRV-Tools/source/fuzz/transformation_flatten_conditional_branch.cpp:537-541 | after recording a fresh id the bound exceeds that id and never shrinks; an id already below the bound leaves it unchanged, and any other id makes it exactly one past the id |
| Ir.InsertAfter | DiligentCore/ThirdParty/SPIRV-Tools/source/fuzz/transformation_flatten_conditional_branch.cpp:630-632 | new blocks are laid out as a run directly after the anchor block, and no block is lost or invented |
| Ir.MoveAfter | DiligentCore/ThirdParty/SPIRV-Tools/source/fuzz/transformation_flatten_conditional_branch.cpp:239-241 | moving a block puts it immediately after the anchor and keeps the set of laid-out blocks |
| LayoutOrder.InsertAfterOrder | DiligentCore/ThirdParty/SPIRV-Tools/source/fuzz/transformation_flatten_conditional_branch.cpp:630-632 | inserting new blocks after a laid-out block keeps every block listed once and the old blocks in their order, and puts each new block after the anchor and before every block that followed it |
| LayoutOrder.MoveAfterOrder | DiligentCore/ThirdParty/SPIRV-Tools/source/fuzz/transformation_flatten_conditional_branch.cpp:239-241 | moving a block after an anchor keeps every block listed once and the other blocks in their order, and puts the moved block after the anchor and ahead of every block that followed the anchor |
| FlattenCheck.HandledIffPlaceholderOrUnread | DiligentCore/ThirdParty/SPIRV-Tools/source/fuzz/transformation_flatten_conditional_branch.cpp:679-722 | relates `CanBeHandled` to `NeedsPlaceholder`: for a side-effecting instruction that is neither a barrier nor `OpSampledImage`, it can be handled exactly when it has no result, will get a placeholder for it, or has a result nobody reads (in the function or in an annotation); a placeholder is only ever made for a non-void result |
| FlattenCheck.HandledResultIsPlaceholderOrUnread | DiligentCore/ThirdParty/SPIRV-Tools/source/fuzz/transformation_flatten_conditional_branch.cpp:702-720 | a handled side-effecting instruction either gets a placeholder for its result or has a result nobody reads, never both a placeholder and a void type |
| FlattenCheck.CheckBody | DiligentCore/ThirdParty/SPIRV-Tools/source/fuzz/transformation_flatten_conditional_branch.cpp:452-483 | a block's body passes exactly when every instruction can be handled, and then yields exactly the side-effecting instructions of that block |
| FlattenCheck.RegionWalk | DiligentCore/ThirdParty/SPIRV-Tools/source/fuzz/transformation_flatten_conditional_branch.cpp:417-488 | on success the walk keeps what it was given and adds only side-effecting instructions of flattenable blocks that do not post-dominate the header; every queued block that does not post-dominate the header is flattenable |
| FlattenCheck.ProblematicInstructions | DiligentCore/ThirdParty/SPIRV-Tools/source/fuzz/transformation_flatten_conditional_branch.cpp:393-492 | on success the header dominates its merge block and the merge block post-dominates the header; every collected instruction is a side-effecting instruction of a divergent, flattenable block; both arms' first blocks are flattenable unless they already post-dominate the header |
| Region.RegionWalkComplete | DiligentCore/ThirdParty/SPIRV-Tools/source/fuzz/transformation_flatten_conditional_branch.cpp:427-488 | every block on an arm that starts at a queued block, up to the first block that post-dominates the header, is flattenable, and all its side-effecting instructions are collected |
| Region.RegionWalkSound | DiligentCore/ThirdParty/SPIRV-Tools/source/fuzz/transformation_flatten_conditional_branch.cpp:427-488 | every instruction the walk adds lies in a block reached from a queued block through blocks that do not post-dominate the header |
| Region.RegionWalkSucceeds | DiligentCore/ThirdParty/SPIRV-Tools/source/fuzz/transformation_flatten_conditional_branch.cpp:427-488 | when every queued block reaches a post-dominator of the header through flattenable blocks, and the fuel covers those arms, the walk succeeds |
| Region.ProblematicInstructionsExact | DiligentCore/ThirdParty/SPIRV-Tools/source/fuzz/transformation_flatten_conditional_branch.cpp:393-492 | the region check succeeds exactly when the header dominates its merge block, the merge block post-dominates the header, and both arms reach a post-dominator through flattenable blocks; it then collects exactly the side-effecting instructions of the blocks on either arm |
| Region.OnArmIffInPath | DiligentCore/ThirdParty/SPIRV-Tools/source/fuzz/transformation_flatten_conditional_branch.cpp:427-488 | for an arm that converges, a block lies on it exactly when it is on the path of unconditional branches from the arm's first block to the convergence block |
| FlattenCheck.InstructionsToWrapperInfo | DiligentCore/ThirdParty/SPIRV-Tools/source/fuzz/transformation_flatten_conditional_branch.cpp:511-524 | every message entry whose instruction exists and was not named by an earlier entry is in the map under its instruction; every key comes from such an entry |
| FlattenCheck.SomeEntryKept | DiligentCore/ThirdParty/SPIRV-Tools/source/fuzz/transformation_flatten_conditional_branch.cpp:511-524 | every existing instruction named by the message is named by some kept entry at or before it, so it reaches the map |
| FlattenCheck.CheckFreshIds | DiligentCore/ThirdParty/SPIRV-Tools/source/fuzz/transformation_flatten_conditional_branch.cpp:73-96 | the one-by-one freshness check succeeds exactly when all the ids are non-zero, fresh in the module, not yet used and pairwise distinct; it then returns the used set extended by those ids |
| FlattenCheck.AllFreshAndDistinctAppend | DiligentCore/ThirdParty/SPIRV-Tools/source/fuzz/transformation_flatten_conditional_branch.cpp:73-96 | checking two runs of ids together is checking the first, then the second against the ids the first used up |
| FlattenCheck.CheckWrappersMeaning | DiligentCore/ThirdParty/SPIRV-Tools/source/fuzz/transformation_flatten_conditional_branch.cpp:70-110 | the loop over the map entries passes exactly when all the ids it checks are non-zero, fresh and distinct and every value to copy is defined, has the instruction's type and is available before it |
| FlattenCheck.IsApplicable | DiligentCore/ThirdParty/SPIRV-Tools/source/fuzz/transformation_flatten_conditional_branch.cpp:38-123 | an accepted message names a selection header ending in a conditional branch with a single-entry/single-exit region, valid fresh ids and values to copy, and either a wrapper entry for every instruction that needs one or overflow ids available |
| FlattenCheck.GetFreshIds | DiligentCore/ThirdParty/SPIRV-Tools/source/fuzz/transformation_flatten_conditional_branch.cpp:724-735 | an id is reported fresh exactly when some wrapper entry of the message carries it in one of its five id fields |
| FlattenCheck.CheckedIdsAreFreshIds | DiligentCore/ThirdParty/SPIRV-Tools/source/fuzz/transformation_flatten_conditional_branch.cpp:724-735 | every id the applicability check requires to be fresh is among the ids the transformation reports as fresh |
| WrapFreshness.ApplicableWrappersFresh | DiligentCore/ThirdParty/SPIRV-Tools/source/fuzz/transformation_flatten_conditional_branch.cpp:70-110 | for an applicable message, each wrapper entry's new blocks differ from each other, none of them is a block of the function, and no two entries share a block |
| Region.ArmConvergesMonotone | DiligentCore/ThirdParty/SPIRV-Tools/source/fuzz/transformation_flatten_conditional_branch.cpp:136-146 | an arm that reaches a post-dominator of the header within some number of steps still does so with more steps |
| Region.RegionWalkConverges | DiligentCore/ThirdParty/SPIRV-Tools/source/fuzz/transformation_flatten_conditional_branch.cpp:427-488 | a successful region walk guarantees that, from every block it queued, following unconditional branches reaches a post-dominator of the header |
| Region.ApplicableArmsConverge | DiligentCore/ThirdParty/SPIRV-Tools/source/fuzz/transformation_flatten_conditional_branch.cpp:131-146 | when the transformation is applicable, both arms of the header reach a block that post-dominates it, so the search for the convergence block ends |
| FlattenApply.Convergence | DiligentCore/ThirdParty/SPIRV-Tools/source/fuzz/transformation_flatten_conditional_branch.cpp:136-146 | the block found post-dominates the header, and it is the starting block itself when that already post-dominates the header |
| FlattenApply.ConvergenceOf | DiligentCore/ThirdParty/SPIRV-Tools/source/fuzz/transformation_flatten_conditional_branch.cpp:131-146 | the convergence block of an applicable transformation post-dominates the header |
| FlattenApply.LeadingPhis | DiligentCore/ThirdParty/SPIRV-Tools/source/fuzz/transformation_flatten_conditional_branch.cpp:176-178 | counts the phis at the head of a block: all instructions before the count are phis and the one at the count is not |
| FlattenApply.PhiToSelectPreservesValue | DiligentCore/ThirdParty/SPIRV-Tools/source/fuzz/transformation_flatten_conditional_branch.cpp:183-210 | for a two-predecessor phi whose predecessors lie on opposite arms, the select on the condition yields the value the phi would take on the edge that was actually taken |
| FlattenApply.RewritePhis | DiligentCore/ThirdParty/SPIRV-Tools/source/fuzz/transformation_flatten_conditional_branch.cpp:176-213 | the leading phis become selects one for one, and every later instruction is unchanged |
| FlattenApply.RewriteConvergencePhis | DiligentCore/ThirdParty/SPIRV-Tools/source/fuzz/transformation_flatten_conditional_branch.cpp:169-213 | only the convergence block's body changes, and only by rewriting its phis; layout and block set are kept |
| FlattenApply.ResolveWrapper | DiligentCore/ThirdParty/SPIRV-Tools/source/fuzz/transformation_flatten_conditional_branch.cpp:265-306 | a mapped instruction uses its message ids and takes nothing from the overflow source. Otherwise it takes merge and execute ids, then actual-result, alternative and placeholder ids when a placeholder is needed, consecutively from the overflow source. The value to copy is an irrelevant zero constant, else a relevant one, else none. Ids drawn from the overflow source lie between its old and new next id, so they differ from each other and from every block below the old next id |
| FlattenApply.PlaceholderDef | DiligentCore/ThirdParty/SPIRV-Tools/source/fuzz/transformation_flatten_conditional_branch.cpp:603-619 | the placeholder has the placeholder id and the instruction's type; it is an `OpCopyObject` exactly when a value to copy was given and an `OpUndef` otherwise |
| FlattenApply.Enclose | DiligentCore/ThirdParty/SPIRV-Tools/source/fuzz/transformation_flatten_conditional_branch.cpp:526-677 | with distinct ids, the block ends in a selection on the condition into an execute block holding only the instruction, optionally with an alternative block defining the placeholder, and a merge block that rejoins with a phi and carries the rest of the body and the old terminator. No other block changes. The new blocks are marked dead only when the split block was dead, and the placeholder id is marked irrelevant |
| FlattenApply.WrapBody | DiligentCore/ThirdParty/SPIRV-Tools/source/fuzz/transformation_flatten_conditional_branch.cpp:246-317 | wrapping a block's side-effecting instructions only adds blocks, ids and queued facts; it draws no overflow ids when every instruction has a wrapper entry, and the block it returns keeps the original terminator. `FlattenShape.WrapBodyShape` and `FlattenShape.WrapBodyLayout` state the blocks it builds |
| FlattenShape.WrapBodyShape | DiligentCore/ThirdParty/SPIRV-Tools/source/fuzz/transformation_flatten_conditional_branch.cpp:246-317 | when every side-effecting instruction of the block has a wrapper entry with fresh ids, each of them ends up in its own conditional on the header's condition, in order, each continuing in the previous wrap's merge block |
| FlattenShape.WrapBodyLayout | DiligentCore/ThirdParty/SPIRV-Tools/source/fuzz/transformation_flatten_conditional_branch.cpp:246-317 | every block the wrapping creates is laid out after the split block and ahead of whatever followed it, including the block that keeps the terminator; old blocks keep their order and the layout lists every block once |
| FlattenApply.WalkArm | DiligentCore/ThirdParty/SPIRV-Tools/source/fuzz/transformation_flatten_conditional_branch.cpp:232-326 | walking an arm only adds blocks, ids and queued facts; an arm that starts at the convergence block does nothing; the last block reported branches unconditionally to the convergence block. The `ArmWalk` lemmas state what it builds |
| ArmWalk.WalkArmChains | DiligentCore/ThirdParty/SPIRV-Tools/source/fuzz/transformation_flatten_conditional_branch.cpp:228-326 | on a path of unconditional branches with fresh wraps, every block of the arm has its side-effecting instructions guarded in order, and the block holding the rest branches on along the path to the convergence block |
| ArmWalk.WalkArmLayout | DiligentCore/ThirdParty/SPIRV-Tools/source/fuzz/transformation_flatten_conditional_branch.cpp:228-326 | the arm's blocks are laid out after the block the walk starts from, in path order and ahead of whatever followed it, and every other block keeps its order |
| ArmWalk.WalkArmFrame | DiligentCore/ThirdParty/SPIRV-Tools/source/fuzz/transformation_flatten_conditional_branch.cpp:228-326 | the walk adds exactly the wraps' blocks of the path, and no block off the path changes |
| FlattenApply.ArmEntriesSwap | DiligentCore/ThirdParty/SPIRV-Tools/source/fuzz/transformation_flatten_conditional_branch.cpp:150-167 | for `ArmEntries`: flipping the message's `true_branch_first` swaps which arm is laid out first; when the two targets differ, the true arm comes first exactly when the message asks for it |
| FlattenApply.RewriteArms | DiligentCore/ThirdParty/SPIRV-Tools/source/fuzz/transformation_flatten_conditional_branch.cpp:228-326 | rewriting both arms only adds blocks, ids and queued facts; there is no last block of the first arm when that arm starts at the convergence block |
| FlattenApply.ApplyArms | DiligentCore/ThirdParty/SPIRV-Tools/source/fuzz/transformation_flatten_conditional_branch.cpp:215-326 | the arms' rewrite keeps every block and the id bound; the last block of the first arm, when there is one, branches to the convergence block |
| FlattenApply.RetargetPhis | DiligentCore/ThirdParty/SPIRV-Tools/source/fuzz/transformation_flatten_conditional_branch.cpp:357-369 | the leading phis get the new predecessor as their second in-operand and nothing else changes |
| FlattenApply.Relink | DiligentCore/ThirdParty/SPIRV-Tools/source/fuzz/transformation_flatten_conditional_branch.cpp:328-370 | the header loses its merge and branches unconditionally to the block after it. The last block of the first arm branches to the other arm's entry, whose phis now name that block as predecessor. No other block changes |
| FlattenApply.Finish | DiligentCore/ThirdParty/SPIRV-Tools/source/fuzz/transformation_flatten_conditional_branch.cpp:328-384 | after relinking, every queued dead block and irrelevant id is a fact and no earlier fact is lost |
| FlattenApply.Apply | DiligentCore/ThirdParty/SPIRV-Tools/source/fuzz/transformation_flatten_conditional_branch.cpp:125-385 | applying keeps all blocks and facts and never lowers the id bound. The header loses its merge and branches unconditionally to the first arm laid out, or to the entry of the arm laid out second when the first arm is empty. The end of the first arm branches to the other arm's entry. The `FlattenResult` lemmas state the result under `WalkPremises` |
| FlattenResult.ApplyGuards | DiligentCore/ThirdParty/SPIRV-Tools/source/fuzz/transformation_flatten_conditional_branch.cpp:125-385 | every instruction the region check collects has its wrapper entry and, in the transformed function, sits in its own conditional on the header's condition, executed exactly on the side of its arm |
| FlattenResult.ApplyAdds | DiligentCore/ThirdParty/SPIRV-Tools/source/fuzz/transformation_flatten_conditional_branch.cpp:125-385 | the transformed function has exactly the old blocks plus the wraps' blocks of both arms, and those are all new |
| FlattenResult.ApplyKeepsOutside | DiligentCore/ThirdParty/SPIRV-Tools/source/fuzz/transformation_flatten_conditional_branch.cpp:125-385 | every block that is not on an arm, the header or the convergence block is unchanged |
| FlattenResult.ApplyHeaderAndConvergence | DiligentCore/ThirdParty/SPIRV-Tools/source/fuzz/transformation_flatten_conditional_branch.cpp:328-370 | the header keeps its body, loses its merge and branches to the arm laid out first, or to the entry of the other arm when the first is empty; the convergence block has its phis rewritten to selects when the two targets differ, and is otherwise unchanged |
| FlattenResult.ApplyLinksArms | DiligentCore/ThirdParty/SPIRV-Tools/source/fuzz/transformation_flatten_conditional_branch.cpp:328-370 | the last block of the first arm, when there is one, is the end of that arm's last chain and branches to the entry of the arm laid out second |
| FlattenResult.ApplyLayout | DiligentCore/ThirdParty/SPIRV-Tools/source/fuzz/transformation_flatten_conditional_branch.cpp:215-326 | the layout still lists every block once: the first arm follows the header, the second arm follows the first, each in path order, and every other block keeps its order |
| Seqs.FirstIndex | Projects/TownRunner/src/Actor.cpp:120 | the position `std::find` returns is the first occurrence, and it is the end exactly when the element is absent |
| Components.InsertionPoint | Projects/TownRunner/src/Actor.cpp:104-112 | every component before the insertion point has an update order not greater than the new one, and the component at it has a strictly greater order |
| Components.AddComponent | Projects/TownRunner/src/Actor.cpp:100-116 | the linear search and insert adds exactly the new component, at the first position with a strictly greater update order |
| Components.InsertPlacement | Projects/TownRunner/src/Actor.cpp:100-116 | in a sorted list the new component goes after every component with an order not greater than its own and before the rest, and the list stays sorted |
| Components.RemoveComponent | Projects/TownRunner/src/Actor.cpp:118-125 | removing erases one copy, the first, when the component is present, and leaves the list unchanged otherwise |
| Components.RemoveKeepsOrder | Projects/TownRunner/src/Actor.cpp:118-125 | erasing keeps the relative order of the remaining components |
| Components.RemoveKeepsSorted | Projects/TownRunner/src/Actor.cpp:118-125 | erasing keeps a sorted list sorted |
| Components.RemoveUndoesInsert | Projects/TownRunner/src/Actor.cpp:100-125 | adding a component that was not in the list and removing it again restores the list |
| Components.UpdatedComponents | Projects/TownRunner/src/Actor.cpp:74-83 | an active actor updates each of its components once, and a paused or dead one updates none |
| Components.UpdateInAscendingOrder | Projects/TownRunner/src/Actor.cpp:127-133 | whatever sequence of additions and removals built the list, components are updated in ascending update order |
| Scene.AddActor | Projects/TownRunner/src/TestScene.cpp:537-541 | the actor is appended after the existing actors, which keep their positions |
| Scene.RemoveActor | Projects/TownRunner/src/TestScene.cpp:543-551 | find, swap with the last actor, and pop remove one actor when it is present and change nothing otherwise |
| Scene.SwapRemoveLayout | Projects/TownRunner/src/TestScene.cpp:545-549 | after removal the former last actor takes the removed actor's slot and every other slot keeps its actor |
| Scene.SwapRemoveTakesOneCopy | Projects/TestShadow/src/TestScene.cpp:374-382 | exactly one copy of the actor, the first, leaves the list; a later duplicate stays |
| Scene.RemoveUndoesAdd | Projects/TownRunner/src/TestScene.cpp:537-551 | adding an actor that was not in the scene and removing it restores the list |
| Contacts.Classify | Projects/TownRunner/src/ReactEventListener.cpp:39-99 | a listed actor type yields its own type; any other type yields the name "BaseActor" and leaves the type as it was |
| Contacts.ClassifyNamesAreDistinct | Projects/TownRunner/src/ReactEventListener.cpp:39-99 | no listed type is called "BaseActor", and different listed types get different names |
| Contacts.FindActorType | Projects/TownRunner/src/ReactEventListener.cpp:37-163 | each body gets a name and a type that agree: reading the name back (`TypeOfName`) gives the type; a listed type keeps itself and any other becomes BaseActor |
| Contacts.FindActorTypeSymmetric | Projects/TownRunner/src/ReactEventListener.cpp:37-163 | swapping the bodies swaps the two classifications |
| Contacts.FindBehaviour | Projects/TownRunner/src/ReactEventListener.cpp:166-184 | a body is allowed to jump exactly for a plane/player pair in either order, and then only the player's body |
| Contacts.FindBehaviourSymmetric | Projects/TownRunner/src/ReactEventListener.cpp:166-184 | swapping the bodies swaps which one jumps |
| Contacts.PairJumpsMeaning | Projects/TownRunner/src/ReactEventListener.cpp:5-34 | for one pair, `AllowJump` is called once on the player's owner for a player/plane pair, and not at all otherwise |
| Contacts.OnTrigger | Projects/TownRunner/src/ReactEventListener.cpp:5-34 | the loop over pairs calls `AllowJump` on the owners each pair calls for, in pair order, at most once per pair |
| Contacts.JumpsAppend | Projects/TownRunner/src/ReactEventListener.cpp:5-34 | processing a batch of pairs is processing its parts one after the other |
| Contacts.JumpsCount | Projects/TownRunner/src/ReactEventListener.cpp:5-34 | the number of jumps a batch allows equals the number of player/plane pairs in it |

## Left out

- Instruction descriptors, the type manager and the dominator analyses are inputs given as data. The model does not compute dominance from the control-flow graph.
- The def-use manager is not modelled as a structure. A result counts as read when an instruction of the function has it as an in-operand, a conditional branch uses it as its condition, or it is among the ids module-level instructions such as `OpName` and `OpDecorate` read (`Module.annotationUses`, an input).
- `IdIsAvailableBeforeInstruction`, used for the value to copy, is stated abstractly as dominance of the defining block plus position within the same block (`Ir.AvailableBefore`).
- `fuzzerutil::MaybeGetZeroConstant`'s search is a lookup table (`Module.zeroConstants`) keyed by type and irrelevance.
- FlattenCheck.RegionWalk: the breadth-first walk carries a fuel of twice the number of blocks plus two. Where the source would loop forever on a cycle of unconditional branches that never reaches a post-dominator, the model answers "not applicable".
- FlattenApply.WalkArm: the arm walk visits at most as many blocks as the function has. It also stops at an id that is not a block of the function, and after a block whose terminator is not an unconditional branch. These extra stops have no counterpart in the source, which only reaches such a block after the region check has ruled it out.
- FlattenApply.RewritePhis: the source asserts that a convergence phi has exactly two incoming pairs. In the model, a phi with fewer than four in-operands is left unchanged, and a longer one uses its first two pairs.
- FlattenApply.Apply: the exact header target is stated only when the last block of the first arm is not the header and the other arm does not start at the header. Those degenerate layouts are not constrained beyond "the header ends in an unconditional branch". `FlattenResult.ApplyHeaderAndConvergence` states the target under the hypotheses below.
- FlattenResult.ApplyGuards, FlattenResult.ApplyAdds, FlattenResult.ApplyKeepsOutside, FlattenResult.ApplyHeaderAndConvergence, FlattenResult.ApplyLinksArms, FlattenResult.ApplyLayout: these hold under `WalkPremises`. It requires a layout that lists every block once, a convergence block other than the header that the false arm reaches too, arms that share no block, and a wrapper entry for every instruction to wrap. Without these, only the weaker contracts of `Apply` hold.
- FlattenApply.ResolveWrapper: ids drawn from the overflow source are not related to the module's id bound, so they are not proved fresh in the module. The whole-function lemmas therefore assume every instruction has a wrapper entry.
- FlattenApply.Enclose: `BasicBlock::SplitBasicBlock` also rewrites the phis of the split block's successors to name the new block as predecessor. `basic_block.cpp` is not part of this model, and `Enclose` moves the terminator without that rewrite.
- Dead-block facts are queued and flushed at the end of `Apply`, as in the source. A second wrap in the same dead block checks the merge block created by the first wrap, which is not yet recorded as dead. Its new blocks are therefore not marked dead. The model follows the source here.
- Analysis invalidation, `ToMessage`, the protobuf constructors and the SPIR-V binary encoding are left out. They are bookkeeping with no effect on the transformed IR.
- The `ActorType` enumeration is declared in `Actor.h`, which is not part of this model. Its members are the types the listener's switch names, plus `BaseActor` and `Building`.
- The physics engine's overlap callback, the rigid bodies and `Player::AllowJump` are reduced to owner identities and a list of the owners told to jump. The log lines that are commented out in the source are not modelled.
- `Actor::Update`'s own work (`UpdateActor`, `computeWorldTransform`) and the components' `update` calls are out of scope. Only the order of components visited is modelled.
- `TestScene::addActor`'s call to `Actor::Initialize` is rendering setup and is left out.
- Components and actors are identified by number, standing for the object addresses the game compares.

=== FILE: components.dfy ===
/**
  An actor's component list: kept sorted by update order by
  `Actor::addComponent`, shrunk by `Actor::removeComponent`, and visited in
  list order by `Actor::Update` while the actor is active.
 */
module Components {
  import opened Seqs

  /**
    A component: its identity (its address in the game) and its update
    order. The game compares components by address, and one component has
    one update order, so two values with the same `id` always carry the
    same `updateOrder`: comparing whole values is comparing addresses.
   */
  datatype Component = Component(id: nat, updateOrder: int)

  datatype ActorState = Active | Paused | Dead

  predicate SortedByOrder(s: seq<Component>)
  {
    forall i, j :: 0 <= i < j < |s| ==> s[i].updateOrder <= s[j].updateOrder
  }

  /** The first position whose component has a strictly greater update order than `order`, or `|s|`. */
  function InsertionPoint(s: seq<Component>, order: int): (k: nat)
    ensures k <= |s|
    ensures forall i :: 0 <= i < k ==> s[i].updateOrder <= order
    ensures k < |s| ==> order < s[k].updateOrder
  {
    if |s| == 0 || order < s[0].updateOrder then 0
    else
      var k := InsertionPoint(s[1..], order);
      assert forall i :: 1 <= i < k + 1 ==> s[i] == s[1..][i - 1];
      k + 1
  }

  /** The list after inserting `c` at its insertion point. */
  function Insert(s: seq<Component>, c: Component): (r: seq<Component>)
  {
    var k := InsertionPoint(s, c.updateOrder);
    s[..k] + [c] + s[k..]
  }

  /**
    `Actor::addComponent`: a linear search for the first component with a
    strictly greater update order, and an insertion in front of it.
   */
  method AddComponent(components: seq<Component>, c: Component) returns (r: seq<Component>)
    ensures |r| == |components| + 1
    ensures r == Insert(components, c)
    ensures multiset(r) == multiset(components) + multiset{c}
  {
    var i := 0;
    while i < |components|
      invariant 0 <= i <= |components|
      invariant forall j :: 0 <= j < i ==> components[j].updateOrder <= c.updateOrder
    {
      if c.updateOrder < components[i].updateOrder {
        break;
      }
      i := i + 1;
    }
    var k := InsertionPoint(components, c.updateOrder);
    assert i == k;
    r := components[..i] + [c] + components[i..];
    assert components == components[..i] + components[i..];
  }

  /**
    The new component lands after every component whose update order is not
    greater than its own, and before every one whose order is greater; a
    sorted list stays sorted.
   */
  lemma {:induction false} InsertPlacement(s: seq<Component>, c: Component)
    requires SortedByOrder(s)
    ensures var k := InsertionPoint(s, c.updateOrder);
            && Insert(s, c)[k] == c
            && (forall i :: 0 <= i < |s| ==> (i < k <==> s[i].updateOrder <= c.updateOrder))
    ensures SortedByOrder(Insert(s, c))
  {
    var k := InsertionPoint(s, c.updateOrder);
    var r := Insert(s, c);
    forall i | 0 <= i < |s| ensures i < k <==> s[i].updateOrder <= c.updateOrder {
      if i >= k && k < |s| {
        assert s[k].updateOrder <= s[i].updateOrder;
      }
    }
    forall i, j | 0 <= i < j < |r| ensures r[i].updateOrder <= r[j].updateOrder {
      if j < k {
        assert r[i] == s[i] && r[j] == s[j];
      } else if j == k {
        assert r[i] == s[i];
      } else if i == k {
        assert r[j] == s[j - 1];
      } else if i < k {
        assert r[i] == s[i] && r[j] == s[j - 1];
      } else {
        assert r[i] == s[i - 1] && r[j] == s[j - 1];
      }
    }
  }

  /** The list after removing the first occurrence of `c`, when there is one. */
  function Remove(s: seq<Component>, c: Component): (r: seq<Component>)
  {
    var k := FirstIndex(s, c);
    if k == |s| then s else s[..k] + s[k + 1..]
  }

  /** `Actor::removeComponent`: `std::find`, then erase at the found position. */
  method RemoveComponent(components: seq<Component>, c: Component) returns (r: seq<Component>)
    ensures r == Remove(components, c)
    ensures c !in components ==> r == components
    ensures c in components ==> |r| == |components| - 1 && multiset(r) == multiset(components) - multiset{c}
  {
    var i := 0;
    while i < |components| && components[i] != c
      invariant 0 <= i <= |components|
      invariant c !in components[..i]
    {
      assert components[..i + 1] == components[..i] + [components[i]];
      i := i + 1;
    }
    assert i == FirstIndex(components, c);
    if i < |components| {
      r := components[..i] + components[i + 1..];
      assert components == components[..i] + [c] + components[i + 1..];
    } else {
      r := components;
    }
  }

  /** Removal keeps the relative order of the rest: the result is the list with one position skipped. */
  lemma RemoveKeepsOrder(s: seq<Component>, c: Component)
    requires c in s
    ensures var k := FirstIndex(s, c);
            && (forall i :: 0 <= i < k ==> Remove(s, c)[i] == s[i])
            && (forall i :: k <= i < |s| - 1 ==> Remove(s, c)[i] == s[i + 1])
  {
    var k := FirstIndex(s, c);
    var r := Remove(s, c);
    assert r == s[..k] + s[k + 1..];
    forall i | k <= i < |s| - 1 ensures r[i] == s[i + 1] {
      assert r[i] == s[k + 1..][i - k];
    }
  }

  /** Removal keeps a sorted list sorted. */
  lemma RemoveKeepsSorted(s: seq<Component>, c: Component)
    requires SortedByOrder(s)
    ensures SortedByOrder(Remove(s, c))
  {
    var k := FirstIndex(s, c);
    if k < |s| {
      var r := Remove(s, c);
      forall i, j | 0 <= i < j < |r| ensures r[i].updateOrder <= r[j].updateOrder {
        var i' := if i < k then i else i + 1;
        var j' := if j < k then j else j + 1;
        assert r[i] == s[i'] && r[j] == s[j'];
      }
    }
  }

  /** Adding a component that is not yet in the list and removing it again gives back the list. */
  lemma {:induction false} RemoveUndoesInsert(s: seq<Component>, c: Component)
    requires c !in s
    ensures Remove(Insert(s, c), c) == s
  {
    var k := InsertionPoint(s, c.updateOrder);
    var r := Insert(s, c);
    assert r[k] == c;
    assert r[..k] == s[..k];
    assert c !in r[..k];
    assert FirstIndex(r, c) == k;
    assert r[..k] + r[k + 1..] == s[..k] + s[k..];
    assert s == s[..k] + s[k..];
  }

  datatype ListOp = Add(c: Component) | Del(c: Component)

  /** The component list after a history of `addComponent` and `removeComponent` calls. */
  function Replay(ops: seq<ListOp>): seq<Component>
  {
    if |ops| == 0 then []
    else
      var s := Replay(ops[..|ops| - 1]);
      match ops[|ops| - 1]
      case Add(c) => Insert(s, c)
      case Del(c) => Remove(s, c)
  }

  /** The components `Actor::Update` asks to update, in the order it asks. */
  function UpdatedComponents(state: ActorState, components: seq<Component>): (r: seq<Component>)
    ensures state != Active ==> r == []
    ensures state == Active ==> multiset(r) == multiset(components)
  {
    if state == Active then components else []
  }

  /**
    Whatever history of additions and removals built the list, an active
    actor updates its components in ascending update order, and an inactive
    actor updates none.
   */
  lemma {:induction false} UpdateInAscendingOrder(state: ActorState, ops: seq<ListOp>)
    ensures SortedByOrder(UpdatedComponents(state, Replay(ops)))
    ensures state != Active ==> UpdatedComponents(state, Replay(ops)) == []
    decreases |ops|
  {
    if |ops| > 0 {
      var prefix := ops[..|ops| - 1];
      UpdateInAscendingOrder(Active, prefix);
      match ops[|ops| - 1]
      case Add(c) => InsertPlacement(Replay(prefix), c);
      case Del(c) => RemoveKeepsSorted(Replay(prefix), c);
    }
  }
}

=== FILE: contacts.dfy ===
/**
  The trigger listener of the physics world: every overlapping pair of
  bodies is classified by the types of the actors owning them, and a player
  touching a plane is allowed to jump again.
 */
module Contacts {

  /** The actor types the game knows. */
  datatype ActorType =
    | BaseActor | AmbientLight | AnimPeople | BasicMesh | Building | GLTFObject | Helmet
    | Plane | Player | PointLight | Ray | Sphere | Target

  /** The eleven types the listener's switch names; every other type falls to its default case. */
  predicate IsListed(t: ActorType)
  {
    !t.BaseActor? && !t.Building?
  }

  /** The name the switch assigns to a listed type. */
  function TypeName(t: ActorType): string
  {
    match t
    case AmbientLight => "AmbientLight"
    case AnimPeople => "AnimPeople"
    case BasicMesh => "BasicMesh"
    case GLTFObject => "GLTFObject"
    case Helmet => "Helmet"
    case Plane => "Plane"
    case Player => "Player"
    case PointLight => "PointLight"
    case Ray => "Ray"
    case Sphere => "Sphere"
    case Target => "Target"
    case _ => "BaseActor"
  }

  /**
    One body's case of `FindActorType`: a listed type yields its own name and
    itself; any other type yields "BaseActor" and leaves the caller's type
    (`initial`) untouched.
   */
  function Classify(t: ActorType, initial: ActorType): (r: (string, ActorType))
    ensures IsListed(t) ==> r.1 == t
    ensures !IsListed(t) ==> r == ("BaseActor", initial)
  {
    if IsListed(t) then (TypeName(t), t) else ("BaseActor", initial)
  }

  /** Listed types have distinct names, none of them "BaseActor": the name tells the type. */
  lemma ClassifyNamesAreDistinct(t1: ActorType, t2: ActorType, i1: ActorType, i2: ActorType)
    requires IsListed(t1)
    ensures Classify(t1, i1).0 != "BaseActor"
    ensures IsListed(t2) && Classify(t1, i1).0 == Classify(t2, i2).0 ==> t1 == t2
  {
  }

  /** Reading a name back: the listed type with that name, or BaseActor for any other name. */
  function TypeOfName(name: string): (t: ActorType)
    ensures name == "BaseActor" ==> t == BaseActor
    ensures forall u :: IsListed(u) && TypeName(u) == name ==> t == u
  {
    match name
    case "AmbientLight" => AmbientLight
    case "AnimPeople" => AnimPeople
    case "BasicMesh" => BasicMesh
    case "GLTFObject" => GLTFObject
    case "Helmet" => Helmet
    case "Plane" => Plane
    case "Player" => Player
    case "PointLight" => PointLight
    case "Ray" => Ray
    case "Sphere" => Sphere
    case "Target" => Target
    case _ => BaseActor
  }

  datatype Classified = Classified(name1: string, type1: ActorType, name2: string, type2: ActorType)

  /**
    `FindActorType` as `onTrigger` calls it: both out-parameter types start
    as BaseActor, and the second body goes through the same table as the
    first.
   */
  function FindActorType(owner1: ActorType, owner2: ActorType): (r: Classified)
    ensures (r.name1, r.type1) == Classify(owner1, BaseActor)
    ensures (r.name2, r.type2) == Classify(owner2, BaseActor)
    ensures IsListed(owner1) ==> r.type1 == owner1
    ensures !IsListed(owner1) ==> r.name1 == "BaseActor" && r.type1 == BaseActor
    ensures IsListed(owner2) ==> r.type2 == owner2
    ensures !IsListed(owner2) ==> r.name2 == "BaseActor" && r.type2 == BaseActor
    ensures TypeOfName(r.name1) == r.type1 && TypeOfName(r.name2) == r.type2
  {
    var c1 := Classify(owner1, BaseActor);
    var c2 := Classify(owner2, BaseActor);
    Classified(c1.0, c1.1, c2.0, c2.1)
  }

  /** The classification does not depend on which body of the pair comes first. */
  lemma FindActorTypeSymmetric(owner1: ActorType, owner2: ActorType)
    ensures var a := FindActorType(owner1, owner2);
            var b := FindActorType(owner2, owner1);
            a.name1 == b.name2 && a.type1 == b.type2 && a.name2 == b.name1 && a.type2 == b.type1
  {
  }

  /** Which body of a pair. */
  datatype Body = First | Second

  /**
    `FindBehaviour`: the bodies whose owner is told `AllowJump`. Only a
    {Plane, Player} pair, in either order, does anything, and then it is the
    player's body.
   */
  function FindBehaviour(type1: ActorType, type2: ActorType): (r: seq<Body>)
    ensures |r| <= 1
    ensures |r| == 1 <==> (type1 == Plane && type2 == Player) || (type1 == Player && type2 == Plane)
    ensures |r| == 1 ==> (if r[0] == First then type1 else type2) == Player
  {
    if (type1 == Plane && type2 == Player) || (type1 == Player && type2 == Plane) then
      if type1 == Player then [First] else [Second]
    else []
  }

  /** Swapping the bodies of a pair swaps which body jumps. */
  lemma FindBehaviourSymmetric(type1: ActorType, type2: ActorType)
    ensures |FindBehaviour(type1, type2)| == |FindBehaviour(type2, type1)|
    ensures FindBehaviour(type1, type2) == [First] <==> FindBehaviour(type2, type1) == [Second]
  {
  }

  /** One overlapping pair: the owners (identities) of both bodies and their actor types. */
  datatype OverlapPair = OverlapPair(owner1: nat, actor1: ActorType, owner2: nat, actor2: ActorType)

  /** The owners told `AllowJump` for one pair. */
  function PairJumps(p: OverlapPair): (r: seq<nat>)
    ensures |r| <= 1
  {
    var c := FindActorType(p.actor1, p.actor2);
    var bodies := FindBehaviour(c.type1, c.type2);
    if |bodies| == 0 then [] else if bodies[0] == First then [p.owner1] else [p.owner2]
  }

  /** A player touching a plane. */
  predicate IsPlayerOnPlane(p: OverlapPair)
  {
    (p.actor1 == Player && p.actor2 == Plane) || (p.actor1 == Plane && p.actor2 == Player)
  }

  /** The owner of the player body of a player/plane pair. */
  function PlayerOwner(p: OverlapPair): nat
  {
    if p.actor1 == Player then p.owner1 else p.owner2
  }

  /** The classification followed by the rule calls `AllowJump` once exactly for a player/plane pair, on the player. */
  lemma PairJumpsMeaning(p: OverlapPair)
    ensures IsPlayerOnPlane(p) ==> PairJumps(p) == [PlayerOwner(p)]
    ensures !IsPlayerOnPlane(p) ==> PairJumps(p) == []
  {
  }

  /** The reference behaviour of `onTrigger`: each pair's jumps, in pair order. */
  function Jumps(pairs: seq<OverlapPair>): seq<nat>
  {
    if |pairs| == 0 then [] else Jumps(pairs[..|pairs| - 1]) + PairJumps(pairs[|pairs| - 1])
  }

  /** `onTrigger`: the loop over the overlapping pairs, in index order. */
  method OnTrigger(pairs: seq<OverlapPair>) returns (jumps: seq<nat>)
    ensures jumps == Jumps(pairs)
    ensures |jumps| <= |pairs|
  {
    jumps := [];
    var p := 0;
    while p < |pairs|
      invariant 0 <= p <= |pairs|
      invariant jumps == Jumps(pairs[..p])
      invariant |jumps| <= p
    {
      assert pairs[..p + 1][..p] == pairs[..p];
      jumps := jumps + PairJumps(pairs[p]);
      p := p + 1;
    }
    assert pairs[..p] == pairs;
  }

  /** The number of player/plane pairs. */
  function PlayerOnPlaneCount(pairs: seq<OverlapPair>): nat
  {
    if |pairs| == 0 then 0
    else PlayerOnPlaneCount(pairs[..|pairs| - 1]) + (if IsPlayerOnPlane(pairs[|pairs| - 1]) then 1 else 0)
  }

  /** Processing a batch of pairs is processing its parts one after the other. */
  lemma {:induction false} JumpsAppend(a: seq<OverlapPair>, b: seq<OverlapPair>)
    ensures Jumps(a + b) == Jumps(a) + Jumps(b)
    decreases |b|
  {
    if |b| == 0 {
      assert a + b == a;
    } else {
      var b', last := b[..|b| - 1], b[|b| - 1];
      assert Jumps(a + b) == Jumps(a + b') + PairJumps(last) by {
        assert (a + b)[..|a + b| - 1] == a + b';
      }
      JumpsAppend(a, b');
    }
  }

  /** A batch allows as many jumps as it has player/plane pairs. */
  lemma {:induction false} JumpsCount(pairs: seq<OverlapPair>)
    ensures |Jumps(pairs)| == PlayerOnPlaneCount(pairs)
    decreases |pairs|
  {
    if |pairs| > 0 {
      JumpsCount(pairs[..|pairs| - 1]);
      PairJumpsMeaning(pairs[|pairs| - 1]);
    }
  }
}

=== FILE: flatten_apply.dfy ===
/**
  The rewrite of the "flatten conditional branch" transformation
  (`TransformationFlattenConditionalBranch::Apply` and
  `EncloseInstructionInConditional`): phis at the convergence block become
  selects, the blocks of both arms are laid out after the header, every
  side-effecting instruction is enclosed in its own conditional, the header
  and the end of the first arm are relinked, and dead-block and
  irrelevant-id facts are recorded.
 */
module FlattenApply {
  import opened Ir
  import opened FlattenCheck
  import opened Region

  /** The fact manager's two append-only sets. */
  datatype FactState = FactState(deadBlocks: set<Id>, irrelevantIds: set<Id>)

  /** The state threaded through the rewrite: the module, the overflow source and the queued facts. */
  datatype ApplyState = ApplyState(m: Module, overflow: OverflowIds, deadQueue: seq<Id>, irrelevantQueue: seq<Id>)

  /** What stays fixed while one arm is rewritten. */
  datatype ArmContext = ArmContext(
    deadFacts: set<Id>,
    wrappers: map<InstRef, WrapperInfo>,
    condition: Id,
    execIfTrue: bool)

  datatype ApplyResult = ApplyResult(m: Module, facts: FactState, overflow: OverflowIds)

  // ---------------------------------------------------------------------------
  // Convergence block

  /** The walk of `Apply` along the true branch to the first block that post-dominates the header. */
  function Convergence(m: Module, d: Dominance, h: Id, b: Id, n: nat): (r: Id)
    requires ArmConverges(m, d, h, b, n)
    decreases n
    ensures d.PostDominates(r, h)
    ensures d.PostDominates(b, h) ==> r == b
  {
    if d.PostDominates(b, h) then b
    else Convergence(m, d, h, m.fn.blocks[b].terminator.target, n - 1)
  }

  // ---------------------------------------------------------------------------
  // Phis at the convergence block become selects

  /**
    One phi `[v1, p1, v2, p2]` becomes `select(condition, vTrue, vFalse)`,
    where the true value is the one coming from the predecessor that the
    header's true target dominates. A phi with fewer than four in-operands
    is left alone.
   */
  function PhiToSelect(d: Dominance, condition: Id, trueTarget: Id, phi: Instruction): Instruction
  {
    if |phi.operands| < 4 then phi
    else if d.Dominates(trueTarget, phi.operands[1]) then
      phi.(op := Select, operands := [condition, phi.operands[0], phi.operands[2]])
    else
      phi.(op := Select, operands := [condition, phi.operands[2], phi.operands[0]])
  }

  /** The number of phis at the start of a body (`ForEachPhiInst` visits exactly these). */
  function LeadingPhis(body: seq<Instruction>): (n: nat)
    ensures n <= |body|
    ensures forall i :: 0 <= i < n ==> body[i].op.Phi?
    ensures n < |body| ==> !body[n].op.Phi?
  {
    if |body| == 0 || !body[0].op.Phi? then 0 else 1 + LeadingPhis(body[1..])
  }

  /** Each leading phi is rewritten into a select; every other instruction stays. */
  function RewritePhis(d: Dominance, condition: Id, trueTarget: Id, body: seq<Instruction>): (r: seq<Instruction>)
    ensures |r| == |body|
    ensures forall i :: 0 <= i < LeadingPhis(body) ==> r[i] == PhiToSelect(d, condition, trueTarget, body[i])
    ensures forall i :: LeadingPhis(body) <= i < |body| ==> r[i] == body[i]
  {
    if |body| == 0 || !body[0].op.Phi? then body
    else
      var rest := RewritePhis(d, condition, trueTarget, body[1..]);
      assert forall i :: 1 <= i < |body| ==> body[1..][i - 1] == body[i];
      [PhiToSelect(d, condition, trueTarget, body[0])] + rest
  }

  /** The value a phi yields when control arrives from `pred`. */
  function PhiValue(phi: Instruction, pred: Id): Option<Id>
  {
    if |phi.operands| >= 2 && phi.operands[1] == pred then Some(phi.operands[0])
    else if |phi.operands| >= 4 && phi.operands[3] == pred then Some(phi.operands[2])
    else None
  }

  /** The value a select yields for a given condition value. */
  function SelectValue(sel: Instruction, conditionValue: bool): Option<Id>
  {
    if |sel.operands| != 3 then None
    else if conditionValue then Some(sel.operands[1]) else Some(sel.operands[2])
  }

  /**
    The select computes what the phi did: when exactly one of the phi's two
    predecessors lies on the true arm (is dominated by the true target), and
    control would have arrived from the true arm exactly when the condition
    holds, the select yields the value the phi would have yielded.
   */
  lemma PhiToSelectPreservesValue(d: Dominance, condition: Id, trueTarget: Id, phi: Instruction,
                                  pred: Id, conditionValue: bool)
    requires phi.op.Phi? && |phi.operands| == 4 && phi.operands[1] != phi.operands[3]
    requires d.Dominates(trueTarget, phi.operands[1]) != d.Dominates(trueTarget, phi.operands[3])
    requires pred == phi.operands[1] || pred == phi.operands[3]
    requires conditionValue <==> d.Dominates(trueTarget, pred)
    ensures PhiToSelect(d, condition, trueTarget, phi).op.Select?
    ensures PhiToSelect(d, condition, trueTarget, phi).operands[0] == condition
    ensures SelectValue(PhiToSelect(d, condition, trueTarget, phi), conditionValue) == PhiValue(phi, pred)
  {
  }

  /** The convergence block's phis, rewritten in place. */
  function RewriteConvergencePhis(f: Function, d: Dominance, conv: Id, condition: Id, trueTarget: Id): (r: Function)
    ensures r.layout == f.layout && r.blocks.Keys == f.blocks.Keys
    ensures forall b :: b in f.blocks && b != conv ==> r.blocks[b] == f.blocks[b]
    ensures conv in f.blocks ==>
              r.blocks[conv] == f.blocks[conv].(body := RewritePhis(d, condition, trueTarget, f.blocks[conv].body))
  {
    if conv !in f.blocks then f
    else
      var blk := f.blocks[conv];
      f.(blocks := f.blocks[conv := blk.(body := RewritePhis(d, condition, trueTarget, blk.body))])
  }

  // ---------------------------------------------------------------------------
  // Ids for one wrapped instruction

  /**
    The ids for the instruction at `ref`: its wrapper entry if there is one,
    otherwise ids drawn from the overflow source in the order merge,
    execute, actual result, alternative block, placeholder, with a zero
    constant of the instruction's type (irrelevant preferred) as the value
    to copy, or 0 when there is none.
   */
  function ResolveWrapper(m: Module, wrappers: map<InstRef, WrapperInfo>, ref: InstRef, inst: Instruction, ov: OverflowIds)
    : (r: (WrapperInfo, OverflowIds))
    ensures ref in wrappers ==> r == (wrappers[ref], ov)
    ensures ref !in wrappers ==>
              && r.0.mergeBlockId == ov.next && r.0.executeBlockId == ov.next + 1
              && r.1 == ov.(next := ov.next + (if NeedsPlaceholder(m, inst) then 5 else 2))
    ensures ref !in wrappers ==> forall x :: x in WrapBlocks(r.0, NeedsPlaceholder(m, inst)) ==> ov.next <= x < r.1.next
    ensures ref !in wrappers ==> forall b: Id :: b < ov.next ==> DistinctWrapIds(b, r.0, NeedsPlaceholder(m, inst))
    ensures ref !in wrappers && NeedsPlaceholder(m, inst) ==>
              && r.0.actualResultId == ov.next + 2
              && r.0.alternativeBlockId == ov.next + 3
              && r.0.placeholderResultId == ov.next + 4
              && r.0.valueToCopyId == (if (inst.typeId, true) in m.zeroConstants then m.zeroConstants[(inst.typeId, true)]
                                       else if (inst.typeId, false) in m.zeroConstants then m.zeroConstants[(inst.typeId, false)]
                                       else 0)
  {
    if ref in wrappers then (wrappers[ref], ov)
    else
      var n := ov.next;
      if NeedsPlaceholder(m, inst) then
        var zero := if (inst.typeId, true) in m.zeroConstants then m.zeroConstants[(inst.typeId, true)]
                    else if (inst.typeId, false) in m.zeroConstants then m.zeroConstants[(inst.typeId, false)]
                    else 0;
        (WrapperInfo(ref, n, n + 1, n + 2, n + 3, n + 4, zero), ov.(next := n + 5))
      else
        (WrapperInfo(ref, n, n + 1, 0, 0, 0, 0), ov.(next := n + 2))
  }

  // ---------------------------------------------------------------------------
  // Enclosing one instruction in a conditional

  datatype Enclosed = Enclosed(m: Module, mergeBlock: Id, dead: seq<Id>, irrelevant: seq<Id>)

  /** The new block ids of one wrap differ from each other and from the block being split. */
  predicate DistinctWrapIds(b: Id, w: WrapperInfo, placeholder: bool)
  {
    b != w.executeBlockId && b != w.mergeBlockId && w.executeBlockId != w.mergeBlockId
    && (placeholder ==> w.alternativeBlockId !in {b, w.executeBlockId, w.mergeBlockId})
  }

  /** The wrapped instruction as its execute block holds it: with a placeholder, it defines the actual result id instead. */
  function Executed(inst: Instruction, w: WrapperInfo, placeholder: bool): (r: Instruction)
    ensures r.op == inst.op && r.typeId == inst.typeId && r.operands == inst.operands
    ensures r.resultId == if placeholder then Some(w.actualResultId) else inst.resultId
  {
    if placeholder then inst.(resultId := Some(w.actualResultId)) else inst
  }

  /**
    The phi that starts the merge block when a placeholder is needed: it
    keeps the instruction's original result id, taking the actual result
    from the execute block and the placeholder from the alternative block.
   */
  function ResultPhi(w: WrapperInfo, inst: Instruction): (r: Instruction)
    ensures r.op.Phi? && r.resultId == inst.resultId && r.typeId == inst.typeId
    ensures r.operands == [w.actualResultId, w.executeBlockId, w.placeholderResultId, w.alternativeBlockId]
  {
    Instruction(Phi, inst.resultId, inst.typeId, [w.actualResultId, w.executeBlockId, w.placeholderResultId, w.alternativeBlockId])
  }

  /** The instruction defining the placeholder: a copy of the value to copy, or an undefined value. */
  function PlaceholderDef(w: WrapperInfo, ty: Id): (r: Instruction)
    ensures r.resultId == Some(w.placeholderResultId) && r.typeId == ty
    ensures r.op.CopyObject? <==> w.valueToCopyId != 0
    ensures r.op.Undef? <==> w.valueToCopyId == 0
  {
    if w.valueToCopyId != 0 then Instruction(CopyObject, Some(w.placeholderResultId), ty, [w.valueToCopyId])
    else Instruction(Undef, Some(w.placeholderResultId), ty, [])
  }

  /**
    `EncloseInstructionInConditional`: block `b`, made of `prefix`, `inst`,
    `suffix` and `term` (and the merge marker `bMerge`), is split so that
    `inst` runs in its own execute block, guarded by `condition`.
   */
  function Enclose(m: Module, deadFacts: set<Id>, b: Id, bMerge: Option<Merge>, prefix: seq<Instruction>,
                   inst: Instruction, suffix: seq<Instruction>, term: Terminator, w: WrapperInfo,
                   condition: Id, execIfTrue: bool): (r: Enclosed)
    ensures r.mergeBlock == w.mergeBlockId
    ensures r.mergeBlock in r.m.fn.blocks && r.m.fn.blocks[r.mergeBlock].terminator == term
            && r.m.fn.blocks[r.mergeBlock].merge == bMerge
    ensures m.fn.blocks.Keys <= r.m.fn.blocks.Keys
    ensures r.m.idBound >= m.idBound && r.m.idBound > w.mergeBlockId && r.m.idBound > w.executeBlockId
    ensures r.m.globals == m.globals && r.m.typeIsVoid == m.typeIsVoid && r.m.zeroConstants == m.zeroConstants
    ensures forall x :: x in m.fn.blocks && x !in {b, w.executeBlockId, w.mergeBlockId, w.alternativeBlockId} ==>
              r.m.fn.blocks[x] == m.fn.blocks[x]
    ensures (set x | x in r.dead) == if b in deadFacts then WrapBlocks(w, NeedsPlaceholder(m, inst)) else {}
    ensures r.irrelevant == if NeedsPlaceholder(m, inst) then [w.placeholderResultId] else []
  {
    var ph := NeedsPlaceholder(m, inst);
    var execId := w.executeBlockId;
    var mergeId := w.mergeBlockId;
    var altId := if ph then w.alternativeBlockId else mergeId;
    var executed := Executed(inst, w, ph);
    var mergeBody :=
      if ph then [ResultPhi(w, inst)] + suffix
      else suffix;
    var ifId := if execIfTrue then execId else altId;
    var elseId := if execIfTrue then altId else execId;
    var blocks1 := m.fn.blocks[b := Block(Some(SelectionMerge(mergeId)), prefix, BranchConditional(condition, ifId, elseId))]
                              [execId := Block(None, [executed], Branch(mergeId))];
    var blocks2 := (if ph then blocks1[altId := Block(None, [PlaceholderDef(w, inst.typeId)], Branch(mergeId))] else blocks1)
                     [mergeId := Block(bMerge, mergeBody, term)];
    var newIds := WrapOrder(w, ph);
    var bound1 := UpdateIdBound(UpdateIdBound(m.idBound, mergeId), execId);
    var bound2 := if ph then UpdateIdBound(UpdateIdBound(UpdateIdBound(bound1, w.actualResultId), w.alternativeBlockId), w.placeholderResultId)
                  else bound1;
    var dead := if b in deadFacts then (if ph then [execId, mergeId, altId] else [execId, mergeId]) else [];
    var m' := m.(fn := Function(blocks2, InsertAfter(m.fn.layout, b, newIds)), idBound := bound2);
    Enclosed(m', mergeId, dead, if ph then [w.placeholderResultId] else [])
  }

  /** How a wrap's new blocks are laid out right after the split block: execute, alternative, merge. */
  function WrapOrder(w: WrapperInfo, placeholder: bool): (r: seq<Id>)
    ensures (set x | x in r) == WrapBlocks(w, placeholder)
    ensures |r| > 0 && r[|r| - 1] == w.mergeBlockId
  {
    if placeholder then [w.executeBlockId, w.alternativeBlockId, w.mergeBlockId]
    else [w.executeBlockId, w.mergeBlockId]
  }

  /** The blocks a wrap creates. */
  function WrapBlocks(w: WrapperInfo, placeholder: bool): set<Id>
  {
    if placeholder then {w.executeBlockId, w.mergeBlockId, w.alternativeBlockId}
    else {w.executeBlockId, w.mergeBlockId}
  }

  /**
    The shape a wrap leaves behind: the split block keeps the prefix and ends
    in a selection merge on the merge block and a conditional branch on the
    header's condition, with the execute block on the true side iff
    `execIfTrue`; the execute block holds only the instruction and a branch
    to the merge block; with a placeholder, the alternative block defines it
    and the merge block starts with a phi that keeps the instruction's
    original result id over (actual result, execute) and (placeholder,
    alternative); the merge block carries the rest of the original block.
   */
  predicate EncloseShape(m: Module, r: Enclosed, b: Id, prefix: seq<Instruction>, inst: Instruction,
                         suffix: seq<Instruction>, term: Terminator, bMerge: Option<Merge>, w: WrapperInfo,
                         condition: Id, execIfTrue: bool)
  {
    var ph := NeedsPlaceholder(m, inst);
    var blocks := r.m.fn.blocks;
    var other := if ph then w.alternativeBlockId else w.mergeBlockId;
    && b in blocks && w.executeBlockId in blocks && w.mergeBlockId in blocks
    && blocks[b].body == prefix
    && blocks[b].merge == Some(SelectionMerge(w.mergeBlockId))
    && blocks[b].terminator.BranchConditional?
    && blocks[b].terminator.condition == condition
    && (blocks[b].terminator.trueTarget == w.executeBlockId <==> execIfTrue)
    && {blocks[b].terminator.trueTarget, blocks[b].terminator.falseTarget} == {w.executeBlockId, other}
    && |blocks[w.executeBlockId].body| == 1
    && blocks[w.executeBlockId].body[0].op == inst.op
    && blocks[w.executeBlockId].body[0].operands == inst.operands
    && blocks[w.executeBlockId].body[0].resultId == (if ph then Some(w.actualResultId) else inst.resultId)
    && blocks[w.executeBlockId].terminator == Branch(w.mergeBlockId)
    && blocks[w.mergeBlockId].terminator == term
    && blocks[w.mergeBlockId].merge == bMerge
    && (!ph ==> blocks[w.mergeBlockId].body == suffix)
    && (ph ==>
          && w.alternativeBlockId in blocks
          && blocks[w.alternativeBlockId].terminator == Branch(w.mergeBlockId)
          && |blocks[w.alternativeBlockId].body| == 1
          && blocks[w.alternativeBlockId].body[0].resultId == Some(w.placeholderResultId)
          && blocks[w.alternativeBlockId].body[0].typeId == inst.typeId
          && |blocks[w.mergeBlockId].body| == |suffix| + 1
          && blocks[w.mergeBlockId].body[1..] == suffix
          && blocks[w.mergeBlockId].body[0].op.Phi?
          && blocks[w.mergeBlockId].body[0].resultId == inst.resultId
          && blocks[w.mergeBlockId].body[0].operands ==
               [w.actualResultId, w.executeBlockId, w.placeholderResultId, w.alternativeBlockId])
  }

  /** When the new ids are distinct, the split leaves the shape above. */
  lemma EncloseMeaning(m: Module, deadFacts: set<Id>, b: Id, bMerge: Option<Merge>, prefix: seq<Instruction>,
                       inst: Instruction, suffix: seq<Instruction>, term: Terminator, w: WrapperInfo,
                       condition: Id, execIfTrue: bool)
    requires DistinctWrapIds(b, w, NeedsPlaceholder(m, inst))
    ensures EncloseShape(m, Enclose(m, deadFacts, b, bMerge, prefix, inst, suffix, term, w, condition, execIfTrue),
                         b, prefix, inst, suffix, term, bMerge, w, condition, execIfTrue)
  {
  }

  // ---------------------------------------------------------------------------
  // Wrapping every side-effecting instruction of one block

  function CountEffectful(s: seq<Instruction>): nat
  {
    if |s| == 0 then 0 else (if HasNoSideEffects(s[0].op) then 0 else 1) + CountEffectful(s[1..])
  }

  /** Every side-effecting instruction of `rest` (at `idx` onwards in block `orig`) has a wrapper entry. */
  predicate AllWrapped(wrappers: map<InstRef, WrapperInfo>, orig: Id, idx: nat, rest: seq<Instruction>)
  {
    forall i :: 0 <= i < |rest| && !HasNoSideEffects(rest[i].op) ==> InstRef(orig, idx + i) in wrappers
  }

  /**
    The instruction loop of one arm block: `cur` currently holds `prefix`
    followed by `rest`; the side-effecting instructions of `rest` (which sit
    at position `idx` onwards of the original block `orig`) are enclosed one
    after the other, each time continuing in the new merge block. Returns the
    block that ends up holding the original terminator.
   */
  function WrapBody(st: ApplyState, ctx: ArmContext, cur: Id, bMerge: Option<Merge>, prefix: seq<Instruction>,
                    rest: seq<Instruction>, orig: Id, idx: nat, term: Terminator): (r: (ApplyState, Id))
    decreases |rest|
    ensures st.m.fn.blocks.Keys <= r.0.m.fn.blocks.Keys
    ensures r.0.m.idBound >= st.m.idBound
    ensures r.0.m.globals == st.m.globals && r.0.m.typeIsVoid == st.m.typeIsVoid && r.0.m.zeroConstants == st.m.zeroConstants
    ensures st.deadQueue <= r.0.deadQueue && st.irrelevantQueue <= r.0.irrelevantQueue
    ensures r.0.overflow.hasIds == st.overflow.hasIds && r.0.overflow.next >= st.overflow.next
    ensures AllWrapped(ctx.wrappers, orig, idx, rest) ==> r.0.overflow == st.overflow
    ensures CountEffectful(rest) == 0 ==> r == (st, cur)
    ensures cur in st.m.fn.blocks && st.m.fn.blocks[cur].terminator == term ==>
              r.1 in r.0.m.fn.blocks && r.0.m.fn.blocks[r.1].terminator == term
  {
    if |rest| == 0 then (st, cur)
    else
      var inst := rest[0];
      assert AllWrapped(ctx.wrappers, orig, idx, rest) ==> AllWrapped(ctx.wrappers, orig, idx + 1, rest[1..]) by {
        forall i | 0 <= i < |rest[1..]| ensures rest[1..][i] == rest[i + 1] { }
      }
      if HasNoSideEffects(inst.op) then
        WrapBody(st, ctx, cur, bMerge, prefix + [inst], rest[1..], orig, idx + 1, term)
      else
        var ref := InstRef(orig, idx);
        var rw := ResolveWrapper(st.m, ctx.wrappers, ref, inst, st.overflow);
        var w := rw.0;
        var e := Enclose(st.m, ctx.deadFacts, cur, bMerge, prefix, inst, rest[1..], term, w, ctx.condition, ctx.execIfTrue);
        var st' := ApplyState(e.m, rw.1, st.deadQueue + e.dead, st.irrelevantQueue + e.irrelevant);
        var prefix' := if NeedsPlaceholder(st.m, inst) then [ResultPhi(w, inst)] else [];
        WrapBody(st', ctx, e.mergeBlock, bMerge, prefix', rest[1..], orig, idx + 1, term)
  }

  // ---------------------------------------------------------------------------
  // Walking one arm

  /**
    The walk of one arm in `Apply`: each block from `next` up to the
    convergence block is moved right after `current` and its side-effecting
    instructions are enclosed. Returns the last block of the arm (the one
    that branches to the convergence block), if the arm has blocks.
    `fuel` bounds the number of blocks visited.
   */
  function WalkArm(st: ApplyState, ctx: ArmContext, current: Id, next: Id, conv: Id, fuel: nat)
    : (r: (ApplyState, Option<Id>))
    decreases fuel
    ensures st.m.fn.blocks.Keys <= r.0.m.fn.blocks.Keys
    ensures r.0.m.idBound >= st.m.idBound
    ensures r.0.m.globals == st.m.globals && r.0.m.typeIsVoid == st.m.typeIsVoid && r.0.m.zeroConstants == st.m.zeroConstants
    ensures st.deadQueue <= r.0.deadQueue && st.irrelevantQueue <= r.0.irrelevantQueue
    ensures r.0.overflow.hasIds == st.overflow.hasIds && r.0.overflow.next >= st.overflow.next
    ensures next == conv ==> r == (st, None)
    ensures r.1.Some? ==> r.1.value in r.0.m.fn.blocks && r.0.m.fn.blocks[r.1.value].terminator == Branch(conv)
  {
    if next == conv || fuel == 0 || next !in st.m.fn.blocks then (st, None)
    else
      var blk := st.m.fn.blocks[next];
      var st1 := st.(m := st.m.(fn := st.m.fn.(layout := MoveAfter(st.m.fn.layout, next, current))));
      var (st2, last) := WrapBody(st1, ctx, next, blk.merge, [], blk.body, next, 0, blk.terminator);
      if !blk.terminator.Branch? then (st2, None)
      else if blk.terminator.target == conv then (st2, Some(last))
      else WalkArm(st2, ctx, last, blk.terminator.target, conv, fuel - 1)
  }

  // ---------------------------------------------------------------------------
  // Apply

  /** The entry blocks of the arm laid out first and of the arm laid out last. */
  function ArmEntries(t: FlattenMessage, term: Terminator): (r: (Id, Id))
    requires term.BranchConditional?
    ensures {r.0, r.1} == {term.trueTarget, term.falseTarget}
    ensures r.0 == (if t.trueBranchFirst then term.trueTarget else term.falseTarget)
  {
    if t.trueBranchFirst then (term.trueTarget, term.falseTarget) else (term.falseTarget, term.trueTarget)
  }

  /**
    Flipping `trueBranchFirst` swaps which arm is laid out first; when the
    header's targets differ, the true target is laid out first exactly when
    the message asks for it.
   */
  lemma ArmEntriesSwap(t: FlattenMessage, term: Terminator)
    requires term.BranchConditional?
    ensures ArmEntries(t.(trueBranchFirst := !t.trueBranchFirst), term) == (ArmEntries(t, term).1, ArmEntries(t, term).0)
    ensures term.trueTarget != term.falseTarget ==> (ArmEntries(t, term).0 == term.trueTarget <==> t.trueBranchFirst)
  {
  }

  /** The phis at the start of `body` with their first predecessor operand set to `pred`. */
  function RetargetPhis(body: seq<Instruction>, pred: Id): (r: seq<Instruction>)
    ensures |r| == |body|
    ensures forall i :: 0 <= i < LeadingPhis(body) && |body[i].operands| >= 2 ==>
              r[i] == body[i].(operands := body[i].operands[1 := pred])
    ensures forall i :: 0 <= i < |body| && (i >= LeadingPhis(body) || |body[i].operands| < 2) ==> r[i] == body[i]
  {
    if |body| == 0 || !body[0].op.Phi? then body
    else
      var p := body[0];
      var p' := if |p.operands| >= 2 then p.(operands := p.operands[1 := pred]) else p;
      var rest := RetargetPhis(body[1..], pred);
      assert forall i :: 1 <= i < |body| ==> body[1..][i - 1] == body[i];
      [p'] + rest
  }

  /** Both arms, visited in reverse of their final layout order. */
  function RewriteArms(st: ApplyState, facts: FactState, wrappers: map<InstRef, WrapperInfo>, h: Id,
                       term: Terminator, conv: Id, t: FlattenMessage, fuel: nat): (r: (ApplyState, Option<Id>))
    requires term.BranchConditional?
    ensures st.m.fn.blocks.Keys <= r.0.m.fn.blocks.Keys
    ensures r.0.m.idBound >= st.m.idBound
    ensures st.deadQueue <= r.0.deadQueue && st.irrelevantQueue <= r.0.irrelevantQueue
    ensures r.0.overflow.hasIds == st.overflow.hasIds && r.0.overflow.next >= st.overflow.next
    ensures r.1.Some? ==> r.1.value in r.0.m.fn.blocks && r.0.m.fn.blocks[r.1.value].terminator == Branch(conv)
    ensures ArmEntries(t, term).0 == conv ==> r.1.None?
  {
    var (firstEntry, lastEntry) := ArmEntries(t, term);
    var lastCtx := ArmContext(facts.deadBlocks, wrappers, term.condition, !t.trueBranchFirst);
    var firstCtx := ArmContext(facts.deadBlocks, wrappers, term.condition, t.trueBranchFirst);
    var (st1, _) := WalkArm(st, lastCtx, h, lastEntry, conv, fuel);
    WalkArm(st1, firstCtx, h, firstEntry, conv, fuel)
  }

  /** The successor the header branches to once flattened. */
  function AfterHeader(t: FlattenMessage, term: Terminator, conv: Id): Id
    requires term.BranchConditional?
  {
    var (firstEntry, lastEntry) := ArmEntries(t, term);
    if firstEntry != conv then firstEntry else lastEntry
  }

  /** The convergence block of an applicable transformation. */
  function ConvergenceOf(m: Module, d: Dominance, ov: OverflowIds, t: FlattenMessage): (r: Id)
    requires IsApplicable(m, d, ov, t)
    ensures d.PostDominates(r, t.headerBlockId)
  {
    ApplicableArmsConverge(m, d, ov, t);
    Convergence(m, d, t.headerBlockId, m.fn.blocks[t.headerBlockId].terminator.trueTarget, WalkFuel(m.fn))
  }

  /** The state after the phi rewrite and both arm walks, and the last block of the first arm. */
  function ApplyArms(m: Module, d: Dominance, facts: FactState, ov: OverflowIds, t: FlattenMessage)
    : (r: (ApplyState, Option<Id>))
    requires IsApplicable(m, d, ov, t)
    ensures m.fn.blocks.Keys <= r.0.m.fn.blocks.Keys
    ensures r.0.m.idBound >= m.idBound
    ensures r.0.overflow.hasIds == ov.hasIds && r.0.overflow.next >= ov.next
    ensures r.1.Some? ==> r.1.value in r.0.m.fn.blocks
                          && r.0.m.fn.blocks[r.1.value].terminator == Branch(ConvergenceOf(m, d, ov, t))
  {
    var h := t.headerBlockId;
    var term := m.fn.blocks[h].terminator;
    var conv := ConvergenceOf(m, d, ov, t);
    var fn1 := if term.trueTarget != term.falseTarget
               then RewriteConvergencePhis(m.fn, d, conv, term.condition, term.trueTarget)
               else m.fn;
    var wrappers := InstructionsToWrapperInfo(m.fn, t.wrappers);
    var st0 := ApplyState(m.(fn := fn1), ov, [], []);
    RewriteArms(st0, facts, wrappers, h, term, conv, t, |m.fn.blocks|)
  }

  /**
    The header loses its merge and conditional branch and branches to
    `afterHeader`; the last block of the first arm, if any, branches to the
    entry of the other arm, whose leading phis now name that block as their
    predecessor.
   */
  function Relink(blocks: map<Id, Block>, h: Id, afterHeader: Id, lastFirst: Option<Id>, lastEntry: Id, conv: Id)
    : (r: map<Id, Block>)
    requires h in blocks
    requires lastFirst.Some? ==> lastFirst.value in blocks
    ensures blocks.Keys == r.Keys
    ensures r[h].merge.None? && r[h].terminator.Branch?
    ensures lastFirst != Some(h) && (lastFirst.Some? ==> lastEntry != h) ==> r[h] == Block(None, blocks[h].body, Branch(afterHeader))
    ensures lastFirst.Some? ==> r[lastFirst.value].terminator == Branch(lastEntry)
    ensures lastFirst.Some? && lastEntry != conv && lastEntry in blocks && lastEntry != lastFirst.value && lastEntry != h ==>
              r[lastEntry] == blocks[lastEntry].(body := RetargetPhis(blocks[lastEntry].body, lastFirst.value))
    ensures forall x :: x in blocks && x != h && Some(x) != lastFirst && (x != lastEntry || x == conv) ==> r[x] == blocks[x]
    ensures forall x :: x in blocks && x != h && Some(x) != lastFirst ==>
              r[x].merge == blocks[x].merge && r[x].terminator == blocks[x].terminator
    ensures forall x :: x in blocks && x != lastEntry ==> r[x].body == blocks[x].body
  {
    var blocks1 := blocks[h := Block(None, blocks[h].body, Branch(afterHeader))];
    if lastFirst.None? then blocks1
    else
      var lb := lastFirst.value;
      var b2 := blocks1[lb := blocks1[lb].(terminator := Branch(lastEntry))];
      if lastEntry != conv && lastEntry in b2 then
        b2[lastEntry := b2[lastEntry].(body := RetargetPhis(b2[lastEntry].body, lb))]
      else b2
  }

  /** The last step of `Apply`: relink, then add the queued facts. */
  function Finish(st: ApplyState, facts: FactState, h: Id, afterHeader: Id, lastFirst: Option<Id>, lastEntry: Id, conv: Id)
    : (r: ApplyResult)
    requires h in st.m.fn.blocks
    requires lastFirst.Some? ==> lastFirst.value in st.m.fn.blocks
    ensures facts.deadBlocks <= r.facts.deadBlocks && facts.irrelevantIds <= r.facts.irrelevantIds
    ensures forall x :: x in st.deadQueue ==> x in r.facts.deadBlocks
    ensures forall x :: x in st.irrelevantQueue ==> x in r.facts.irrelevantIds
    ensures r.m.fn.blocks.Keys == st.m.fn.blocks.Keys && r.m.idBound == st.m.idBound && r.overflow == st.overflow
    ensures r.m.fn.blocks[h].merge.None? && r.m.fn.blocks[h].terminator.Branch?
    ensures lastFirst != Some(h) && (lastFirst.Some? ==> lastEntry != h) ==> r.m.fn.blocks[h].terminator == Branch(afterHeader)
    ensures lastFirst.Some? ==> r.m.fn.blocks[lastFirst.value].terminator == Branch(lastEntry)
  {
    var blocks := Relink(st.m.fn.blocks, h, afterHeader, lastFirst, lastEntry, conv);
    var facts' := FactState(facts.deadBlocks + (set x | x in st.deadQueue),
                            facts.irrelevantIds + (set x | x in st.irrelevantQueue));
    ApplyResult(st.m.(fn := st.m.fn.(blocks := blocks)), facts', st.overflow)
  }

  /**
    `Apply`: the header ends in a single branch to the first laid-out arm
    (or to the other arm when the first is empty), the last block of the
    first arm branches to the entry of the other arm, and the facts queued
    while wrapping are added.
   */
  function Apply(m: Module, d: Dominance, facts: FactState, ov: OverflowIds, t: FlattenMessage): (r: ApplyResult)
    requires IsApplicable(m, d, ov, t)
    ensures facts.deadBlocks <= r.facts.deadBlocks && facts.irrelevantIds <= r.facts.irrelevantIds
    ensures m.fn.blocks.Keys <= r.m.fn.blocks.Keys
    ensures r.m.idBound >= m.idBound
    ensures r.overflow.hasIds == ov.hasIds && r.overflow.next >= ov.next
    ensures t.headerBlockId in r.m.fn.blocks && r.m.fn.blocks[t.headerBlockId].merge.None?
    ensures r.m.fn.blocks[t.headerBlockId].terminator.Branch?
    ensures var last := ApplyArms(m, d, facts, ov, t).1;
            var lastEntry := ArmEntries(t, m.fn.blocks[t.headerBlockId].terminator).1;
            last != Some(t.headerBlockId) && (last.Some? ==> lastEntry != t.headerBlockId) ==>
              r.m.fn.blocks[t.headerBlockId].terminator ==
                Branch(AfterHeader(t, m.fn.blocks[t.headerBlockId].terminator, ConvergenceOf(m, d, ov, t)))
    ensures var last := ApplyArms(m, d, facts, ov, t).1;
            last.Some? ==> last.value in r.m.fn.blocks && r.m.fn.blocks[last.value].terminator ==
                             Branch(ArmEntries(t, m.fn.blocks[t.headerBlockId].terminator).1)
  {
    var h := t.headerBlockId;
    var term := m.fn.blocks[h].terminator;
    var conv := ConvergenceOf(m, d, ov, t);
    var arms := ApplyArms(m, d, facts, ov, t);
    Finish(arms.0, facts, h, AfterHeader(t, term, conv), arms.1, ArmEntries(t, term).1, conv)
  }
}

=== FILE: flatten_check.dfy ===
/**
  The applicability test of the "flatten conditional branch" transformation
  (`TransformationFlattenConditionalBranch::IsApplicable` and the helpers it
  calls): the shape of the selection header, the single-entry/single-exit
  region, the walk over the divergent blocks, the classification of
  instructions, and the freshness of the caller-supplied wrapper ids.
 */
module FlattenCheck {
  import opened Ir

  /** One side-effect wrapper entry of the message; a field that is not set reads as 0. */
  datatype WrapperInfo = WrapperInfo(
    instruction: InstRef,
    mergeBlockId: Id,
    executeBlockId: Id,
    actualResultId: Id,
    alternativeBlockId: Id,
    placeholderResultId: Id,
    valueToCopyId: Id)

  /** The transformation message. */
  datatype FlattenMessage = FlattenMessage(headerBlockId: Id, trueBranchFirst: bool, wrappers: seq<WrapperInfo>)

  /** The overflow id source: whether it can hand out ids, and the next one it would hand out. */
  datatype OverflowIds = OverflowIds(hasIds: bool, next: Id)

  predicate IsVoidType(m: Module, ty: Id)
  {
    ty in m.typeIsVoid && m.typeIsVoid[ty]
  }

  /**
    `InstructionCanBeHandled`: whether the instruction can stay in a
    flattened region, either as it is or enclosed in its own conditional.
   */
  function CanBeHandled(m: Module, inst: Instruction): (r: bool)
    ensures HasNoSideEffects(inst.op) ==> r
    ensures IsBarrier(inst.op) || inst.op.SampledImage? ==> !r
    ensures !HasNoSideEffects(inst.op) && !IsBarrier(inst.op) && !inst.op.SampledImage? ==>
              (r <==> !(inst.resultId.Some? && IsVoidType(m, inst.typeId) && UsedAsInOperand(m, inst.resultId.value)))
  {
    if HasNoSideEffects(inst.op) then true
    else if IsBarrier(inst.op) then false
    else if inst.op.SampledImage? then false
    else if inst.resultId.Some? && IsVoidType(m, inst.typeId) && UsedAsInOperand(m, inst.resultId.value) then false
    else true
  }

  /**
    `InstructionNeedsPlaceholder`: the wrapped instruction defines a value
    that later code may read, so a placeholder for the skipped path is needed.
   */
  function NeedsPlaceholder(m: Module, inst: Instruction): (r: bool)
    ensures r <==> inst.resultId.Some? && inst.typeId in m.typeIsVoid && !IsVoidType(m, inst.typeId)
  {
    inst.resultId.Some? && inst.typeId in m.typeIsVoid && !m.typeIsVoid[inst.typeId]
  }

  /**
    A handled side-effecting instruction with a result of a known type either
    needs a placeholder, or is void-typed and its result is never read.
   */
  lemma HandledResultIsPlaceholderOrUnread(m: Module, inst: Instruction)
    requires !HasNoSideEffects(inst.op) && CanBeHandled(m, inst)
    requires inst.resultId.Some? && inst.typeId in m.typeIsVoid
    ensures NeedsPlaceholder(m, inst) || !UsedAsInOperand(m, inst.resultId.value)
    ensures !(NeedsPlaceholder(m, inst) && IsVoidType(m, inst.typeId))
  {
  }

  /**
    How the two classifications fit together for an instruction with side
    effects that is neither a barrier nor `OpSampledImage`: it can be
    handled exactly when its result, if any, will be replaced by a
    placeholder or is never read; and a placeholder is needed only for a
    result that carries a value (a non-void type).
   */
  lemma HandledIffPlaceholderOrUnread(m: Module, inst: Instruction)
    requires !HasNoSideEffects(inst.op) && !IsBarrier(inst.op) && !inst.op.SampledImage?
    requires inst.resultId.Some? ==> inst.typeId in m.typeIsVoid
    ensures CanBeHandled(m, inst) <==>
              inst.resultId.None? || NeedsPlaceholder(m, inst) || !UsedAsInOperand(m, inst.resultId.value)
    ensures NeedsPlaceholder(m, inst) ==> inst.resultId.Some? && !IsVoidType(m, inst.typeId)
  {
  }

  /**
    The per-instruction check of one block (the instruction loop of the
    region walk): every instruction from `i` on can be handled, and the
    side-effecting ones are collected.
   */
  function CheckBody(m: Module, b: Id, body: seq<Instruction>, i: nat): (r: Option<set<InstRef>>)
    requires i <= |body|
    decreases |body| - i
    ensures r.Some? <==> forall j :: i <= j < |body| ==> CanBeHandled(m, body[j])
    ensures r.Some? ==> forall ref :: ref in r.value <==>
              ref.block == b && i <= ref.index < |body| && !HasNoSideEffects(body[ref.index].op)
  {
    if i == |body| then Some({})
    else if !CanBeHandled(m, body[i]) then None
    else
      match CheckBody(m, b, body, i + 1)
      case None => None
      case Some(s) => Some(if HasNoSideEffects(body[i].op) then s else s + {InstRef(b, i)})
  }

  /** What the walk demands of every block it visits before flow converges. */
  predicate Flattenable(m: Module, b: Id)
  {
    b in m.fn.blocks && m.fn.blocks[b].merge.None? && m.fn.blocks[b].terminator.Branch?
    && forall j :: 0 <= j < |m.fn.blocks[b].body| ==> CanBeHandled(m, m.fn.blocks[b].body[j])
  }

  /**
    The breadth-first walk from the header's successors: a block that
    post-dominates the header is where flow converges and is not descended
    into; every other block must be flattenable, and its side-effecting
    instructions are added to `needs`. `fuel` bounds the number of queue pops.
   */
  function RegionWalk(m: Module, d: Dominance, header: Id, queue: seq<Id>, needs: set<InstRef>, fuel: nat)
    : (r: Option<set<InstRef>>)
    decreases fuel
    ensures r.Some? ==> needs <= r.value
    ensures r.Some? ==> forall ref :: ref in r.value && ref !in needs ==>
              Resolves(m.fn, ref) && Flattenable(m, ref.block) && !d.PostDominates(ref.block, header)
              && !HasNoSideEffects(InstructionAt(m.fn, ref).op)
    ensures r.Some? ==> forall k :: 0 <= k < |queue| && !d.PostDominates(queue[k], header) ==> Flattenable(m, queue[k])
  {
    if queue == [] then Some(needs)
    else if fuel == 0 then None
    else
      var b := queue[0];
      assert forall k, t :: 1 <= k < |queue| ==> queue[k] == (queue[1..] + [t])[k - 1];
      if d.PostDominates(b, header) then
        RegionWalk(m, d, header, queue[1..], needs, fuel - 1)
      else if b !in m.fn.blocks then None
      else
        var blk := m.fn.blocks[b];
        if blk.merge.Some? then None
        else if !blk.terminator.Branch? then None
        else
          match CheckBody(m, b, blk.body, 0)
          case None => None
          case Some(found) => RegionWalk(m, d, header, queue[1..] + [blk.terminator.target], needs + found, fuel - 1)
  }

  /** The number of queue pops the region walk is allowed: each arm visits each block at most once. */
  function WalkFuel(f: Function): nat
  {
    2 * |f.blocks| + 2
  }

  predicate IsSelectionHeader(f: Function, h: Id)
  {
    h in f.blocks && f.blocks[h].merge.Some? && f.blocks[h].merge.value.SelectionMerge?
    && f.blocks[h].terminator.BranchConditional?
  }

  /**
    `GetProblematicInstructionsIfConditionalCanBeFlattened`: the header and
    its merge block bound a single-entry/single-exit region whose divergent
    blocks are all flattenable; the result is the set of instructions to wrap.
   */
  function ProblematicInstructions(m: Module, d: Dominance, h: Id): (r: Option<set<InstRef>>)
    requires IsSelectionHeader(m.fn, h)
    ensures r.Some? ==> (d.Dominates(h, m.fn.blocks[h].merge.value.mergeBlock)
                         && d.PostDominates(m.fn.blocks[h].merge.value.mergeBlock, h))
    ensures r.Some? ==> forall ref :: ref in r.value ==>
              Resolves(m.fn, ref) && Flattenable(m, ref.block) && !d.PostDominates(ref.block, h)
              && !HasNoSideEffects(InstructionAt(m.fn, ref).op)
    ensures r.Some? ==> var t := m.fn.blocks[h].terminator;
              (!d.PostDominates(t.trueTarget, h) ==> Flattenable(m, t.trueTarget))
              && (!d.PostDominates(t.falseTarget, h) ==> Flattenable(m, t.falseTarget))
  {
    var mb := m.fn.blocks[h].merge.value.mergeBlock;
    var t := m.fn.blocks[h].terminator;
    if !d.Dominates(h, mb) || !d.PostDominates(mb, h) then None
    else
      var r := RegionWalk(m, d, h, [t.trueTarget, t.falseTarget], {}, WalkFuel(m.fn));
      assert r.Some? ==> [t.trueTarget, t.falseTarget][0] == t.trueTarget && [t.trueTarget, t.falseTarget][1] == t.falseTarget;
      r
  }

  /**
    Entry `k` is one `GetInstructionsToWrapperInfo` keeps: its instruction is
    found, and no earlier entry names the same instruction (`emplace` keeps
    the first).
   */
  predicate IsKept(f: Function, ws: seq<WrapperInfo>, k: nat)
    requires k < |ws|
  {
    Resolves(f, ws[k].instruction) && forall j :: 0 <= j < k ==> ws[j].instruction != ws[k].instruction
  }

  /** If some entry names a found instruction, the first entry naming it is kept. */
  lemma {:induction false} SomeEntryKept(f: Function, ws: seq<WrapperInfo>, j: nat)
    requires j < |ws| && Resolves(f, ws[j].instruction)
    ensures exists k :: 0 <= k <= j && IsKept(f, ws, k) && ws[k].instruction == ws[j].instruction
    decreases j
  {
    if exists i :: 0 <= i < j && ws[i].instruction == ws[j].instruction {
      var i :| 0 <= i < j && ws[i].instruction == ws[j].instruction;
      SomeEntryKept(f, ws, i);
    } else {
      assert IsKept(f, ws, j);
    }
  }

  /** `GetInstructionsToWrapperInfo`: found instructions mapped to their first wrapper entry. */
  function InstructionsToWrapperInfo(f: Function, ws: seq<WrapperInfo>): (r: map<InstRef, WrapperInfo>)
    decreases |ws|, 2
    ensures forall k :: 0 <= k < |ws| && IsKept(f, ws, k) ==> ws[k].instruction in r && r[ws[k].instruction] == ws[k]
    ensures forall ref :: ref in r ==> exists k :: 0 <= k < |ws| && IsKept(f, ws, k) && ws[k].instruction == ref
  {
    if ws == [] then map[]
    else
      var n := |ws| - 1;
      var prev := InstructionsToWrapperInfo(f, ws[..n]);
      var w := ws[n];
      var r := if Resolves(f, w.instruction) && w.instruction !in prev then prev[w.instruction := w] else prev;
      WrapperMapStep(f, ws, r);
      r
  }

  /** Whether an entry before the last is kept does not depend on the last entry. */
  lemma KeptInFront(f: Function, ws: seq<WrapperInfo>, k: nat)
    requires k < |ws| - 1
    ensures IsKept(f, ws, k) <==> IsKept(f, ws[..|ws| - 1], k)
  {
    assert forall j :: 0 <= j <= k ==> ws[..|ws| - 1][j] == ws[j];
  }

  /** The last entry is kept exactly when its instruction is found and not mapped by the entries before it. */
  lemma {:induction false} LastKept(f: Function, ws: seq<WrapperInfo>)
    requires |ws| > 0
    decreases |ws|, 0
    ensures IsKept(f, ws, |ws| - 1) <==>
              Resolves(f, ws[|ws| - 1].instruction) && ws[|ws| - 1].instruction !in InstructionsToWrapperInfo(f, ws[..|ws| - 1])
  {
    var n := |ws| - 1;
    var w := ws[n];
    var front := ws[..n];
    var prev := InstructionsToWrapperInfo(f, front);
    if Resolves(f, w.instruction) && w.instruction !in prev {
      forall j | 0 <= j < n ensures ws[j].instruction != w.instruction {
        if ws[j].instruction == w.instruction {
          assert front[j] == ws[j];
          SomeEntryKept(f, front, j);
        }
      }
    } else if Resolves(f, w.instruction) {
      var k :| 0 <= k < n && IsKept(f, front, k) && front[k].instruction == w.instruction;
      assert front[k] == ws[k];
    }
  }

  /**
    One step of building the map: the entry appended last goes in exactly
    when it is kept, and the result again maps every kept entry and nothing
    else.
   */
  lemma {:induction false} WrapperMapStep(f: Function, ws: seq<WrapperInfo>, r: map<InstRef, WrapperInfo>)
    requires |ws| > 0
    requires var prev := InstructionsToWrapperInfo(f, ws[..|ws| - 1]);
             var w := ws[|ws| - 1];
             r == if Resolves(f, w.instruction) && w.instruction !in prev then prev[w.instruction := w] else prev
    decreases |ws|, 1
    ensures forall k :: 0 <= k < |ws| && IsKept(f, ws, k) ==> ws[k].instruction in r && r[ws[k].instruction] == ws[k]
    ensures forall ref :: ref in r ==> exists k :: 0 <= k < |ws| && IsKept(f, ws, k) && ws[k].instruction == ref
  {
    var n := |ws| - 1;
    var w := ws[n];
    var front := ws[..n];
    var prev := InstructionsToWrapperInfo(f, front);
    LastKept(f, ws);
    forall k | 0 <= k < |ws| && IsKept(f, ws, k) ensures ws[k].instruction in r && r[ws[k].instruction] == ws[k] {
      if k < n {
        KeptInFront(f, ws, k);
        assert front[k] == ws[k];
        assert ws[k].instruction in prev && prev[ws[k].instruction] == ws[k];
        if Resolves(f, w.instruction) && w.instruction !in prev {
          assert IsKept(f, ws, n);
          assert ws[k].instruction != w.instruction;
        }
      }
    }
    forall ref | ref in r ensures exists k :: 0 <= k < |ws| && IsKept(f, ws, k) && ws[k].instruction == ref {
      if ref in prev {
        var k :| 0 <= k < n && IsKept(f, front, k) && front[k].instruction == ref;
        KeptInFront(f, ws, k);
        assert front[k] == ws[k];
      }
    }
  }

  /**
    `CheckIdIsFreshAndNotUsedByThisTransformation` applied to each id in
    turn, after the non-zero test: on success, the ids used so far.
   */
  function CheckFreshIds(m: Module, ids: seq<Id>, used: set<Id>): (r: Option<set<Id>>)
    decreases |ids|
    ensures r.Some? <==> AllFreshAndDistinct(m, ids, used)
    ensures r.Some? ==> r.value == used + set i | i in ids
  {
    if ids == [] then Some(used)
    else if ids[0] == 0 || !IsFresh(m, ids[0]) || ids[0] in used then None
    else
      var r := CheckFreshIds(m, ids[1..], used + {ids[0]});
      assert ids == [ids[0]] + ids[1..];
      assert (set i | i in ids) == {ids[0]} + set i | i in ids[1..];
      r
  }

  /** Every id is non-zero, fresh, outside `used`, and no id occurs twice. */
  predicate AllFreshAndDistinct(m: Module, ids: seq<Id>, used: set<Id>)
  {
    && (forall i :: 0 <= i < |ids| ==> ids[i] != 0 && IsFresh(m, ids[i]) && ids[i] !in used)
    && (forall i, j :: 0 <= i < j < |ids| ==> ids[i] != ids[j])
  }

  lemma AllFreshAndDistinctAppend(m: Module, a: seq<Id>, b: seq<Id>, used: set<Id>)
    ensures AllFreshAndDistinct(m, a + b, used) <==>
            AllFreshAndDistinct(m, a, used) && AllFreshAndDistinct(m, b, used + set i | i in a)
  {
    var ab := a + b;
    if AllFreshAndDistinct(m, a, used) && AllFreshAndDistinct(m, b, used + set i | i in a) {
      forall i, j | 0 <= i < j < |ab| ensures ab[i] != ab[j] {
        if j >= |a| && i < |a| {
          assert ab[i] in set x | x in a;
          assert ab[j] == b[j - |a|];
        } else if i >= |a| {
          assert ab[i] == b[i - |a|] && ab[j] == b[j - |a|];
        }
      }
    }
    if AllFreshAndDistinct(m, ab, used) {
      assert forall i :: 0 <= i < |a| ==> a[i] == ab[i];
      assert forall i :: 0 <= i < |b| ==> b[i] == ab[|a| + i];
    }
  }

  /** The wrapped instruction of a kept entry. */
  function KeptInstruction(f: Function, ws: seq<WrapperInfo>, k: nat): Instruction
    requires k < |ws| && IsKept(f, ws, k)
  {
    InstructionAt(f, ws[k].instruction)
  }

  /** The ids validated for one entry: merge and execute always, the other three with a placeholder. */
  function EntryIds(w: WrapperInfo, placeholder: bool): (r: seq<Id>)
    ensures |r| == if placeholder then 5 else 2
  {
    [w.mergeBlockId, w.executeBlockId]
    + (if placeholder then [w.actualResultId, w.alternativeBlockId, w.placeholderResultId] else [])
  }

  /**
    The value a placeholder copies must be defined (id 0 never is), have
    the wrapped instruction's type, and be available before it.
   */
  predicate ValueToCopyOk(m: Module, d: Dominance, w: WrapperInfo, inst: Instruction)
    requires Resolves(m.fn, w.instruction)
  {
    w.valueToCopyId != 0 && DefinedWithType(m, w.valueToCopyId, inst.typeId)
    && AvailableBefore(m, d, w.instruction, w.valueToCopyId)
  }

  /** The wrapper-id loop of `IsApplicable` over the kept entries from `k` on. */
  function CheckWrappers(m: Module, d: Dominance, ws: seq<WrapperInfo>, k: nat, used: set<Id>): (r: bool)
    requires k <= |ws|
    decreases |ws| - k
  {
    if k == |ws| then true
    else if !IsKept(m.fn, ws, k) then CheckWrappers(m, d, ws, k + 1, used)
    else
      var inst := KeptInstruction(m.fn, ws, k);
      var ph := NeedsPlaceholder(m, inst);
      match CheckFreshIds(m, EntryIds(ws[k], ph), used)
      case None => false
      case Some(used') => (!ph || ValueToCopyOk(m, d, ws[k], inst)) && CheckWrappers(m, d, ws, k + 1, used')
  }

  /** All ids the wrapper loop validates, from entry `k` on, in order. */
  function CheckedIds(m: Module, ws: seq<WrapperInfo>, k: nat): seq<Id>
    requires k <= |ws|
    decreases |ws| - k
  {
    if k == |ws| then []
    else if !IsKept(m.fn, ws, k) then CheckedIds(m, ws, k + 1)
    else EntryIds(ws[k], NeedsPlaceholder(m, KeptInstruction(m.fn, ws, k))) + CheckedIds(m, ws, k + 1)
  }

  /** Every kept entry whose instruction needs a placeholder names a usable value to copy. */
  predicate ValuesToCopyOk(m: Module, d: Dominance, ws: seq<WrapperInfo>, k: nat)
    requires k <= |ws|
  {
    forall j :: k <= j < |ws| && IsKept(m.fn, ws, j) && NeedsPlaceholder(m, KeptInstruction(m.fn, ws, j)) ==>
      ValueToCopyOk(m, d, ws[j], KeptInstruction(m.fn, ws, j))
  }

  /**
    The sequential wrapper loop accepts exactly when all validated ids are
    non-zero, fresh and pairwise distinct, and every placeholder value is
    usable: its outcome does not depend on the order the entries are visited.
   */
  lemma {:induction false} CheckWrappersMeaning(m: Module, d: Dominance, ws: seq<WrapperInfo>, k: nat, used: set<Id>)
    requires k <= |ws|
    ensures CheckWrappers(m, d, ws, k, used) <==>
            AllFreshAndDistinct(m, CheckedIds(m, ws, k), used) && ValuesToCopyOk(m, d, ws, k)
    decreases |ws| - k
  {
    if k < |ws| {
      CheckWrappersMeaning(m, d, ws, k + 1, used);
      if IsKept(m.fn, ws, k) {
        var inst := KeptInstruction(m.fn, ws, k);
        var ids := EntryIds(ws[k], NeedsPlaceholder(m, inst));
        AllFreshAndDistinctAppend(m, ids, CheckedIds(m, ws, k + 1), used);
        var r := CheckFreshIds(m, ids, used);
        if r.Some? {
          CheckWrappersMeaning(m, d, ws, k + 1, r.value);
        }
      }
    }
  }

  /** `IsApplicable`. */
  function IsApplicable(m: Module, d: Dominance, ov: OverflowIds, t: FlattenMessage): (r: bool)
    ensures r ==> IsSelectionHeader(m.fn, t.headerBlockId)
    ensures r ==> (d.Dominates(t.headerBlockId, m.fn.blocks[t.headerBlockId].merge.value.mergeBlock)
                   && d.PostDominates(m.fn.blocks[t.headerBlockId].merge.value.mergeBlock, t.headerBlockId))
    ensures r ==> ProblematicInstructions(m, d, t.headerBlockId).Some?
    ensures r ==> AllFreshAndDistinct(m, CheckedIds(m, t.wrappers, 0), {}) && ValuesToCopyOk(m, d, t.wrappers, 0)
    ensures r ==> forall ref :: ref in ProblematicInstructions(m, d, t.headerBlockId).value ==>
                   ref in InstructionsToWrapperInfo(m.fn, t.wrappers) || ov.hasIds
    ensures r <==> && IsSelectionHeader(m.fn, t.headerBlockId)
                   && ProblematicInstructions(m, d, t.headerBlockId).Some?
                   && AllFreshAndDistinct(m, CheckedIds(m, t.wrappers, 0), {})
                   && ValuesToCopyOk(m, d, t.wrappers, 0)
                   && forall ref :: ref in ProblematicInstructions(m, d, t.headerBlockId).value ==>
                        ref in InstructionsToWrapperInfo(m.fn, t.wrappers) || ov.hasIds
  {
    if !IsSelectionHeader(m.fn, t.headerBlockId) then false
    else
      match ProblematicInstructions(m, d, t.headerBlockId)
      case None => false
      case Some(needs) =>
        var wrappers := InstructionsToWrapperInfo(m.fn, t.wrappers);
        CheckWrappersMeaning(m, d, t.wrappers, 0, {});
        && CheckWrappers(m, d, t.wrappers, 0, {})
        && forall ref :: ref in needs ==> ref in wrappers || ov.hasIds
  }

  /** The five id fields of an entry. */
  function WrapperIds(w: WrapperInfo): set<Id>
  {
    {w.mergeBlockId, w.executeBlockId, w.actualResultId, w.alternativeBlockId, w.placeholderResultId}
  }

  /** `GetFreshIds`: every id the message would introduce, found or not. */
  function GetFreshIds(t: FlattenMessage): (r: set<Id>)
    decreases |t.wrappers|
    ensures forall id :: id in r <==> exists w :: w in t.wrappers && id in WrapperIds(w)
  {
    if t.wrappers == [] then {}
    else
      var rest := GetFreshIds(t.(wrappers := t.wrappers[1..]));
      assert forall w :: w in t.wrappers <==> w == t.wrappers[0] || w in t.wrappers[1..];
      WrapperIds(t.wrappers[0]) + rest
  }

  /** Every id the validation checks is reported by `GetFreshIds`. */
  lemma {:induction false} CheckedIdsAreFreshIds(m: Module, t: FlattenMessage, k: nat)
    requires k <= |t.wrappers|
    ensures forall id :: id in CheckedIds(m, t.wrappers, k) ==> id in GetFreshIds(t)
    decreases |t.wrappers| - k
  {
    if k < |t.wrappers| {
      CheckedIdsAreFreshIds(m, t, k + 1);
      assert t.wrappers[k] in t.wrappers;
    }
  }
}

=== FILE: flatten_fresh.dfy ===
/**
  Why the arm walks of an applicable transformation only ever create new
  blocks: `IsApplicable` checks that the ids of the kept wrapper entries are
  fresh and pairwise distinct, so the blocks the entries name are not in the
  function and no two entries share one; from this every path of region
  blocks has fresh wraps, given whatever blocks the other arm added.
 */
module WrapFreshness {
  import opened Ir
  import opened FlattenCheck
  import opened Region
  import opened FlattenApply
  import opened FlattenShape
  import opened ArmWalk
  import opened LayoutOrder

  // ---------------------------------------------------------------------------
  // The wrapper map

  /** The blocks the entry for `ref` adds: with or without the alternative block, as the instruction at `ref` needs. */
  function WrapsOf(m: Module, wrappers: map<InstRef, WrapperInfo>, ref: InstRef): set<Id>
    requires ref in wrappers
  {
    if Resolves(m.fn, ref) then WrapBlocks(wrappers[ref], NeedsPlaceholder(m, InstructionAt(m.fn, ref))) else {}
  }

  /** Every entry's blocks are distinct, not in the function, and not shared with another entry. */
  ghost predicate WrappersFresh(m: Module, wrappers: map<InstRef, WrapperInfo>)
  {
    && (forall ref :: ref in wrappers && Resolves(m.fn, ref) ==>
          WrapIdsApart(wrappers[ref], NeedsPlaceholder(m, InstructionAt(m.fn, ref))))
    && (forall ref :: ref in wrappers ==> WrapsOf(m, wrappers, ref) !! m.fn.blocks.Keys)
    && (forall r1, r2 :: r1 in wrappers && r2 in wrappers && r1 != r2 ==> WrapsOf(m, wrappers, r1) !! WrapsOf(m, wrappers, r2))
  }

  /** Whether the kept entry `k` needs a placeholder. */
  function KeptPlaceholder(m: Module, ws: seq<WrapperInfo>, k: nat): bool
    requires k < |ws| && IsKept(m.fn, ws, k)
  {
    NeedsPlaceholder(m, KeptInstruction(m.fn, ws, k))
  }

  /** The ids validated for the kept entry `k`, as a set. */
  function EntrySet(m: Module, ws: seq<WrapperInfo>, k: nat): set<Id>
    requires k < |ws| && IsKept(m.fn, ws, k)
  {
    set x | x in EntryIds(ws[k], KeptPlaceholder(m, ws, k))
  }

  /**
    The sequential freshness check over the entries from `k` on holds for
    each kept entry on its own, and two kept entries share no id.
   */
  lemma {:induction false} CheckedEntries(m: Module, ws: seq<WrapperInfo>, k: nat, used: set<Id>)
    requires k <= |ws| && AllFreshAndDistinct(m, CheckedIds(m, ws, k), used)
    ensures forall j :: k <= j < |ws| && IsKept(m.fn, ws, j) ==>
              AllFreshAndDistinct(m, EntryIds(ws[j], KeptPlaceholder(m, ws, j)), used)
    ensures forall i, j :: k <= i < j < |ws| && IsKept(m.fn, ws, i) && IsKept(m.fn, ws, j) ==>
              EntrySet(m, ws, i) !! EntrySet(m, ws, j)
    decreases |ws| - k
  {
    if k < |ws| {
      if !IsKept(m.fn, ws, k) {
        CheckedEntries(m, ws, k + 1, used);
      } else {
        var e := EntryIds(ws[k], KeptPlaceholder(m, ws, k));
        var rest := CheckedIds(m, ws, k + 1);
        assert CheckedIds(m, ws, k) == e + rest;
        AllFreshAndDistinctAppend(m, e, rest, used);
        var used' := used + set x | x in e;
        CheckedEntries(m, ws, k + 1, used');
        forall j | k < j < |ws| && IsKept(m.fn, ws, j)
          ensures EntrySet(m, ws, k) !! EntrySet(m, ws, j)
        {
          var ej := EntryIds(ws[j], KeptPlaceholder(m, ws, j));
          forall x | x in EntrySet(m, ws, j) ensures x !in EntrySet(m, ws, k) {
            var i :| 0 <= i < |ej| && ej[i] == x;
          }
        }
      }
    }
  }

  /** One kept entry: its blocks are distinct, and none is in the function. */
  lemma KeptEntryFresh(m: Module, ws: seq<WrapperInfo>, k: nat)
    requires k < |ws| && IsKept(m.fn, ws, k)
    requires AllFreshAndDistinct(m, EntryIds(ws[k], KeptPlaceholder(m, ws, k)), {})
    ensures WrapIdsApart(ws[k], KeptPlaceholder(m, ws, k))
    ensures WrapBlocks(ws[k], KeptPlaceholder(m, ws, k)) <= EntrySet(m, ws, k)
    ensures WrapBlocks(ws[k], KeptPlaceholder(m, ws, k)) !! m.fn.blocks.Keys
  {
    var ph := KeptPlaceholder(m, ws, k);
    var e := EntryIds(ws[k], ph);
    assert e[0] == ws[k].mergeBlockId && e[1] == ws[k].executeBlockId;
    assert ph ==> e[3] == ws[k].alternativeBlockId;
    forall x | x in WrapBlocks(ws[k], ph) ensures x in EntrySet(m, ws, k) && x !in m.fn.blocks {
      var i :| 0 <= i < |e| && e[i] == x;
      assert IsFresh(m, e[i]);
    }
  }

  /** The wrapper map of an applicable message has fresh entries. */
  lemma ApplicableWrappersFresh(m: Module, d: Dominance, ov: OverflowIds, t: FlattenMessage)
    requires IsApplicable(m, d, ov, t)
    ensures WrappersFresh(m, InstructionsToWrapperInfo(m.fn, t.wrappers))
  {
    var ws := t.wrappers;
    var wrappers := InstructionsToWrapperInfo(m.fn, ws);
    CheckedEntries(m, ws, 0, {});
    forall ref | ref in wrappers
      ensures Resolves(m.fn, ref) && WrapIdsApart(wrappers[ref], NeedsPlaceholder(m, InstructionAt(m.fn, ref)))
      ensures WrapsOf(m, wrappers, ref) !! m.fn.blocks.Keys
    {
      WrapperEntryFresh(m, ws, ref);
    }
    forall r1, r2 | r1 in wrappers && r2 in wrappers && r1 != r2
      ensures WrapsOf(m, wrappers, r1) !! WrapsOf(m, wrappers, r2)
    {
      WrapperEntriesApart(m, ws, r1, r2);
    }
  }

  /** The checked conclusions of `CheckedEntries` from the first entry on. */
  ghost predicate EntriesChecked(m: Module, ws: seq<WrapperInfo>)
  {
    && (forall j :: 0 <= j < |ws| && IsKept(m.fn, ws, j) ==>
          AllFreshAndDistinct(m, EntryIds(ws[j], KeptPlaceholder(m, ws, j)), {}))
    && (forall i, j :: 0 <= i < j < |ws| && IsKept(m.fn, ws, i) && IsKept(m.fn, ws, j) ==>
          EntrySet(m, ws, i) !! EntrySet(m, ws, j))
  }

  lemma WrapperEntryFresh(m: Module, ws: seq<WrapperInfo>, ref: InstRef)
    requires EntriesChecked(m, ws) && ref in InstructionsToWrapperInfo(m.fn, ws)
    ensures Resolves(m.fn, ref)
    ensures WrapIdsApart(InstructionsToWrapperInfo(m.fn, ws)[ref], NeedsPlaceholder(m, InstructionAt(m.fn, ref)))
    ensures WrapsOf(m, InstructionsToWrapperInfo(m.fn, ws), ref) !! m.fn.blocks.Keys
  {
    var k := KeptIndex(m, ws, ref);
    KeptEntryFresh(m, ws, k);
  }

  lemma WrapperEntriesApart(m: Module, ws: seq<WrapperInfo>, r1: InstRef, r2: InstRef)
    requires EntriesChecked(m, ws)
    requires r1 in InstructionsToWrapperInfo(m.fn, ws) && r2 in InstructionsToWrapperInfo(m.fn, ws) && r1 != r2
    ensures WrapsOf(m, InstructionsToWrapperInfo(m.fn, ws), r1) !! WrapsOf(m, InstructionsToWrapperInfo(m.fn, ws), r2)
  {
    var wrappers := InstructionsToWrapperInfo(m.fn, ws);
    var k1 := KeptIndex(m, ws, r1);
    var k2 := KeptIndex(m, ws, r2);
    KeptEntryFresh(m, ws, k1);
    KeptEntryFresh(m, ws, k2);
    var e1, e2 := EntrySet(m, ws, k1), EntrySet(m, ws, k2);
    assert e1 !! e2 by {
      if k1 < k2 {
        assert EntrySet(m, ws, k1) !! EntrySet(m, ws, k2);
      } else {
        assert EntrySet(m, ws, k2) !! EntrySet(m, ws, k1);
      }
    }
    assert WrapsOf(m, wrappers, r1) <= e1;
    assert WrapsOf(m, wrappers, r2) <= e2;
  }

  /** The kept entry a key of the wrapper map comes from. */
  lemma KeptIndex(m: Module, ws: seq<WrapperInfo>, ref: InstRef) returns (k: nat)
    requires ref in InstructionsToWrapperInfo(m.fn, ws)
    ensures k < |ws| && IsKept(m.fn, ws, k) && ws[k].instruction == ref
    ensures Resolves(m.fn, ref) && InstructionsToWrapperInfo(m.fn, ws)[ref] == ws[k]
    ensures KeptPlaceholder(m, ws, k) == NeedsPlaceholder(m, InstructionAt(m.fn, ref))
  {
    k :| 0 <= k < |ws| && IsKept(m.fn, ws, k) && ws[k].instruction == ref;
  }

  // ---------------------------------------------------------------------------
  // From the map to the blocks of a path

  /** Id `x` is a block of the entry of some instruction in one of the blocks `bs`. */
  ghost predicate WrapOfSome(m: Module, wrappers: map<InstRef, WrapperInfo>, bs: seq<Id>, x: Id)
  {
    exists ref :: ref in wrappers && ref.block in bs && x in WrapsOf(m, wrappers, ref)
  }

  /** The wraps of the instructions of block `b` from `idx` on are blocks of their entries. */
  lemma {:induction false} WrapIdsFrom(m: Module, wrappers: map<InstRef, WrapperInfo>, b: Id, idx: nat, rest: seq<Instruction>)
    requires b in m.fn.blocks && idx <= |m.fn.blocks[b].body| && rest == m.fn.blocks[b].body[idx..]
    ensures forall x :: x in WrapIds(m, wrappers, b, idx, rest) ==> WrapOfSome(m, wrappers, [b], x)
    decreases |rest|
  {
    if |rest| > 0 {
      assert rest[1..] == m.fn.blocks[b].body[idx + 1..];
      WrapIdsFrom(m, wrappers, b, idx + 1, rest[1..]);
      var ref := InstRef(b, idx);
      if !HasNoSideEffects(rest[0].op) && ref in wrappers {
        assert InstructionAt(m.fn, ref) == rest[0];
        forall x | x in WrapBlocks(wrappers[ref], NeedsPlaceholder(m, rest[0])) ensures WrapOfSome(m, wrappers, [b], x) {
          assert x in WrapsOf(m, wrappers, ref);
        }
      }
    }
  }

  /**
    A block whose side-effecting instructions all have entries, none of
    whose blocks is in `keys`, has fresh wraps.
   */
  lemma {:induction false} FreshWrapsFrom(m: Module, wrappers: map<InstRef, WrapperInfo>, keys: set<Id>, b: Id, idx: nat,
                                         rest: seq<Instruction>)
    requires WrappersFresh(m, wrappers)
    requires b in m.fn.blocks && idx <= |m.fn.blocks[b].body| && rest == m.fn.blocks[b].body[idx..]
    requires Covers(m, wrappers.Keys, b)
    requires forall j :: idx <= j < |m.fn.blocks[b].body| && InstRef(b, j) in wrappers ==> WrapsOf(m, wrappers, InstRef(b, j)) !! keys
    ensures FreshWraps(m, keys, wrappers, b, idx, rest)
    decreases |rest|
  {
    if |rest| > 0 {
      assert rest[1..] == m.fn.blocks[b].body[idx + 1..];
      var ref := InstRef(b, idx);
      if HasNoSideEffects(rest[0].op) {
        FreshWrapsFrom(m, wrappers, keys, b, idx + 1, rest[1..]);
      } else {
        assert ref in wrappers;
        assert InstructionAt(m.fn, ref) == rest[0];
        var ws := WrapBlocks(wrappers[ref], NeedsPlaceholder(m, rest[0]));
        assert ws == WrapsOf(m, wrappers, ref);
        forall j | idx + 1 <= j < |m.fn.blocks[b].body| && InstRef(b, j) in wrappers
          ensures WrapsOf(m, wrappers, InstRef(b, j)) !! keys + ws
        {
          assert InstRef(b, j) != ref;
        }
        FreshWrapsFrom(m, wrappers, keys + ws, b, idx + 1, rest[1..]);
      }
    }
  }

  /** The wraps of a path of function blocks are blocks of their entries. */
  lemma {:induction false} ArmWrapIdsFrom(m: Module, wrappers: map<InstRef, WrapperInfo>, p: seq<Id>)
    requires forall i :: 0 <= i < |p| ==> p[i] in m.fn.blocks
    ensures forall x :: x in ArmWrapIds(m, wrappers, m.fn.blocks, p) ==> WrapOfSome(m, wrappers, p, x)
    decreases |p|
  {
    if |p| > 0 {
      var b := p[0];
      assert m.fn.blocks[b].body == m.fn.blocks[b].body[0..];
      WrapIdsFrom(m, wrappers, b, 0, m.fn.blocks[b].body);
      ArmWrapIdsFrom(m, wrappers, p[1..]);
      forall x | x in ArmWrapIds(m, wrappers, m.fn.blocks, p) ensures WrapOfSome(m, wrappers, p, x) {
        if x in WrapIds(m, wrappers, b, 0, m.fn.blocks[b].body) {
          var ref :| ref in wrappers && ref.block in [b] && x in WrapsOf(m, wrappers, ref);
          assert ref.block in p;
        } else {
          assert x in ArmWrapIds(m, wrappers, m.fn.blocks, p[1..]);
          assert WrapOfSome(m, wrappers, p[1..], x);
          var ref :| ref in wrappers && ref.block in p[1..] && x in WrapsOf(m, wrappers, ref);
          assert ref.block in p[1..];
          assert ref.block in p;
        }
      }
    }
  }

  /**
    A path of distinct function blocks, whose side-effecting instructions
    all have entries none of whose blocks is in `keys`, has fresh wraps.
   */
  lemma {:induction false} ArmFreshFrom(m: Module, wrappers: map<InstRef, WrapperInfo>, keys: set<Id>, p: seq<Id>)
    requires WrappersFresh(m, wrappers) && NoDup(p)
    requires forall i :: 0 <= i < |p| ==> p[i] in m.fn.blocks && Covers(m, wrappers.Keys, p[i])
    requires forall ref :: ref in wrappers && ref.block in p ==> WrapsOf(m, wrappers, ref) !! keys
    ensures ArmFresh(m, keys, wrappers, m.fn.blocks, p)
    decreases |p|
  {
    if |p| > 0 {
      var b := p[0];
      var body := m.fn.blocks[b].body;
      assert body == body[0..];
      assert Covers(m, wrappers.Keys, p[0]);
      forall j | 0 <= j < |body| && InstRef(b, j) in wrappers ensures WrapsOf(m, wrappers, InstRef(b, j)) !! keys {
        assert InstRef(b, j).block in p;
      }
      FreshWrapsFrom(m, wrappers, keys, b, 0, body);
      var ids := WrapIds(m, wrappers, b, 0, body);
      WrapIdsFrom(m, wrappers, b, 0, body);
      var tail := p[1..];
      assert NoDup(tail) by {
        forall i, j | 0 <= i < j < |tail| ensures tail[i] != tail[j] {
          assert tail[i] == p[i + 1] && tail[j] == p[j + 1];
        }
      }
      forall ref | ref in wrappers && ref.block in tail ensures WrapsOf(m, wrappers, ref) !! keys + ids {
        var i :| 0 <= i < |tail| && tail[i] == ref.block;
        assert tail[i] == p[i + 1];
        forall x | x in ids ensures x !in WrapsOf(m, wrappers, ref) {
          var r0 :| r0 in wrappers && r0.block in [b] && x in WrapsOf(m, wrappers, r0);
          assert r0 != ref;
        }
      }
      ArmFreshFrom(m, wrappers, keys + ids, tail);
    }
  }
}

=== FILE: flatten_result.dfy ===
/**
  What `Apply` leaves behind for an applicable transformation: every
  side-effecting instruction of the region sits alone in an execute block
  behind a conditional branch on the header's condition, the arms are laid
  out after the header in branch order, the convergence block's phis become
  selects, and the blocks outside the region are untouched.
 */
module FlattenResult {
  import opened Ir
  import opened FlattenCheck
  import opened Region
  import opened FlattenApply
  import opened FlattenShape
  import opened ArmWalk
  import opened LayoutOrder
  import opened WrapFreshness

  // ---------------------------------------------------------------------------
  // The arms as paths

  /** The blocks of the arm from header target `b`, in branch order. */
  function Arm(m: Module, d: Dominance, h: Id, b: Id): (p: seq<Id>)
    requires ArmConverges(m, d, h, b, WalkFuel(m.fn))
    ensures ArmConverges(m, d, h, b, |m.fn.blocks|) && p == ArmPath(m, d, h, b, |m.fn.blocks|)
  {
    ArmConvergesWithinBlocks(m, d, h, b, WalkFuel(m.fn));
    ArmPath(m, d, h, b, |m.fn.blocks|)
  }

  /** The convergence block does not depend on the fuel it was found with. */
  lemma {:induction false} ConvergenceFuel(m: Module, d: Dominance, h: Id, b: Id, n1: nat, n2: nat)
    requires ArmConverges(m, d, h, b, n1) && ArmConverges(m, d, h, b, n2)
    ensures Convergence(m, d, h, b, n1) == Convergence(m, d, h, b, n2)
    decreases n1
  {
    if !d.PostDominates(b, h) {
      ConvergenceFuel(m, d, h, m.fn.blocks[b].terminator.target, n1 - 1, n2 - 1);
    }
  }

  /**
    A converging arm is a path through the function: its blocks are distinct,
    each branches to the next and the last to the convergence block, which
    is none of them; it starts at `b`, or is empty when `b` converges.
   */
  lemma {:induction false} ArmPathIn(m: Module, d: Dominance, h: Id, b: Id, n: nat)
    requires ArmConverges(m, d, h, b, n)
    ensures var p := ArmPath(m, d, h, b, n);
            var conv := Convergence(m, d, h, b, n);
            PathIn(m.fn.blocks, m.fn.blocks, p, conv) && Entry(p, conv) == b
    decreases n
  {
    var p := ArmPath(m, d, h, b, n);
    var conv := Convergence(m, d, h, b, n);
    ArmPathDistinct(m, d, h, b, n, p);
    if !d.PostDominates(b, h) {
      var t := m.fn.blocks[b].terminator.target;
      var rest := ArmPath(m, d, h, t, n - 1);
      ArmPathIn(m, d, h, t, n - 1);
      assert p == [b] + rest;
      assert conv == Convergence(m, d, h, t, n - 1);
      forall i | 0 <= i < |p|
        ensures && p[i] in m.fn.blocks && p[i] != conv
                && m.fn.blocks[p[i]].terminator == Branch(NextOnPath(p, i, conv))
      {
        if i > 0 {
          assert p[i] == rest[i - 1];
          assert NextOnPath(p, i, conv) == NextOnPath(rest, i - 1, conv);
        } else {
          assert NextOnPath(p, 0, conv) == Entry(rest, conv);
        }
      }
    }
  }

  /** Every side-effecting instruction on an arm of an applicable header is one the region walk collects. */
  lemma ArmCovered(m: Module, d: Dominance, ov: OverflowIds, t: FlattenMessage, b: Id, x: Id)
    requires IsApplicable(m, d, ov, t)
    requires b == m.fn.blocks[t.headerBlockId].terminator.trueTarget || b == m.fn.blocks[t.headerBlockId].terminator.falseTarget
    requires ArmConverges(m, d, t.headerBlockId, b, WalkFuel(m.fn)) && x in Arm(m, d, t.headerBlockId, b)
    ensures Covers(m, ProblematicInstructions(m, d, t.headerBlockId).value, x)
  {
    var h := t.headerBlockId;
    var n := |m.fn.blocks|;
    ProblematicInstructionsExact(m, d, h);
    OnArmIffInPath(m, d, h, b, n, x, 0);
    assert InRegion(m, d, h, x);
    var body := m.fn.blocks[x].body;
    forall i | 0 <= i < |body| && !HasNoSideEffects(body[i].op)
      ensures InstRef(x, i) in ProblematicInstructions(m, d, h).value
    {
      assert InstructionAt(m.fn, InstRef(x, i)) == body[i];
    }
  }

  // ---------------------------------------------------------------------------
  // What the arm walks rely on

  /**
    What the arm walks rely on beyond `IsApplicable`: the layout lists every
    block once; both arms reach the same convergence block, a block of the
    function other than the header; the arms share no block; and the message
    has an entry for every instruction to wrap, so that no overflow id is
    needed.
   */
  ghost predicate WalkPremises(m: Module, d: Dominance, ov: OverflowIds, t: FlattenMessage)
    requires IsApplicable(m, d, ov, t)
  {
    var h := t.headerBlockId;
    var term := m.fn.blocks[h].terminator;
    ApplicableArmsConverge(m, d, ov, t);
    var conv := ConvergenceOf(m, d, ov, t);
    && LayoutOk(m.fn)
    && conv in m.fn.blocks && conv != h
    && Convergence(m, d, h, term.falseTarget, WalkFuel(m.fn)) == conv
    && (forall x :: x in Arm(m, d, h, term.trueTarget) ==> x !in Arm(m, d, h, term.falseTarget))
    && (forall ref :: ref in ProblematicInstructions(m, d, h).value ==> ref in InstructionsToWrapperInfo(m.fn, t.wrappers))
  }

  /** The arm from one of the header's targets, as a path to the convergence block, and its entry. */
  lemma ArmIsPath(m: Module, d: Dominance, ov: OverflowIds, t: FlattenMessage, b: Id)
    requires IsApplicable(m, d, ov, t) && WalkPremises(m, d, ov, t)
    requires b == m.fn.blocks[t.headerBlockId].terminator.trueTarget || b == m.fn.blocks[t.headerBlockId].terminator.falseTarget
    ensures ArmConverges(m, d, t.headerBlockId, b, WalkFuel(m.fn))
    ensures var p := Arm(m, d, t.headerBlockId, b);
            var conv := ConvergenceOf(m, d, ov, t);
            && PathIn(m.fn.blocks, m.fn.blocks, p, conv) && Entry(p, conv) == b
            && |p| <= |m.fn.blocks| && t.headerBlockId !in p
            && forall x :: x in p ==> Covers(m, InstructionsToWrapperInfo(m.fn, t.wrappers).Keys, x)
  {
    var h := t.headerBlockId;
    var n := |m.fn.blocks|;
    ApplicableArmsConverge(m, d, ov, t);
    var p := Arm(m, d, h, b);
    ArmPathIn(m, d, h, b, n);
    ConvergenceFuel(m, d, h, b, n, WalkFuel(m.fn));
    forall x | x in p ensures Covers(m, InstructionsToWrapperInfo(m.fn, t.wrappers).Keys, x) {
      ArmCovered(m, d, ov, t, b, x);
    }
  }

  // ---------------------------------------------------------------------------
  // The two walks

  /** The arm laid out first and the arm laid out last, as paths. */
  function Arms(m: Module, d: Dominance, ov: OverflowIds, t: FlattenMessage): (seq<Id>, seq<Id>)
    requires IsApplicable(m, d, ov, t)
  {
    var h := t.headerBlockId;
    var (firstEntry, lastEntry) := ArmEntries(t, m.fn.blocks[h].terminator);
    ApplicableArmsConverge(m, d, ov, t);
    (Arm(m, d, h, firstEntry), Arm(m, d, h, lastEntry))
  }

  /** The arm from the header's true target. */
  function TrueArm(m: Module, d: Dominance, ov: OverflowIds, t: FlattenMessage): seq<Id>
    requires IsApplicable(m, d, ov, t)
  {
    ApplicableArmsConverge(m, d, ov, t);
    Arm(m, d, t.headerBlockId, m.fn.blocks[t.headerBlockId].terminator.trueTarget)
  }

  /** The function once the convergence block's phis are rewritten (when the header's targets differ). */
  function PhisRewritten(m: Module, d: Dominance, ov: OverflowIds, t: FlattenMessage): (f: Function)
    requires IsApplicable(m, d, ov, t)
    ensures f.layout == m.fn.layout && f.blocks.Keys == m.fn.blocks.Keys
    ensures forall x :: x in m.fn.blocks && x != ConvergenceOf(m, d, ov, t) ==> f.blocks[x] == m.fn.blocks[x]
  {
    var term := m.fn.blocks[t.headerBlockId].terminator;
    if term.trueTarget != term.falseTarget
    then RewriteConvergencePhis(m.fn, d, ConvergenceOf(m, d, ov, t), term.condition, term.trueTarget)
    else m.fn
  }

  /** The context of the walk of the arm laid out last (`first` false) or first (`first` true). */
  function Ctx(m: Module, facts: FactState, t: FlattenMessage, first: bool): ArmContext
    requires t.headerBlockId in m.fn.blocks && m.fn.blocks[t.headerBlockId].terminator.BranchConditional?
  {
    ArmContext(facts.deadBlocks, InstructionsToWrapperInfo(m.fn, t.wrappers),
               m.fn.blocks[t.headerBlockId].terminator.condition, if first then t.trueBranchFirst else !t.trueBranchFirst)
  }

  /** The state after the walk of the arm laid out last, which `Apply` walks first. */
  function LastWalked(m: Module, d: Dominance, facts: FactState, ov: OverflowIds, t: FlattenMessage): ApplyState
    requires IsApplicable(m, d, ov, t)
  {
    var h := t.headerBlockId;
    var st0 := ApplyState(m.(fn := PhisRewritten(m, d, ov, t)), ov, [], []);
    WalkArm(st0, Ctx(m, facts, t, false), h, ArmEntries(t, m.fn.blocks[h].terminator).1, ConvergenceOf(m, d, ov, t), |m.fn.blocks|).0
  }

  /** A path stays in place while its blocks do. */
  lemma PathInFrame(orig: map<Id, Block>, b1: map<Id, Block>, b2: map<Id, Block>, p: seq<Id>, conv: Id)
    requires PathIn(orig, b1, p, conv)
    requires forall x :: x in p ==> x in b2 && b2[x] == b1[x]
    ensures PathIn(orig, b2, p, conv)
  {
    assert forall i :: 0 <= i < |p| ==> p[i] in p;
  }

  /** The wraps of an instruction off an arm are none of the blocks the arm's wraps create. */
  lemma WrapsApartFromArm(m: Module, wrappers: map<InstRef, WrapperInfo>, p: seq<Id>, ref: InstRef)
    requires WrappersFresh(m, wrappers) && ref in wrappers && ref.block !in p
    requires forall i :: 0 <= i < |p| ==> p[i] in m.fn.blocks
    ensures WrapsOf(m, wrappers, ref) !! ArmWrapIds(m, wrappers, m.fn.blocks, p)
  {
    ArmWrapIdsFrom(m, wrappers, p);
    forall x | x in ArmWrapIds(m, wrappers, m.fn.blocks, p) ensures x !in WrapsOf(m, wrappers, ref) {
      assert WrapOfSome(m, wrappers, p, x);
      var r0 :| r0 in wrappers && r0.block in p && x in WrapsOf(m, wrappers, r0);
      assert r0 != ref;
    }
  }

  /** The walk of the arm laid out last starts ready. */
  lemma LastArmReady(m: Module, d: Dominance, facts: FactState, ov: OverflowIds, t: FlattenMessage)
    requires IsApplicable(m, d, ov, t) && WalkPremises(m, d, ov, t)
    ensures var st0 := ApplyState(m.(fn := PhisRewritten(m, d, ov, t)), ov, [], []);
            var p := Arms(m, d, ov, t).1;
            var conv := ConvergenceOf(m, d, ov, t);
            && ArmReady(m, st0, InstructionsToWrapperInfo(m.fn, t.wrappers), m.fn.blocks, p, conv, |m.fn.blocks|)
            && Entry(p, conv) == ArmEntries(t, m.fn.blocks[t.headerBlockId].terminator).1
            && t.headerBlockId !in p
  {
    var h := t.headerBlockId;
    var wrappers := InstructionsToWrapperInfo(m.fn, t.wrappers);
    var f1 := PhisRewritten(m, d, ov, t);
    var p := Arms(m, d, ov, t).1;
    var conv := ConvergenceOf(m, d, ov, t);
    ArmIsPath(m, d, ov, t, ArmEntries(t, m.fn.blocks[h].terminator).1);
    PathInFrame(m.fn.blocks, m.fn.blocks, f1.blocks, p, conv);
    ApplicableWrappersFresh(m, d, ov, t);
    ArmFreshFrom(m, wrappers, m.fn.blocks.Keys, p);
  }

  /** The two arms share no block. */
  lemma ArmsApart(m: Module, d: Dominance, ov: OverflowIds, t: FlattenMessage)
    requires IsApplicable(m, d, ov, t) && WalkPremises(m, d, ov, t)
    ensures forall x :: x in Arms(m, d, ov, t).0 ==> x !in Arms(m, d, ov, t).1
  {
  }

  /**
    The walk of the arm laid out last adds exactly that arm's wraps, which
    are new blocks, and changes no block off the arm.
   */
  lemma LastArmFrame(m: Module, d: Dominance, facts: FactState, ov: OverflowIds, t: FlattenMessage)
    requires IsApplicable(m, d, ov, t) && WalkPremises(m, d, ov, t)
    ensures var st1 := LastWalked(m, d, facts, ov, t);
            var wrappers := InstructionsToWrapperInfo(m.fn, t.wrappers);
            var p := Arms(m, d, ov, t).1;
            && st1.m.typeIsVoid == m.typeIsVoid
            && st1.m.fn.blocks.Keys == m.fn.blocks.Keys + ArmWrapIds(m, wrappers, m.fn.blocks, p)
            && ArmWrapIds(m, wrappers, m.fn.blocks, p) !! m.fn.blocks.Keys
            && (forall x :: x in m.fn.blocks && x !in p ==> st1.m.fn.blocks[x] == PhisRewritten(m, d, ov, t).blocks[x])
  {
    LastArmKeys(m, d, facts, ov, t);
    LastArmKeeps(m, d, facts, ov, t);
  }

  /** The walk of the arm laid out last adds exactly that arm's wraps, which are new blocks. */
  lemma LastArmKeys(m: Module, d: Dominance, facts: FactState, ov: OverflowIds, t: FlattenMessage)
    requires IsApplicable(m, d, ov, t) && WalkPremises(m, d, ov, t)
    ensures var st1 := LastWalked(m, d, facts, ov, t);
            var wrappers := InstructionsToWrapperInfo(m.fn, t.wrappers);
            var p := Arms(m, d, ov, t).1;
            && st1.m.typeIsVoid == m.typeIsVoid
            && st1.m.fn.blocks.Keys == m.fn.blocks.Keys + ArmWrapIds(m, wrappers, m.fn.blocks, p)
            && ArmWrapIds(m, wrappers, m.fn.blocks, p) !! m.fn.blocks.Keys
  {
    var h := t.headerBlockId;
    var st0 := ApplyState(m.(fn := PhisRewritten(m, d, ov, t)), ov, [], []);
    var ctx := Ctx(m, facts, t, false);
    var p := Arms(m, d, ov, t).1;
    var conv := ConvergenceOf(m, d, ov, t);
    LastArmReady(m, d, facts, ov, t);
    WalkArmKeys(m, st0, ctx, m.fn.blocks, h, p, conv, |m.fn.blocks|);
    ArmFreshApart(m, st0.m.fn.blocks.Keys, ctx.wrappers, m.fn.blocks, p);
  }

  /** The walk of the arm laid out last changes no block off the arm. */
  lemma LastArmKeeps(m: Module, d: Dominance, facts: FactState, ov: OverflowIds, t: FlattenMessage)
    requires IsApplicable(m, d, ov, t) && WalkPremises(m, d, ov, t)
    ensures var st1 := LastWalked(m, d, facts, ov, t);
            forall x :: x in m.fn.blocks && x !in Arms(m, d, ov, t).1 ==> st1.m.fn.blocks[x] == PhisRewritten(m, d, ov, t).blocks[x]
  {
    var h := t.headerBlockId;
    var st0 := ApplyState(m.(fn := PhisRewritten(m, d, ov, t)), ov, [], []);
    LastArmReady(m, d, facts, ov, t);
    WalkArmKeeps(m, st0, Ctx(m, facts, t, false), m.fn.blocks, h, Arms(m, d, ov, t).1, ConvergenceOf(m, d, ov, t), |m.fn.blocks|);
  }

  /** The walk of the arm laid out last guards the arm's instructions. */
  lemma LastArmChains(m: Module, d: Dominance, facts: FactState, ov: OverflowIds, t: FlattenMessage)
    requires IsApplicable(m, d, ov, t) && WalkPremises(m, d, ov, t)
    ensures ArmChains(m, LastWalked(m, d, facts, ov, t).m.fn.blocks, Ctx(m, facts, t, false), m.fn.blocks,
                      Arms(m, d, ov, t).1, ConvergenceOf(m, d, ov, t))
  {
    var st0 := ApplyState(m.(fn := PhisRewritten(m, d, ov, t)), ov, [], []);
    LastArmReady(m, d, facts, ov, t);
    WalkArmChains(m, st0, Ctx(m, facts, t, false), m.fn.blocks, t.headerBlockId, Arms(m, d, ov, t).1,
                  ConvergenceOf(m, d, ov, t), |m.fn.blocks|);
  }

  /** The walk of the arm laid out last lays the arm out after the header. */
  lemma LastArmLayout(m: Module, d: Dominance, facts: FactState, ov: OverflowIds, t: FlattenMessage)
    requires IsApplicable(m, d, ov, t) && WalkPremises(m, d, ov, t)
    ensures var st1 := LastWalked(m, d, facts, ov, t);
            LayoutOk(st1.m.fn) && ArmLaidOut(m.fn.layout, st1.m.fn.layout, t.headerBlockId, Arms(m, d, ov, t).1)
  {
    var st0 := ApplyState(m.(fn := PhisRewritten(m, d, ov, t)), ov, [], []);
    LastArmReady(m, d, facts, ov, t);
    assert LayoutOk(st0.m.fn);
    WalkArmLayout(m, st0, Ctx(m, facts, t, false), m.fn.blocks, t.headerBlockId, Arms(m, d, ov, t).1,
                  ConvergenceOf(m, d, ov, t), |m.fn.blocks|);
  }

  /** The walk of the arm laid out first starts ready from the state the other walk leaves. */
  lemma FirstArmReady(m: Module, d: Dominance, facts: FactState, ov: OverflowIds, t: FlattenMessage)
    requires IsApplicable(m, d, ov, t) && WalkPremises(m, d, ov, t)
    ensures var st1 := LastWalked(m, d, facts, ov, t);
            var p := Arms(m, d, ov, t).0;
            var conv := ConvergenceOf(m, d, ov, t);
            && ArmReady(m, st1, InstructionsToWrapperInfo(m.fn, t.wrappers), m.fn.blocks, p, conv, |m.fn.blocks|)
            && Entry(p, conv) == ArmEntries(t, m.fn.blocks[t.headerBlockId].terminator).0
            && t.headerBlockId !in p && t.headerBlockId in st1.m.fn.blocks
  {
    var h := t.headerBlockId;
    var wrappers := InstructionsToWrapperInfo(m.fn, t.wrappers);
    var st1 := LastWalked(m, d, facts, ov, t);
    var (p, pLast) := Arms(m, d, ov, t);
    var conv := ConvergenceOf(m, d, ov, t);
    LastArmFrame(m, d, facts, ov, t);
    ArmIsPath(m, d, ov, t, ArmEntries(t, m.fn.blocks[h].terminator).0);
    ArmIsPath(m, d, ov, t, ArmEntries(t, m.fn.blocks[h].terminator).1);
    ArmsApart(m, d, ov, t);
    PathInFrame(m.fn.blocks, m.fn.blocks, st1.m.fn.blocks, p, conv);
    ApplicableWrappersFresh(m, d, ov, t);
    forall ref | ref in wrappers && ref.block in p
      ensures WrapsOf(m, wrappers, ref) !! st1.m.fn.blocks.Keys
    {
      WrapsApartFromArm(m, wrappers, pLast, ref);
    }
    ArmFreshFrom(m, wrappers, st1.m.fn.blocks.Keys, p);
  }

  /** The wraps of one block of a path are among the wraps of the path. */
  lemma {:induction false} ArmWrapIdsHas(m: Module, wrappers: map<InstRef, WrapperInfo>, orig: map<Id, Block>, p: seq<Id>, i: nat)
    requires i < |p| && p[i] in orig
    ensures WrapIds(m, wrappers, p[i], 0, orig[p[i]].body) <= ArmWrapIds(m, wrappers, orig, p)
    decreases i
  {
    if i > 0 {
      assert p[i] == p[1..][i - 1];
      ArmWrapIdsHas(m, wrappers, orig, p[1..], i - 1);
    }
  }

  /** The chains of a path survive any change that keeps away from the path and its wraps. */
  lemma ArmChainsKept(m: Module, b1: map<Id, Block>, b2: map<Id, Block>, ctx: ArmContext, orig: map<Id, Block>,
                      p: seq<Id>, conv: Id, changed: set<Id>)
    requires ArmChains(m, b1, ctx, orig, p, conv)
    requires forall x :: x in b1 && x !in changed ==> x in b2 && b2[x] == b1[x]
    requires forall x :: x in p ==> x !in changed
    requires ArmWrapIds(m, ctx.wrappers, orig, p) !! changed
    ensures ArmChains(m, b2, ctx, orig, p, conv)
  {
    forall i | 0 <= i < |p|
      ensures && Chain(m, b2, ctx.wrappers, p[i], p[i], 0, orig[p[i]].body, ctx.condition, ctx.execIfTrue)
              && ChainEnd(ctx.wrappers, p[i], p[i], 0, orig[p[i]].body) in b2
              && b2[ChainEnd(ctx.wrappers, p[i], p[i], 0, orig[p[i]].body)] ==
                   b1[ChainEnd(ctx.wrappers, p[i], p[i], 0, orig[p[i]].body)]
    {
      var body := orig[p[i]].body;
      assert p[i] in p;
      ArmWrapIdsHas(m, ctx.wrappers, orig, p, i);
      ChainKept(m, b1, b2, ctx.wrappers, p[i], p[i], 0, body, ctx.condition, ctx.execIfTrue, changed);
      ChainEndIn(m, ctx.wrappers, p[i], p[i], 0, body);
    }
  }

  /** `ApplyArms` is the walk of the arm laid out first from the state the other walk leaves. */
  lemma ApplyArmsWalks(m: Module, d: Dominance, facts: FactState, ov: OverflowIds, t: FlattenMessage)
    requires IsApplicable(m, d, ov, t)
    ensures ApplyArms(m, d, facts, ov, t) ==
              WalkArm(LastWalked(m, d, facts, ov, t), Ctx(m, facts, t, true), t.headerBlockId,
                      ArmEntries(t, m.fn.blocks[t.headerBlockId].terminator).0, ConvergenceOf(m, d, ov, t), |m.fn.blocks|)
  {
  }

  /**
    The walk of the arm laid out first adds exactly that arm's wraps,
    changes no block off the arm, and ends in the chain end of the arm's
    last block.
   */
  lemma FirstArmFrame(m: Module, d: Dominance, facts: FactState, ov: OverflowIds, t: FlattenMessage)
    requires IsApplicable(m, d, ov, t) && WalkPremises(m, d, ov, t)
    ensures var st1 := LastWalked(m, d, facts, ov, t);
            var r := ApplyArms(m, d, facts, ov, t);
            var wrappers := InstructionsToWrapperInfo(m.fn, t.wrappers);
            var p := Arms(m, d, ov, t).0;
            && r.0.m.fn.blocks.Keys == st1.m.fn.blocks.Keys + ArmWrapIds(m, wrappers, m.fn.blocks, p)
            && ArmWrapIds(m, wrappers, m.fn.blocks, p) !! st1.m.fn.blocks.Keys
            && (forall x :: x in st1.m.fn.blocks && x !in p ==> r.0.m.fn.blocks[x] == st1.m.fn.blocks[x])
            && r.1 == ArmLast(wrappers, m.fn.blocks, p)
  {
    FirstArmKeys(m, d, facts, ov, t);
    FirstArmKeeps(m, d, facts, ov, t);
  }

  /** The walk of the arm laid out first adds exactly that arm's wraps, and ends in the chain end of its last block. */
  lemma FirstArmKeys(m: Module, d: Dominance, facts: FactState, ov: OverflowIds, t: FlattenMessage)
    requires IsApplicable(m, d, ov, t) && WalkPremises(m, d, ov, t)
    ensures var st1 := LastWalked(m, d, facts, ov, t);
            var r := ApplyArms(m, d, facts, ov, t);
            var wrappers := InstructionsToWrapperInfo(m.fn, t.wrappers);
            var p := Arms(m, d, ov, t).0;
            && r.0.m.fn.blocks.Keys == st1.m.fn.blocks.Keys + ArmWrapIds(m, wrappers, m.fn.blocks, p)
            && ArmWrapIds(m, wrappers, m.fn.blocks, p) !! st1.m.fn.blocks.Keys
            && r.1 == ArmLast(wrappers, m.fn.blocks, p)
  {
    var st1 := LastWalked(m, d, facts, ov, t);
    var ctx := Ctx(m, facts, t, true);
    var p := Arms(m, d, ov, t).0;
    var conv := ConvergenceOf(m, d, ov, t);
    var n := |m.fn.blocks|;
    ApplyArmsWalks(m, d, facts, ov, t);
    FirstArmReady(m, d, facts, ov, t);
    WalkArmKeys(m, st1, ctx, m.fn.blocks, t.headerBlockId, p, conv, n);
    WalkArmEnd(m, st1, ctx, m.fn.blocks, t.headerBlockId, p, conv, n);
    ArmFreshApart(m, st1.m.fn.blocks.Keys, ctx.wrappers, m.fn.blocks, p);
  }

  /** The walk of the arm laid out first changes no block off the arm. */
  lemma FirstArmKeeps(m: Module, d: Dominance, facts: FactState, ov: OverflowIds, t: FlattenMessage)
    requires IsApplicable(m, d, ov, t) && WalkPremises(m, d, ov, t)
    ensures var st1 := LastWalked(m, d, facts, ov, t);
            var r := ApplyArms(m, d, facts, ov, t);
            forall x :: x in st1.m.fn.blocks && x !in Arms(m, d, ov, t).0 ==> r.0.m.fn.blocks[x] == st1.m.fn.blocks[x]
  {
    var st1 := LastWalked(m, d, facts, ov, t);
    ApplyArmsWalks(m, d, facts, ov, t);
    FirstArmReady(m, d, facts, ov, t);
    WalkArmKeeps(m, st1, Ctx(m, facts, t, true), m.fn.blocks, t.headerBlockId, Arms(m, d, ov, t).0,
                 ConvergenceOf(m, d, ov, t), |m.fn.blocks|);
  }

  /** After both walks, the instructions of both arms are guarded. */
  lemma FirstArmChains(m: Module, d: Dominance, facts: FactState, ov: OverflowIds, t: FlattenMessage)
    requires IsApplicable(m, d, ov, t) && WalkPremises(m, d, ov, t)
    ensures var b2 := ApplyArms(m, d, facts, ov, t).0.m.fn.blocks;
            var conv := ConvergenceOf(m, d, ov, t);
            && ArmChains(m, b2, Ctx(m, facts, t, true), m.fn.blocks, Arms(m, d, ov, t).0, conv)
            && ArmChains(m, b2, Ctx(m, facts, t, false), m.fn.blocks, Arms(m, d, ov, t).1, conv)
  {
    var st1 := LastWalked(m, d, facts, ov, t);
    var (p, pLast) := Arms(m, d, ov, t);
    var conv := ConvergenceOf(m, d, ov, t);
    ApplyArmsWalks(m, d, facts, ov, t);
    FirstArmReady(m, d, facts, ov, t);
    WalkArmChains(m, st1, Ctx(m, facts, t, true), m.fn.blocks, t.headerBlockId, p, conv, |m.fn.blocks|);
    FirstArmFrame(m, d, facts, ov, t);
    LastArmFrame(m, d, facts, ov, t);
    LastArmChains(m, d, facts, ov, t);
    ArmsApart(m, d, ov, t);
    var st2 := ApplyArms(m, d, facts, ov, t).0;
    var changed := set x | x in p;
    forall x | x in pLast ensures x !in changed { }
    ArmChainsKept(m, st1.m.fn.blocks, st2.m.fn.blocks, Ctx(m, facts, t, false), m.fn.blocks, pLast, conv, changed);
  }

  /** The walk of the arm laid out first lays it out after the header. */
  lemma FirstArmLayout(m: Module, d: Dominance, facts: FactState, ov: OverflowIds, t: FlattenMessage)
    requires IsApplicable(m, d, ov, t) && WalkPremises(m, d, ov, t)
    ensures var st1 := LastWalked(m, d, facts, ov, t);
            var st2 := ApplyArms(m, d, facts, ov, t).0;
            LayoutOk(st2.m.fn) && ArmLaidOut(st1.m.fn.layout, st2.m.fn.layout, t.headerBlockId, Arms(m, d, ov, t).0)
  {
    var st1 := LastWalked(m, d, facts, ov, t);
    ApplyArmsWalks(m, d, facts, ov, t);
    FirstArmReady(m, d, facts, ov, t);
    LastArmLayout(m, d, facts, ov, t);
    WalkArmLayout(m, st1, Ctx(m, facts, t, true), m.fn.blocks, t.headerBlockId, Arms(m, d, ov, t).0,
                  ConvergenceOf(m, d, ov, t), |m.fn.blocks|);
  }

  // ---------------------------------------------------------------------------
  // From chains to guards

  /** Some block in `within` is the guard of `inst` with wrap `w`. */
  ghost predicate GuardedWithin(m: Module, blocks: map<Id, Block>, w: WrapperInfo, inst: Instruction, condition: Id,
                                execIfTrue: bool, within: set<Id>)
  {
    exists s :: s in within && GuardedBy(blocks, s, w, inst, NeedsPlaceholder(m, inst), condition, execIfTrue)
  }

  /**
    Every side-effecting instruction of a chain is guarded, by the block the
    chain starts in or by one of the merge blocks its wraps create.
   */
  lemma {:induction false} ChainGuards(m: Module, blocks: map<Id, Block>, wrappers: map<InstRef, WrapperInfo>, cur: Id,
                                      orig: Id, idx: nat, rest: seq<Instruction>, condition: Id, execIfTrue: bool)
    requires Chain(m, blocks, wrappers, cur, orig, idx, rest, condition, execIfTrue)
    ensures forall i :: 0 <= i < |rest| && !HasNoSideEffects(rest[i].op) ==>
              && InstRef(orig, idx + i) in wrappers
              && GuardedWithin(m, blocks, wrappers[InstRef(orig, idx + i)], rest[i], condition, execIfTrue,
                               {cur} + WrapIds(m, wrappers, orig, idx, rest))
    decreases |rest|
  {
    if |rest| > 0 {
      var within := {cur} + WrapIds(m, wrappers, orig, idx, rest);
      var next := if HasNoSideEffects(rest[0].op) then cur else wrappers[InstRef(orig, idx)].mergeBlockId;
      ChainGuards(m, blocks, wrappers, next, orig, idx + 1, rest[1..], condition, execIfTrue);
      assert {next} + WrapIds(m, wrappers, orig, idx + 1, rest[1..]) <= within;
      forall i | 0 <= i < |rest| && !HasNoSideEffects(rest[i].op)
        ensures && InstRef(orig, idx + i) in wrappers
                && GuardedWithin(m, blocks, wrappers[InstRef(orig, idx + i)], rest[i], condition, execIfTrue, within)
      {
        if i == 0 {
          assert cur in within;
        } else {
          assert rest[i] == rest[1..][i - 1] && idx + i == (idx + 1) + (i - 1);
          var w := wrappers[InstRef(orig, idx + i)];
          var s :| s in {next} + WrapIds(m, wrappers, orig, idx + 1, rest[1..])
                   && GuardedBy(blocks, s, w, rest[i], NeedsPlaceholder(m, rest[i]), condition, execIfTrue);
          assert s in within;
        }
      }
    }
  }

  /** A side-effecting instruction of a block on a walked path has a guard, off whatever the path and its wraps avoid. */
  lemma GuardOnPath(m: Module, blocks: map<Id, Block>, ctx: ArmContext, p: seq<Id>, conv: Id, x: Id, i: nat, avoid: set<Id>)
    returns (s: Id)
    requires ArmChains(m, blocks, ctx, m.fn.blocks, p, conv) && x in p
    requires x in m.fn.blocks && i < |m.fn.blocks[x].body| && !HasNoSideEffects(m.fn.blocks[x].body[i].op)
    requires ArmWrapIds(m, ctx.wrappers, m.fn.blocks, p) !! avoid && x !in avoid
    ensures InstRef(x, i) in ctx.wrappers && s !in avoid
    ensures var inst := m.fn.blocks[x].body[i];
            GuardedBy(blocks, s, ctx.wrappers[InstRef(x, i)], inst, NeedsPlaceholder(m, inst), ctx.condition, ctx.execIfTrue)
  {
    var body := m.fn.blocks[x].body;
    var j :| 0 <= j < |p| && p[j] == x;
    var ids := WrapIds(m, ctx.wrappers, x, 0, body);
    assert Chain(m, blocks, ctx.wrappers, x, x, 0, body, ctx.condition, ctx.execIfTrue);
    assert ids !! avoid by {
      ArmWrapIdsHas(m, ctx.wrappers, m.fn.blocks, p, j);
    }
    ChainGuards(m, blocks, ctx.wrappers, x, x, 0, body, ctx.condition, ctx.execIfTrue);
    var w := ctx.wrappers[InstRef(x, 0 + i)];
    assert GuardedWithin(m, blocks, w, body[i], ctx.condition, ctx.execIfTrue, {x} + ids);
    s :| s in {x} + ids && GuardedBy(blocks, s, w, body[i], NeedsPlaceholder(m, body[i]), ctx.condition, ctx.execIfTrue);
  }

  /** Every block of the divergent region lies on one of the two arms. */
  lemma RegionOnArms(m: Module, d: Dominance, ov: OverflowIds, t: FlattenMessage, x: Id)
    requires IsApplicable(m, d, ov, t) && InRegion(m, d, t.headerBlockId, x)
    ensures x in Arms(m, d, ov, t).0 || x in Arms(m, d, ov, t).1
  {
    var h := t.headerBlockId;
    var term := m.fn.blocks[h].terminator;
    var n := |m.fn.blocks|;
    ApplicableArmsConverge(m, d, ov, t);
    var k: nat :| OnArm(m, d, h, term.trueTarget, x, k) || OnArm(m, d, h, term.falseTarget, x, k);
    ArmConvergesWithinBlocks(m, d, h, term.trueTarget, WalkFuel(m.fn));
    ArmConvergesWithinBlocks(m, d, h, term.falseTarget, WalkFuel(m.fn));
    OnArmIffInPath(m, d, h, term.trueTarget, n, x, k);
    OnArmIffInPath(m, d, h, term.falseTarget, n, x, k);
  }

  /** What finding a guard on path `p` needs: its chains are in place, and neither it nor its wraps include block `h`. */
  ghost predicate GuardReady(m: Module, blocks: map<Id, Block>, ctx: ArmContext, p: seq<Id>, conv: Id, h: Id)
  {
    ArmChains(m, blocks, ctx, m.fn.blocks, p, conv) && ArmWrapIds(m, ctx.wrappers, m.fn.blocks, p) !! {h} && h !in p
  }

  /** After both walks, guards can be found on both arms, away from the header. */
  lemma ArmsGuardReady(m: Module, d: Dominance, facts: FactState, ov: OverflowIds, t: FlattenMessage)
    requires IsApplicable(m, d, ov, t) && WalkPremises(m, d, ov, t)
    ensures var b2 := ApplyArms(m, d, facts, ov, t).0.m.fn.blocks;
            var conv := ConvergenceOf(m, d, ov, t);
            && GuardReady(m, b2, Ctx(m, facts, t, true), Arms(m, d, ov, t).0, conv, t.headerBlockId)
            && GuardReady(m, b2, Ctx(m, facts, t, false), Arms(m, d, ov, t).1, conv, t.headerBlockId)
  {
    FirstArmChains(m, d, facts, ov, t);
    FirstArmKeys(m, d, facts, ov, t);
    LastArmKeys(m, d, facts, ov, t);
    FirstArmReady(m, d, facts, ov, t);
    LastArmReady(m, d, facts, ov, t);
  }

  /**
    Before relinking, every instruction the region walk collects is guarded
    by a block other than the header, on the header's condition, and
    executed on the side of the arm it came from.
   */
  lemma GuardBeforeRelink(m: Module, d: Dominance, facts: FactState, ov: OverflowIds, t: FlattenMessage, ref: InstRef)
    returns (s: Id)
    requires IsApplicable(m, d, ov, t) && WalkPremises(m, d, ov, t)
    requires ref in ProblematicInstructions(m, d, t.headerBlockId).value
    ensures ref in InstructionsToWrapperInfo(m.fn, t.wrappers) && Resolves(m.fn, ref)
    ensures var inst := InstructionAt(m.fn, ref);
            var term := m.fn.blocks[t.headerBlockId].terminator;
            && s != t.headerBlockId
            && GuardedBy(ApplyArms(m, d, facts, ov, t).0.m.fn.blocks, s, InstructionsToWrapperInfo(m.fn, t.wrappers)[ref], inst,
                         NeedsPlaceholder(m, inst), term.condition, ref.block in TrueArm(m, d, ov, t))
  {
    var h := t.headerBlockId;
    var x := ref.block;
    var (pFirst, pLast) := Arms(m, d, ov, t);
    var conv := ConvergenceOf(m, d, ov, t);
    var b2 := ApplyArms(m, d, facts, ov, t).0.m.fn.blocks;
    ProblematicInstructionsExact(m, d, h);
    assert Resolves(m.fn, ref) && InRegion(m, d, h, x) && !HasNoSideEffects(InstructionAt(m.fn, ref).op);
    RegionOnArms(m, d, ov, t, x);
    ArmsGuardReady(m, d, facts, ov, t);
    ArmsApart(m, d, ov, t);
    assert ref == InstRef(x, ref.index);
    if x in pFirst {
      s := GuardOnPath(m, b2, Ctx(m, facts, t, true), pFirst, conv, x, ref.index, {h});
    } else {
      s := GuardOnPath(m, b2, Ctx(m, facts, t, false), pLast, conv, x, ref.index, {h});
    }
  }

  // ---------------------------------------------------------------------------
  // Relinking

  /**
    A guard survives a change that keeps the guard's merge and terminator
    (everywhere but at `h` and `lastFirst`) and every body but that of
    `lastEntry`, when none of those three is a block the guard needs.
   */
  lemma GuardedRelinked(b: map<Id, Block>, b2: map<Id, Block>, s: Id, w: WrapperInfo, inst: Instruction, ph: bool,
                        condition: Id, execIfTrue: bool, h: Id, lastFirst: Option<Id>, lastEntry: Id)
    requires GuardedBy(b, s, w, inst, ph, condition, execIfTrue)
    requires b.Keys == b2.Keys
    requires forall x :: x in b && x != h && Some(x) != lastFirst ==>
               b2[x].merge == b[x].merge && b2[x].terminator == b[x].terminator
    requires forall x :: x in b && x != lastEntry ==> b2[x].body == b[x].body
    requires s != h && Some(s) != lastFirst
    requires w.executeBlockId != h && Some(w.executeBlockId) != lastFirst && w.executeBlockId != lastEntry
    requires ph ==> w.alternativeBlockId != h && Some(w.alternativeBlockId) != lastFirst && w.alternativeBlockId != lastEntry
                    && w.mergeBlockId != lastEntry
    ensures GuardedBy(b2, s, w, inst, ph, condition, execIfTrue)
  {
  }

  /**
    After `Apply`, every instruction the region walk collects is guarded: a
    block ends in a conditional branch on the header's condition to an
    execute block holding the instruction alone and, on the other side, the
    merge block or (when its result is used) an alternative block defining
    a placeholder; the execute block is taken on the side of the arm the
    instruction came from.
   */
  lemma ApplyGuards(m: Module, d: Dominance, facts: FactState, ov: OverflowIds, t: FlattenMessage, ref: InstRef)
    requires IsApplicable(m, d, ov, t) && WalkPremises(m, d, ov, t)
    requires ref in ProblematicInstructions(m, d, t.headerBlockId).value
    ensures ref in InstructionsToWrapperInfo(m.fn, t.wrappers) && Resolves(m.fn, ref)
    ensures var inst := InstructionAt(m.fn, ref);
            var term := m.fn.blocks[t.headerBlockId].terminator;
            exists s :: GuardedBy(Apply(m, d, facts, ov, t).m.fn.blocks, s, InstructionsToWrapperInfo(m.fn, t.wrappers)[ref],
                                  inst, NeedsPlaceholder(m, inst), term.condition, ref.block in TrueArm(m, d, ov, t))
  {
    var h := t.headerBlockId;
    var term := m.fn.blocks[h].terminator;
    var conv := ConvergenceOf(m, d, ov, t);
    var wrappers := InstructionsToWrapperInfo(m.fn, t.wrappers);
    var s := GuardBeforeRelink(m, d, facts, ov, t, ref);
    var inst := InstructionAt(m.fn, ref);
    var ph := NeedsPlaceholder(m, inst);
    var w := wrappers[ref];
    var (st2, last) := ApplyArms(m, d, facts, ov, t);
    var b := st2.m.fn.blocks;
    var lastEntry := ArmEntries(t, term).1;
    var r := Apply(m, d, facts, ov, t).m.fn.blocks;
    assert r == Relink(b, h, AfterHeader(t, term, conv), last, lastEntry, conv);
    // The wrap's blocks are new; the header, the other arm's entry and the convergence block are not.
    ApplicableWrappersFresh(m, d, ov, t);
    assert WrapsOf(m, wrappers, ref) == WrapBlocks(w, ph);
    LastArmReady(m, d, facts, ov, t);
    assert lastEntry in m.fn.blocks by {
      var pLast := Arms(m, d, ov, t).1;
      if |pLast| > 0 {
        assert pLast[0] in m.fn.blocks;
      }
    }
    assert w.mergeBlockId != conv;
    GuardedRelinked(b, r, s, w, inst, ph, term.condition, ref.block in TrueArm(m, d, ov, t), h, last, lastEntry);
  }

  /** The block a walked path ends in is its last block or one of its wraps. */
  lemma {:induction false} ArmLastIn(m: Module, wrappers: map<InstRef, WrapperInfo>, orig: map<Id, Block>, p: seq<Id>)
    ensures ArmLast(wrappers, orig, p).Some? ==>
              |p| > 0 && (ArmLast(wrappers, orig, p).value == p[|p| - 1]
                          || ArmLast(wrappers, orig, p).value in ArmWrapIds(m, wrappers, orig, p))
    decreases |p|
  {
    if |p| == 1 && p[0] in orig {
      ChainEndIn(m, wrappers, p[0], p[0], 0, orig[p[0]].body);
    } else if |p| > 1 {
      ArmLastIn(m, wrappers, orig, p[1..]);
      assert p[1..][|p| - 2] == p[|p| - 1];
    }
  }

  /** Both walks together add the wraps of both arms, which are new blocks. */
  lemma ArmsKeys(m: Module, d: Dominance, facts: FactState, ov: OverflowIds, t: FlattenMessage)
    requires IsApplicable(m, d, ov, t) && WalkPremises(m, d, ov, t)
    ensures var b := ApplyArms(m, d, facts, ov, t).0.m.fn.blocks;
            var wrappers := InstructionsToWrapperInfo(m.fn, t.wrappers);
            var a1 := ArmWrapIds(m, wrappers, m.fn.blocks, Arms(m, d, ov, t).0);
            var a2 := ArmWrapIds(m, wrappers, m.fn.blocks, Arms(m, d, ov, t).1);
            b.Keys == m.fn.blocks.Keys + a1 + a2 && (a1 + a2) !! m.fn.blocks.Keys
  {
    var wrappers := InstructionsToWrapperInfo(m.fn, t.wrappers);
    var a1 := ArmWrapIds(m, wrappers, m.fn.blocks, Arms(m, d, ov, t).0);
    var a2 := ArmWrapIds(m, wrappers, m.fn.blocks, Arms(m, d, ov, t).1);
    var k1 := LastWalked(m, d, facts, ov, t).m.fn.blocks.Keys;
    LastArmKeys(m, d, facts, ov, t);
    FirstArmKeys(m, d, facts, ov, t);
    KeysCompose(m.fn.blocks.Keys, k1, ApplyArms(m, d, facts, ov, t).0.m.fn.blocks.Keys, a1, a2);
  }

  /** Two rounds of adding new keys add both sets of new keys. */
  lemma KeysCompose(k0: set<Id>, k1: set<Id>, k2: set<Id>, a1: set<Id>, a2: set<Id>)
    requires k1 == k0 + a2 && a2 !! k0 && k2 == k1 + a1 && a1 !! k1
    ensures k2 == k0 + a1 + a2 && (a1 + a2) !! k0
  {
  }

  /** Both walks together change no block off the arms but the convergence block, whose phis are rewritten. */
  lemma ArmsUnchanged(m: Module, d: Dominance, facts: FactState, ov: OverflowIds, t: FlattenMessage, x: Id)
    requires IsApplicable(m, d, ov, t) && WalkPremises(m, d, ov, t)
    requires x in m.fn.blocks && x !in Arms(m, d, ov, t).0 && x !in Arms(m, d, ov, t).1
    ensures x in ApplyArms(m, d, facts, ov, t).0.m.fn.blocks
    ensures ApplyArms(m, d, facts, ov, t).0.m.fn.blocks[x] == PhisRewritten(m, d, ov, t).blocks[x]
  {
    LastArmFrame(m, d, facts, ov, t);
    FirstArmFrame(m, d, facts, ov, t);
  }

  /**
    The header and the convergence block are on neither arm; the walks end
    in a block of the first arm or a new one; the other arm starts on that
    arm or is the convergence block itself.
   */
  lemma ArmsEnds(m: Module, d: Dominance, facts: FactState, ov: OverflowIds, t: FlattenMessage)
    requires IsApplicable(m, d, ov, t) && WalkPremises(m, d, ov, t)
    ensures var last := ApplyArms(m, d, facts, ov, t).1;
            var conv := ConvergenceOf(m, d, ov, t);
            var (pFirst, pLast) := Arms(m, d, ov, t);
            var lastEntry := ArmEntries(t, m.fn.blocks[t.headerBlockId].terminator).1;
            && t.headerBlockId !in pFirst && t.headerBlockId !in pLast && conv !in pFirst && conv !in pLast
            && (last.Some? ==> last.value !in m.fn.blocks || last.value in pFirst)
            && (lastEntry in pLast || lastEntry == conv)
            && last == ArmLast(InstructionsToWrapperInfo(m.fn, t.wrappers), m.fn.blocks, pFirst)
  {
    var wrappers := InstructionsToWrapperInfo(m.fn, t.wrappers);
    var conv := ConvergenceOf(m, d, ov, t);
    var (pFirst, pLast) := Arms(m, d, ov, t);
    LastArmFrame(m, d, facts, ov, t);
    FirstArmFrame(m, d, facts, ov, t);
    LastArmReady(m, d, facts, ov, t);
    FirstArmReady(m, d, facts, ov, t);
    ArmLastIn(m, wrappers, m.fn.blocks, pFirst);
    assert conv !in pFirst && conv !in pLast by {
      assert forall i :: 0 <= i < |pFirst| ==> pFirst[i] != conv;
      assert forall i :: 0 <= i < |pLast| ==> pLast[i] != conv;
    }
    if |pLast| > 0 {
      assert pLast[0] in pLast;
    }
  }

  /** The blocks `Apply` adds are the wraps of both arms, and they are new. */
  lemma ApplyAdds(m: Module, d: Dominance, facts: FactState, ov: OverflowIds, t: FlattenMessage)
    requires IsApplicable(m, d, ov, t) && WalkPremises(m, d, ov, t)
    ensures var r := Apply(m, d, facts, ov, t).m.fn.blocks;
            var wrappers := InstructionsToWrapperInfo(m.fn, t.wrappers);
            var a1 := ArmWrapIds(m, wrappers, m.fn.blocks, Arms(m, d, ov, t).0);
            var a2 := ArmWrapIds(m, wrappers, m.fn.blocks, Arms(m, d, ov, t).1);
            r.Keys == m.fn.blocks.Keys + a1 + a2 && (a1 + a2) !! m.fn.blocks.Keys
  {
    ArmsKeys(m, d, facts, ov, t);
  }

  /** Outside the region, the header and the convergence block, `Apply` changes no block. */
  lemma ApplyKeepsOutside(m: Module, d: Dominance, facts: FactState, ov: OverflowIds, t: FlattenMessage, x: Id)
    requires IsApplicable(m, d, ov, t) && WalkPremises(m, d, ov, t)
    requires x in m.fn.blocks && x !in Arms(m, d, ov, t).0 && x !in Arms(m, d, ov, t).1
    requires x != t.headerBlockId && x != ConvergenceOf(m, d, ov, t)
    ensures x in Apply(m, d, facts, ov, t).m.fn.blocks && Apply(m, d, facts, ov, t).m.fn.blocks[x] == m.fn.blocks[x]
  {
    var h := t.headerBlockId;
    var term := m.fn.blocks[h].terminator;
    var conv := ConvergenceOf(m, d, ov, t);
    var (st2, last) := ApplyArms(m, d, facts, ov, t);
    var r := Apply(m, d, facts, ov, t).m.fn.blocks;
    assert r == Relink(st2.m.fn.blocks, h, AfterHeader(t, term, conv), last, ArmEntries(t, term).1, conv);
    ArmsEnds(m, d, facts, ov, t);
    ArmsUnchanged(m, d, facts, ov, t, x);
  }

  /**
    The header keeps its instructions, loses its merge and branches to the
    first arm laid out (to the other one if that is empty); the convergence
    block's phis become selects when the header's targets differ.
   */
  lemma ApplyHeaderAndConvergence(m: Module, d: Dominance, facts: FactState, ov: OverflowIds, t: FlattenMessage)
    requires IsApplicable(m, d, ov, t) && WalkPremises(m, d, ov, t)
    ensures var r := Apply(m, d, facts, ov, t).m.fn.blocks;
            var h := t.headerBlockId;
            var term := m.fn.blocks[h].terminator;
            var conv := ConvergenceOf(m, d, ov, t);
            && r[h] == Block(None, m.fn.blocks[h].body, Branch(AfterHeader(t, term, conv)))
            && r[conv] == m.fn.blocks[conv].(body := if term.trueTarget != term.falseTarget
                                                     then RewritePhis(d, term.condition, term.trueTarget, m.fn.blocks[conv].body)
                                                     else m.fn.blocks[conv].body)
  {
    var h := t.headerBlockId;
    var term := m.fn.blocks[h].terminator;
    var conv := ConvergenceOf(m, d, ov, t);
    var (st2, last) := ApplyArms(m, d, facts, ov, t);
    var r := Apply(m, d, facts, ov, t).m.fn.blocks;
    assert r == Relink(st2.m.fn.blocks, h, AfterHeader(t, term, conv), last, ArmEntries(t, term).1, conv);
    ArmsEnds(m, d, facts, ov, t);
    ArmsUnchanged(m, d, facts, ov, t, h);
    ArmsUnchanged(m, d, facts, ov, t, conv);
  }

  /**
    The first arm laid out ends in the chain end of its last block, which
    now branches to the entry of the other arm.
   */
  lemma ApplyLinksArms(m: Module, d: Dominance, facts: FactState, ov: OverflowIds, t: FlattenMessage)
    requires IsApplicable(m, d, ov, t) && WalkPremises(m, d, ov, t)
    ensures var last := ApplyArms(m, d, facts, ov, t).1;
            var r := Apply(m, d, facts, ov, t).m.fn.blocks;
            && last == ArmLast(InstructionsToWrapperInfo(m.fn, t.wrappers), m.fn.blocks, Arms(m, d, ov, t).0)
            && (last.Some? ==> r[last.value].terminator == Branch(ArmEntries(t, m.fn.blocks[t.headerBlockId].terminator).1))
  {
    ArmsEnds(m, d, facts, ov, t);
  }

  /** The blocks of path `p` are laid out in path order in `l`. */
  ghost predicate InOrder(l: seq<Id>, p: seq<Id>)
  {
    forall i, j :: 0 <= i < j < |p| ==> Before(l, p[i], p[j])
  }

  /** What two walks from the header leave: both arms after the header, the first ahead of the other. */
  ghost predicate ArmsLaidOut(l0: seq<Id>, l: seq<Id>, h: Id, pFirst: seq<Id>, pLast: seq<Id>)
  {
    && (forall i :: 0 <= i < |pFirst| ==> Before(l, h, pFirst[i]))
    && (forall i :: 0 <= i < |pLast| ==> Before(l, h, pLast[i]))
    && InOrder(l, pFirst) && InOrder(l, pLast)
    && (forall i, j :: 0 <= i < |pFirst| && 0 <= j < |pLast| ==> Before(l, pFirst[i], pLast[j]))
    && (forall a, b :: a !in pFirst && a !in pLast && b !in pFirst && b !in pLast && Before(l0, a, b) ==> Before(l, a, b))
  }

  /** The other arm's blocks keep their place behind the header once the first arm is laid out. */
  lemma SecondWalkKeepsArm(l1: seq<Id>, l2: seq<Id>, h: Id, pFirst: seq<Id>, pLast: seq<Id>)
    requires ArmLaidOut(l1, l2, h, pFirst) && h !in pFirst
    requires forall x :: x in pLast ==> x !in pFirst
    requires forall i :: 0 <= i < |pLast| ==> Before(l1, h, pLast[i])
    requires InOrder(l1, pLast)
    ensures forall j :: 0 <= j < |pLast| ==> Before(l2, h, pLast[j])
    ensures forall i, j :: 0 <= i < |pFirst| && 0 <= j < |pLast| ==> Before(l2, pFirst[i], pLast[j])
    ensures InOrder(l2, pLast)
  {
    forall j | 0 <= j < |pLast| ensures Before(l2, h, pLast[j]) && forall i :: 0 <= i < |pFirst| ==> Before(l2, pFirst[i], pLast[j]) {
      assert pLast[j] in pLast;
    }
    forall i, j | 0 <= i < j < |pLast| ensures Before(l2, pLast[i], pLast[j]) {
      assert pLast[i] in pLast && pLast[j] in pLast;
    }
  }

  /** Two arm walks from the header, the second over the arm laid out first, leave both arms laid out after it. */
  lemma TwoArmsLaidOut(l0: seq<Id>, l1: seq<Id>, l2: seq<Id>, h: Id, pFirst: seq<Id>, pLast: seq<Id>)
    requires ArmLaidOut(l0, l1, h, pLast) && ArmLaidOut(l1, l2, h, pFirst)
    requires h !in pFirst && h !in pLast && forall x :: x in pLast ==> x !in pFirst
    ensures ArmsLaidOut(l0, l2, h, pFirst, pLast)
  {
    SecondWalkKeepsArm(l1, l2, h, pFirst, pLast);
  }

  /**
    `Apply`'s layout still lists every block once; both arms follow the
    header, each in branch order, the first arm laid out entirely before the
    other; every other pair of blocks keeps its order.
   */
  lemma ApplyLayout(m: Module, d: Dominance, facts: FactState, ov: OverflowIds, t: FlattenMessage)
    requires IsApplicable(m, d, ov, t) && WalkPremises(m, d, ov, t)
    ensures var f := Apply(m, d, facts, ov, t).m.fn;
            LayoutOk(f) && ArmsLaidOut(m.fn.layout, f.layout, t.headerBlockId, Arms(m, d, ov, t).0, Arms(m, d, ov, t).1)
  {
    var h := t.headerBlockId;
    var (pFirst, pLast) := Arms(m, d, ov, t);
    var l1 := LastWalked(m, d, facts, ov, t).m.fn.layout;
    var st2 := ApplyArms(m, d, facts, ov, t).0;
    var f := Apply(m, d, facts, ov, t).m.fn;
    assert f.layout == st2.m.fn.layout && f.blocks.Keys == st2.m.fn.blocks.Keys;
    LastArmLayout(m, d, facts, ov, t);
    FirstArmLayout(m, d, facts, ov, t);
    ArmsEnds(m, d, facts, ov, t);
    ArmsApart(m, d, ov, t);
    TwoArmsLaidOut(m.fn.layout, l1, st2.m.fn.layout, h, pFirst, pLast);
  }
}

=== FILE: flatten_shape.dfy ===
/**
  What the rewrite of "flatten conditional branch" leaves behind: every
  side-effecting instruction of the region sits alone in an execute block
  behind a conditional on the header's condition, the arm blocks are laid
  out after the header in arm order, the convergence block's phis have
  become selects, and nothing else changes.
 */
module FlattenShape {
  import opened Ir
  import opened FlattenCheck
  import opened Region
  import opened FlattenApply
  import opened LayoutOrder

  // ---------------------------------------------------------------------------
  // One wrapped instruction

  /**
    Block `s` guards `inst`: it is a selection header on the wrap's merge
    block and branches on `condition` to the execute block (on the true side
    exactly when `execIfTrue`) and to the alternative block (with a
    placeholder) or straight to the merge block. The execute block holds
    only the instruction and branches to the merge block; with a
    placeholder, the alternative block only defines the placeholder, and the
    merge block starts with the phi that keeps the instruction's result id.
   */
  predicate GuardedBy(blocks: map<Id, Block>, s: Id, w: WrapperInfo, inst: Instruction, placeholder: bool,
                      condition: Id, execIfTrue: bool)
  {
    var other := if placeholder then w.alternativeBlockId else w.mergeBlockId;
    && s in blocks
    && blocks[s].merge == Some(SelectionMerge(w.mergeBlockId))
    && blocks[s].terminator == (if execIfTrue then BranchConditional(condition, w.executeBlockId, other)
                                else BranchConditional(condition, other, w.executeBlockId))
    && w.executeBlockId in blocks
    && blocks[w.executeBlockId] == Block(None, [Executed(inst, w, placeholder)], Branch(w.mergeBlockId))
    && (placeholder ==>
          && w.alternativeBlockId in blocks
          && blocks[w.alternativeBlockId] == Block(None, [PlaceholderDef(w, inst.typeId)], Branch(w.mergeBlockId))
          && w.mergeBlockId in blocks
          && |blocks[w.mergeBlockId].body| > 0
          && blocks[w.mergeBlockId].body[0] == ResultPhi(w, inst))
  }

  /** The new ids of one wrap differ from each other. */
  predicate WrapIdsApart(w: WrapperInfo, placeholder: bool)
  {
    w.executeBlockId != w.mergeBlockId
    && (placeholder ==> w.alternativeBlockId != w.executeBlockId && w.alternativeBlockId != w.mergeBlockId)
  }

  /** Splitting a block adds exactly the wrap's blocks, laid out right after it. */
  lemma EncloseAdds(m: Module, deadFacts: set<Id>, b: Id, bMerge: Option<Merge>, prefix: seq<Instruction>,
                    inst: Instruction, suffix: seq<Instruction>, term: Terminator, w: WrapperInfo,
                    condition: Id, execIfTrue: bool)
    ensures var e := Enclose(m, deadFacts, b, bMerge, prefix, inst, suffix, term, w, condition, execIfTrue);
            && e.m.fn.blocks.Keys == m.fn.blocks.Keys + {b} + WrapBlocks(w, NeedsPlaceholder(m, inst))
            && e.m.fn.layout == InsertAfter(m.fn.layout, b, WrapOrder(w, NeedsPlaceholder(m, inst)))
  {
  }

  /**
    Splitting block `b` with distinct ids guards the instruction in `b`; `b`
    keeps the prefix, and the merge block takes the phi (if any), the suffix
    and `b`'s merge and terminator.
   */
  lemma EncloseGuards(m: Module, deadFacts: set<Id>, b: Id, bMerge: Option<Merge>, prefix: seq<Instruction>,
                      inst: Instruction, suffix: seq<Instruction>, term: Terminator, w: WrapperInfo,
                      condition: Id, execIfTrue: bool)
    requires DistinctWrapIds(b, w, NeedsPlaceholder(m, inst))
    ensures var e := Enclose(m, deadFacts, b, bMerge, prefix, inst, suffix, term, w, condition, execIfTrue);
            var ph := NeedsPlaceholder(m, inst);
            && GuardedBy(e.m.fn.blocks, b, w, inst, ph, condition, execIfTrue)
            && e.m.fn.blocks[b].body == prefix
            && e.m.fn.blocks[w.mergeBlockId] == Block(bMerge, (if ph then [ResultPhi(w, inst)] else []) + suffix, term)
  {
  }

  // ---------------------------------------------------------------------------
  // All wrapped instructions of one block

  /**
    The shape the instruction loop leaves for `rest` (position `idx` on of
    block `orig`) starting at block `cur`: each side-effecting instruction,
    in order, is guarded by the block it was split from, and the next one
    continues in that wrap's merge block.
   */
  predicate Chain(m: Module, blocks: map<Id, Block>, wrappers: map<InstRef, WrapperInfo>, cur: Id, orig: Id,
                  idx: nat, rest: seq<Instruction>, condition: Id, execIfTrue: bool)
    decreases |rest|
  {
    if |rest| == 0 then true
    else if HasNoSideEffects(rest[0].op) then Chain(m, blocks, wrappers, cur, orig, idx + 1, rest[1..], condition, execIfTrue)
    else
      && InstRef(orig, idx) in wrappers
      && GuardedBy(blocks, cur, wrappers[InstRef(orig, idx)], rest[0], NeedsPlaceholder(m, rest[0]), condition, execIfTrue)
      && Chain(m, blocks, wrappers, wrappers[InstRef(orig, idx)].mergeBlockId, orig, idx + 1, rest[1..], condition, execIfTrue)
  }

  /** The block left holding what follows the last wrapped instruction: the last merge block, or `cur`. */
  function ChainEnd(wrappers: map<InstRef, WrapperInfo>, cur: Id, orig: Id, idx: nat, rest: seq<Instruction>): Id
    decreases |rest|
  {
    if |rest| == 0 then cur
    else if HasNoSideEffects(rest[0].op) || InstRef(orig, idx) !in wrappers then ChainEnd(wrappers, cur, orig, idx + 1, rest[1..])
    else ChainEnd(wrappers, wrappers[InstRef(orig, idx)].mergeBlockId, orig, idx + 1, rest[1..])
  }

  /** The blocks the wraps of `rest` create. */
  function WrapIds(m: Module, wrappers: map<InstRef, WrapperInfo>, orig: Id, idx: nat, rest: seq<Instruction>): set<Id>
    decreases |rest|
  {
    if |rest| == 0 then {}
    else if HasNoSideEffects(rest[0].op) || InstRef(orig, idx) !in wrappers then WrapIds(m, wrappers, orig, idx + 1, rest[1..])
    else WrapBlocks(wrappers[InstRef(orig, idx)], NeedsPlaceholder(m, rest[0])) + WrapIds(m, wrappers, orig, idx + 1, rest[1..])
  }

  /**
    Every side-effecting instruction of `rest` has a wrapper entry whose new
    blocks are distinct, and not yet used: neither in `keys` nor by an
    earlier wrap.
   */
  predicate FreshWraps(m: Module, keys: set<Id>, wrappers: map<InstRef, WrapperInfo>, orig: Id, idx: nat, rest: seq<Instruction>)
    decreases |rest|
  {
    if |rest| == 0 then true
    else if HasNoSideEffects(rest[0].op) then FreshWraps(m, keys, wrappers, orig, idx + 1, rest[1..])
    else
      && InstRef(orig, idx) in wrappers
      && var w := wrappers[InstRef(orig, idx)];
         var ph := NeedsPlaceholder(m, rest[0]);
         && WrapIdsApart(w, ph) && WrapBlocks(w, ph) !! keys
         && FreshWraps(m, keys + WrapBlocks(w, ph), wrappers, orig, idx + 1, rest[1..])
  }

  lemma WrapOrderNoDup(w: WrapperInfo, placeholder: bool)
    requires WrapIdsApart(w, placeholder)
    ensures NoDup(WrapOrder(w, placeholder))
  {
  }

  /** One step of the instruction loop, unfolded: enclose the first side-effecting instruction and carry on in its merge block. */
  lemma WrapBodyUnfold(st: ApplyState, ctx: ArmContext, cur: Id, bMerge: Option<Merge>, prefix: seq<Instruction>,
                       rest: seq<Instruction>, orig: Id, idx: nat, term: Terminator)
    requires |rest| > 0 && !HasNoSideEffects(rest[0].op) && InstRef(orig, idx) in ctx.wrappers
    ensures var w := ctx.wrappers[InstRef(orig, idx)];
            var e := Enclose(st.m, ctx.deadFacts, cur, bMerge, prefix, rest[0], rest[1..], term, w, ctx.condition, ctx.execIfTrue);
            var st' := ApplyState(e.m, st.overflow, st.deadQueue + e.dead, st.irrelevantQueue + e.irrelevant);
            var prefix' := if NeedsPlaceholder(st.m, rest[0]) then [ResultPhi(w, rest[0])] else [];
            WrapBody(st, ctx, cur, bMerge, prefix, rest, orig, idx, term)
              == WrapBody(st', ctx, w.mergeBlockId, bMerge, prefix', rest[1..], orig, idx + 1, term)
  {
  }

  /** The state after enclosing the first instruction of `rest`, when it has side effects. */
  function StepState(st: ApplyState, ctx: ArmContext, cur: Id, bMerge: Option<Merge>, prefix: seq<Instruction>,
                     rest: seq<Instruction>, orig: Id, idx: nat, term: Terminator): ApplyState
    requires |rest| > 0 && InstRef(orig, idx) in ctx.wrappers
  {
    var e := Enclose(st.m, ctx.deadFacts, cur, bMerge, prefix, rest[0], rest[1..], term, ctx.wrappers[InstRef(orig, idx)],
                     ctx.condition, ctx.execIfTrue);
    ApplyState(e.m, st.overflow, st.deadQueue + e.dead, st.irrelevantQueue + e.irrelevant)
  }

  /** The prefix the merge block starts with after that step: the phi, when there is a placeholder. */
  function StepPrefix(m: Module, w: WrapperInfo, inst: Instruction): seq<Instruction>
  {
    if NeedsPlaceholder(m, inst) then [ResultPhi(w, inst)] else []
  }

  /**
    Enclosing the first instruction of `rest`, when it has side effects and
    fresh ids: the loop carries on in the merge block, which holds the phi
    (if any) and the suffix; exactly the wrap's blocks are added and no
    other existing block changes.
   */
  lemma WrapStep(m: Module, st: ApplyState, ctx: ArmContext, cur: Id, bMerge: Option<Merge>,
                 prefix: seq<Instruction>, rest: seq<Instruction>, orig: Id, idx: nat, term: Terminator,
                 w: WrapperInfo, ph: bool, st': ApplyState)
    requires st.m.typeIsVoid == m.typeIsVoid
    requires cur in st.m.fn.blocks
    requires |rest| > 0 && !HasNoSideEffects(rest[0].op)
    requires FreshWraps(m, st.m.fn.blocks.Keys, ctx.wrappers, orig, idx, rest)
    requires w == ctx.wrappers[InstRef(orig, idx)] && ph == NeedsPlaceholder(m, rest[0])
    requires st' == StepState(st, ctx, cur, bMerge, prefix, rest, orig, idx, term)
    ensures st'.m.typeIsVoid == m.typeIsVoid
    ensures w.mergeBlockId in st'.m.fn.blocks
    ensures st'.m.fn.blocks[w.mergeBlockId] == Block(bMerge, StepPrefix(m, w, rest[0]) + rest[1..], term)
    ensures st'.m.fn.blocks.Keys == st.m.fn.blocks.Keys + WrapBlocks(w, ph)
    ensures st'.m.fn.layout == InsertAfter(st.m.fn.layout, cur, WrapOrder(w, ph))
  {
    assert ph == NeedsPlaceholder(st.m, rest[0]);
    EncloseAdds(st.m, ctx.deadFacts, cur, bMerge, prefix, rest[0], rest[1..], term, w, ctx.condition, ctx.execIfTrue);
    EncloseGuards(st.m, ctx.deadFacts, cur, bMerge, prefix, rest[0], rest[1..], term, w, ctx.condition, ctx.execIfTrue);
    assert st'.m.fn.blocks.Keys == st.m.fn.blocks.Keys + WrapBlocks(w, ph);
  }

  /** The loop after that step carries on in the wrap's merge block, with the phi (if any) as its prefix. */
  lemma WrapStepNext(m: Module, st: ApplyState, ctx: ArmContext, cur: Id, bMerge: Option<Merge>,
                     prefix: seq<Instruction>, rest: seq<Instruction>, orig: Id, idx: nat, term: Terminator,
                     w: WrapperInfo, ph: bool, st': ApplyState)
    requires st.m.typeIsVoid == m.typeIsVoid
    requires cur in st.m.fn.blocks
    requires |rest| > 0 && !HasNoSideEffects(rest[0].op)
    requires FreshWraps(m, st.m.fn.blocks.Keys, ctx.wrappers, orig, idx, rest)
    requires w == ctx.wrappers[InstRef(orig, idx)] && ph == NeedsPlaceholder(m, rest[0])
    requires st' == StepState(st, ctx, cur, bMerge, prefix, rest, orig, idx, term)
    ensures WrapBody(st, ctx, cur, bMerge, prefix, rest, orig, idx, term)
              == WrapBody(st', ctx, w.mergeBlockId, bMerge, StepPrefix(m, w, rest[0]), rest[1..], orig, idx + 1, term)
  {
    assert ph == NeedsPlaceholder(st.m, rest[0]);
    WrapBodyUnfold(st, ctx, cur, bMerge, prefix, rest, orig, idx, term);
    EncloseGuards(st.m, ctx.deadFacts, cur, bMerge, prefix, rest[0], rest[1..], term, w, ctx.condition, ctx.execIfTrue);
  }

  /** The same step leaves every other existing block alone, and the later wraps stay fresh. */
  lemma WrapStepFrame(m: Module, st: ApplyState, ctx: ArmContext, cur: Id, bMerge: Option<Merge>,
                      prefix: seq<Instruction>, rest: seq<Instruction>, orig: Id, idx: nat, term: Terminator,
                      w: WrapperInfo, ph: bool, st': ApplyState)
    requires st.m.typeIsVoid == m.typeIsVoid
    requires cur in st.m.fn.blocks
    requires |rest| > 0 && !HasNoSideEffects(rest[0].op)
    requires FreshWraps(m, st.m.fn.blocks.Keys, ctx.wrappers, orig, idx, rest)
    requires w == ctx.wrappers[InstRef(orig, idx)] && ph == NeedsPlaceholder(m, rest[0])
    requires st' == StepState(st, ctx, cur, bMerge, prefix, rest, orig, idx, term)
    ensures forall x :: x in st.m.fn.blocks && x != cur ==> st'.m.fn.blocks[x] == st.m.fn.blocks[x]
    ensures FreshWraps(m, st'.m.fn.blocks.Keys, ctx.wrappers, orig, idx + 1, rest[1..])
  {
    assert ph == NeedsPlaceholder(st.m, rest[0]);
    EncloseAdds(st.m, ctx.deadFacts, cur, bMerge, prefix, rest[0], rest[1..], term, w, ctx.condition, ctx.execIfTrue);
    assert st'.m.fn.blocks.Keys == st.m.fn.blocks.Keys + WrapBlocks(w, ph);
  }

  /** The same step guards the instruction in the split block, which keeps the prefix. */
  lemma WrapStepGuards(m: Module, st: ApplyState, ctx: ArmContext, cur: Id, bMerge: Option<Merge>,
                       prefix: seq<Instruction>, rest: seq<Instruction>, orig: Id, idx: nat, term: Terminator,
                       w: WrapperInfo, ph: bool, st': ApplyState)
    requires st.m.typeIsVoid == m.typeIsVoid
    requires cur in st.m.fn.blocks
    requires |rest| > 0 && !HasNoSideEffects(rest[0].op)
    requires FreshWraps(m, st.m.fn.blocks.Keys, ctx.wrappers, orig, idx, rest)
    requires w == ctx.wrappers[InstRef(orig, idx)] && ph == NeedsPlaceholder(m, rest[0])
    requires st' == StepState(st, ctx, cur, bMerge, prefix, rest, orig, idx, term)
    ensures GuardedBy(st'.m.fn.blocks, cur, w, rest[0], ph, ctx.condition, ctx.execIfTrue)
    ensures st'.m.fn.blocks[cur].body == prefix
  {
    assert ph == NeedsPlaceholder(st.m, rest[0]);
    EncloseGuards(st.m, ctx.deadFacts, cur, bMerge, prefix, rest[0], rest[1..], term, w, ctx.condition, ctx.execIfTrue);
  }

  /**
    The layout side of the instruction loop of one block: every block it
    creates is laid out after `cur`, ahead of whatever followed `cur`, in
    particular the block it returns; old blocks keep their order.
   */
  lemma WrapBodyLayout(m: Module, st: ApplyState, ctx: ArmContext, cur: Id, bMerge: Option<Merge>,
                       prefix: seq<Instruction>, rest: seq<Instruction>, orig: Id, idx: nat, term: Terminator)
    requires st.m.typeIsVoid == m.typeIsVoid
    requires cur in st.m.fn.blocks
    requires FreshWraps(m, st.m.fn.blocks.Keys, ctx.wrappers, orig, idx, rest)
    requires LayoutOk(st.m.fn)
    ensures var (st', last) := WrapBody(st, ctx, cur, bMerge, prefix, rest, orig, idx, term);
            && LayoutOk(st'.m.fn)
            && (forall a, b :: Before(st.m.fn.layout, a, b) ==> Before(st'.m.fn.layout, a, b))
            && (last == cur || Before(st'.m.fn.layout, cur, last))
            && (forall c :: Before(st.m.fn.layout, cur, c) ==> Before(st'.m.fn.layout, last, c))
  {
    WrapBodyLayoutKeeps(m, st, ctx, cur, bMerge, prefix, rest, orig, idx, term);
    WrapBodyLayoutLast(m, st, ctx, cur, bMerge, prefix, rest, orig, idx, term);
  }

  /** Wrapping a body keeps the layout well formed and keeps the order of the blocks already laid out. */
  lemma {:induction false} WrapBodyLayoutKeeps(m: Module, st: ApplyState, ctx: ArmContext, cur: Id, bMerge: Option<Merge>,
                                              prefix: seq<Instruction>, rest: seq<Instruction>, orig: Id, idx: nat, term: Terminator)
    requires st.m.typeIsVoid == m.typeIsVoid
    requires cur in st.m.fn.blocks
    requires FreshWraps(m, st.m.fn.blocks.Keys, ctx.wrappers, orig, idx, rest)
    requires LayoutOk(st.m.fn)
    decreases |rest|
    ensures var st' := WrapBody(st, ctx, cur, bMerge, prefix, rest, orig, idx, term).0;
            && LayoutOk(st'.m.fn)
            && forall a, b :: Before(st.m.fn.layout, a, b) ==> Before(st'.m.fn.layout, a, b)
  {
    if |rest| > 0 {
      var inst := rest[0];
      if HasNoSideEffects(inst.op) {
        WrapBodyLayoutKeeps(m, st, ctx, cur, bMerge, prefix + [inst], rest[1..], orig, idx + 1, term);
      } else {
        var w, st' := LayoutStep(m, st, ctx, cur, bMerge, prefix, rest, orig, idx, term);
        WrapBodyLayoutKeeps(m, st', ctx, w.mergeBlockId, bMerge, StepPrefix(m, w, inst), rest[1..], orig, idx + 1, term);
      }
    }
  }

  /** Wrapping a body ends in a block laid out after the one it started in, ahead of every block that followed that one. */
  lemma {:induction false} WrapBodyLayoutLast(m: Module, st: ApplyState, ctx: ArmContext, cur: Id, bMerge: Option<Merge>,
                                             prefix: seq<Instruction>, rest: seq<Instruction>, orig: Id, idx: nat, term: Terminator)
    requires st.m.typeIsVoid == m.typeIsVoid
    requires cur in st.m.fn.blocks
    requires FreshWraps(m, st.m.fn.blocks.Keys, ctx.wrappers, orig, idx, rest)
    requires LayoutOk(st.m.fn)
    decreases |rest|
    ensures var (st', last) := WrapBody(st, ctx, cur, bMerge, prefix, rest, orig, idx, term);
            && (last == cur || Before(st'.m.fn.layout, cur, last))
            && (forall c :: Before(st.m.fn.layout, cur, c) ==> Before(st'.m.fn.layout, last, c))
  {
    if |rest| > 0 {
      var inst := rest[0];
      if HasNoSideEffects(inst.op) {
        WrapBodyLayoutLast(m, st, ctx, cur, bMerge, prefix + [inst], rest[1..], orig, idx + 1, term);
      } else {
        var w, st' := LayoutStep(m, st, ctx, cur, bMerge, prefix, rest, orig, idx, term);
        var prefix' := StepPrefix(m, w, inst);
        WrapBodyLayoutKeeps(m, st', ctx, w.mergeBlockId, bMerge, prefix', rest[1..], orig, idx + 1, term);
        WrapBodyLayoutLast(m, st', ctx, w.mergeBlockId, bMerge, prefix', rest[1..], orig, idx + 1, term);
        var r := WrapBody(st', ctx, w.mergeBlockId, bMerge, prefix', rest[1..], orig, idx + 1, term);
        LayoutCompose(st.m.fn.layout, st'.m.fn.layout, r.0.m.fn.layout, cur, w.mergeBlockId, r.1);
      }
    }
  }

  /**
    One wrapped instruction, as the shape lemmas need it: the instruction is
    guarded by `cur`, which keeps the prefix; the walk goes on from the
    wrap's merge block, which holds the rest; no other old block changes.
   */
  lemma ShapeStep(m: Module, st: ApplyState, ctx: ArmContext, cur: Id, bMerge: Option<Merge>,
                  prefix: seq<Instruction>, rest: seq<Instruction>, orig: Id, idx: nat, term: Terminator)
    returns (w: WrapperInfo, ph: bool, st': ApplyState)
    requires st.m.typeIsVoid == m.typeIsVoid
    requires cur in st.m.fn.blocks
    requires FreshWraps(m, st.m.fn.blocks.Keys, ctx.wrappers, orig, idx, rest)
    requires |rest| > 0 && !HasNoSideEffects(rest[0].op)
    ensures w == ctx.wrappers[InstRef(orig, idx)] && ph == NeedsPlaceholder(m, rest[0]) && WrapIdsApart(w, ph)
    ensures WrapBody(st, ctx, cur, bMerge, prefix, rest, orig, idx, term)
              == WrapBody(st', ctx, w.mergeBlockId, bMerge, StepPrefix(m, w, rest[0]), rest[1..], orig, idx + 1, term)
    ensures st'.m.typeIsVoid == m.typeIsVoid && cur != w.mergeBlockId
    ensures w.mergeBlockId in st'.m.fn.blocks
    ensures st'.m.fn.blocks[w.mergeBlockId] == Block(bMerge, StepPrefix(m, w, rest[0]) + rest[1..], term)
    ensures FreshWraps(m, st'.m.fn.blocks.Keys, ctx.wrappers, orig, idx + 1, rest[1..])
    ensures forall x :: x in st.m.fn.blocks && x != cur ==> x in st'.m.fn.blocks && st'.m.fn.blocks[x] == st.m.fn.blocks[x]
    ensures GuardedBy(st'.m.fn.blocks, cur, w, rest[0], ph, ctx.condition, ctx.execIfTrue)
    ensures cur in st'.m.fn.blocks && st'.m.fn.blocks[cur].body == prefix
  {
    w := ctx.wrappers[InstRef(orig, idx)];
    ph := NeedsPlaceholder(m, rest[0]);
    st' := StepState(st, ctx, cur, bMerge, prefix, rest, orig, idx, term);
    WrapStep(m, st, ctx, cur, bMerge, prefix, rest, orig, idx, term, w, ph, st');
    WrapStepNext(m, st, ctx, cur, bMerge, prefix, rest, orig, idx, term, w, ph, st');
    WrapStepFrame(m, st, ctx, cur, bMerge, prefix, rest, orig, idx, term, w, ph, st');
    WrapStepGuards(m, st, ctx, cur, bMerge, prefix, rest, orig, idx, term, w, ph, st');
  }

  /** One wrapped instruction, as the layout lemmas need it: the walk goes on from the wrap's merge block, laid out after `cur`. */
  lemma LayoutStep(m: Module, st: ApplyState, ctx: ArmContext, cur: Id, bMerge: Option<Merge>,
                   prefix: seq<Instruction>, rest: seq<Instruction>, orig: Id, idx: nat, term: Terminator)
    returns (w: WrapperInfo, st': ApplyState)
    requires st.m.typeIsVoid == m.typeIsVoid
    requires cur in st.m.fn.blocks
    requires FreshWraps(m, st.m.fn.blocks.Keys, ctx.wrappers, orig, idx, rest)
    requires LayoutOk(st.m.fn)
    requires |rest| > 0 && !HasNoSideEffects(rest[0].op)
    ensures WrapBody(st, ctx, cur, bMerge, prefix, rest, orig, idx, term)
              == WrapBody(st', ctx, w.mergeBlockId, bMerge, StepPrefix(m, w, rest[0]), rest[1..], orig, idx + 1, term)
    ensures st'.m.typeIsVoid == m.typeIsVoid && w.mergeBlockId in st'.m.fn.blocks
    ensures FreshWraps(m, st'.m.fn.blocks.Keys, ctx.wrappers, orig, idx + 1, rest[1..])
    ensures LayoutOk(st'.m.fn)
    ensures forall a, b :: Before(st.m.fn.layout, a, b) ==> Before(st'.m.fn.layout, a, b)
    ensures Before(st'.m.fn.layout, cur, w.mergeBlockId)
    ensures forall c :: Before(st.m.fn.layout, cur, c) ==> Before(st'.m.fn.layout, w.mergeBlockId, c)
  {
    w := ctx.wrappers[InstRef(orig, idx)];
    var ph := NeedsPlaceholder(m, rest[0]);
    st' := StepState(st, ctx, cur, bMerge, prefix, rest, orig, idx, term);
    WrapStep(m, st, ctx, cur, bMerge, prefix, rest, orig, idx, term, w, ph, st');
    WrapStepNext(m, st, ctx, cur, bMerge, prefix, rest, orig, idx, term, w, ph, st');
    WrapStepFrame(m, st, ctx, cur, bMerge, prefix, rest, orig, idx, term, w, ph, st');
    StepLayout(st.m.fn, st'.m.fn, cur, w, ph);
  }

  /** The layout of one wrap: its blocks go right after the split block, ahead of whatever followed it. */
  lemma StepLayout(f: Function, g: Function, cur: Id, w: WrapperInfo, ph: bool)
    requires LayoutOk(f) && cur in f.blocks
    requires WrapIdsApart(w, ph) && WrapBlocks(w, ph) !! f.blocks.Keys
    requires g.blocks.Keys == f.blocks.Keys + WrapBlocks(w, ph)
    requires g.layout == InsertAfter(f.layout, cur, WrapOrder(w, ph))
    ensures LayoutOk(g)
    ensures forall a, b :: Before(f.layout, a, b) ==> Before(g.layout, a, b)
    ensures Before(g.layout, cur, w.mergeBlockId)
    ensures forall c :: Before(f.layout, cur, c) ==> Before(g.layout, w.mergeBlockId, c)
  {
    StepLaidOut(f, g, cur, w, ph);
    StepMergePlaced(f, g, cur, w, ph);
  }

  /** A wrap's blocks laid out after `cur` keep the layout well formed and the old blocks in order. */
  lemma StepLaidOut(f: Function, g: Function, cur: Id, w: WrapperInfo, ph: bool)
    requires LayoutOk(f) && cur in f.blocks
    requires WrapIdsApart(w, ph) && WrapBlocks(w, ph) !! f.blocks.Keys
    requires g.blocks.Keys == f.blocks.Keys + WrapBlocks(w, ph)
    requires g.layout == InsertAfter(f.layout, cur, WrapOrder(w, ph))
    ensures LayoutOk(g)
    ensures forall a, b :: Before(f.layout, a, b) ==> Before(g.layout, a, b)
  {
    var ids := WrapOrder(w, ph);
    WrapOrderNoDup(w, ph);
    InsertLaidOutAt(f, g, cur, ids, ids[0]);
  }

  /** The wrap's merge block follows `cur` and precedes whatever followed `cur`. */
  lemma StepMergePlaced(f: Function, g: Function, cur: Id, w: WrapperInfo, ph: bool)
    requires LayoutOk(f) && cur in f.blocks
    requires WrapIdsApart(w, ph) && WrapBlocks(w, ph) !! f.blocks.Keys
    requires g.blocks.Keys == f.blocks.Keys + WrapBlocks(w, ph)
    requires g.layout == InsertAfter(f.layout, cur, WrapOrder(w, ph))
    ensures Before(g.layout, cur, w.mergeBlockId)
    ensures forall c :: Before(f.layout, cur, c) ==> Before(g.layout, w.mergeBlockId, c)
  {
    var ids := WrapOrder(w, ph);
    WrapOrderNoDup(w, ph);
    assert ids[|ids| - 1] == w.mergeBlockId;
    InsertLaidOutAt(f, g, cur, ids, w.mergeBlockId);
  }


  /**
    A guarded instruction stays guarded while later steps only rewrite its
    merge block, keeping the phi at its head, and add new blocks.
   */
  lemma GuardedKept(b: map<Id, Block>, b2: map<Id, Block>, s: Id, w: WrapperInfo, inst: Instruction, ph: bool,
                    condition: Id, execIfTrue: bool)
    requires GuardedBy(b, s, w, inst, ph, condition, execIfTrue)
    requires s != w.mergeBlockId && WrapIdsApart(w, ph)
    requires forall x :: x in b && x != w.mergeBlockId ==> x in b2 && b2[x] == b[x]
    requires ph ==> w.mergeBlockId in b2 && |b2[w.mergeBlockId].body| > 0
                    && b2[w.mergeBlockId].body[0] == b[w.mergeBlockId].body[0]
    ensures GuardedBy(b2, s, w, inst, ph, condition, execIfTrue)
  {
  }

  /**
    The instruction loop of one block, when the block holds `prefix` then
    `rest` and every wrap has fresh ids, returns the last merge block
    (`ChainEnd`), which keeps the block's merge and terminator.
   */
  lemma {:induction false} WrapBodyEnd(m: Module, st: ApplyState, ctx: ArmContext, cur: Id, bMerge: Option<Merge>,
                                        prefix: seq<Instruction>, rest: seq<Instruction>, orig: Id, idx: nat, term: Terminator)
    requires st.m.typeIsVoid == m.typeIsVoid
    requires cur in st.m.fn.blocks && st.m.fn.blocks[cur] == Block(bMerge, prefix + rest, term)
    requires FreshWraps(m, st.m.fn.blocks.Keys, ctx.wrappers, orig, idx, rest)
    decreases |rest|
    ensures var (st', last) := WrapBody(st, ctx, cur, bMerge, prefix, rest, orig, idx, term);
            && last == ChainEnd(ctx.wrappers, cur, orig, idx, rest)
            && last in st'.m.fn.blocks && st'.m.fn.blocks[last].merge == bMerge && st'.m.fn.blocks[last].terminator == term
  {
    if |rest| > 0 {
      var inst := rest[0];
      if HasNoSideEffects(inst.op) {
        assert prefix + rest == (prefix + [inst]) + rest[1..];
        WrapBodyEnd(m, st, ctx, cur, bMerge, prefix + [inst], rest[1..], orig, idx + 1, term);
      } else {
        var w, ph, st' := ShapeStep(m, st, ctx, cur, bMerge, prefix, rest, orig, idx, term);
        var prefix' := StepPrefix(m, w, inst);
        WrapBodyEnd(m, st', ctx, w.mergeBlockId, bMerge, prefix', rest[1..], orig, idx + 1, term);
      }
    }
  }

  /** Under the same hypotheses it adds exactly the wraps' blocks ... */
  lemma {:induction false} WrapBodyKeys(m: Module, st: ApplyState, ctx: ArmContext, cur: Id, bMerge: Option<Merge>,
                                        prefix: seq<Instruction>, rest: seq<Instruction>, orig: Id, idx: nat, term: Terminator)
    requires st.m.typeIsVoid == m.typeIsVoid
    requires cur in st.m.fn.blocks && st.m.fn.blocks[cur] == Block(bMerge, prefix + rest, term)
    requires FreshWraps(m, st.m.fn.blocks.Keys, ctx.wrappers, orig, idx, rest)
    decreases |rest|
    ensures WrapBody(st, ctx, cur, bMerge, prefix, rest, orig, idx, term).0.m.fn.blocks.Keys
              == st.m.fn.blocks.Keys + WrapIds(m, ctx.wrappers, orig, idx, rest)
  {
    if |rest| > 0 {
      var inst := rest[0];
      if HasNoSideEffects(inst.op) {
        assert prefix + rest == (prefix + [inst]) + rest[1..];
        WrapBodyKeys(m, st, ctx, cur, bMerge, prefix + [inst], rest[1..], orig, idx + 1, term);
      } else {
        var w := ctx.wrappers[InstRef(orig, idx)];
        var ph := NeedsPlaceholder(m, inst);
        var st' := StepState(st, ctx, cur, bMerge, prefix, rest, orig, idx, term);
        var prefix' := StepPrefix(m, w, inst);
        WrapStep(m, st, ctx, cur, bMerge, prefix, rest, orig, idx, term, w, ph, st');
        WrapStepFrame(m, st, ctx, cur, bMerge, prefix, rest, orig, idx, term, w, ph, st');
        WrapBodyKeys(m, st', ctx, w.mergeBlockId, bMerge, prefix', rest[1..], orig, idx + 1, term);
        KeysStep(m, st, ctx, cur, bMerge, prefix, rest, orig, idx, term, w, ph, st');
      }
    }
  }

  /** One step of `WrapBodyKeys`: the keys the rest of the loop adds, plus the step's own. */
  lemma KeysStep(m: Module, st: ApplyState, ctx: ArmContext, cur: Id, bMerge: Option<Merge>,
                 prefix: seq<Instruction>, rest: seq<Instruction>, orig: Id, idx: nat, term: Terminator,
                 w: WrapperInfo, ph: bool, st': ApplyState)
    requires st.m.typeIsVoid == m.typeIsVoid
    requires cur in st.m.fn.blocks
    requires |rest| > 0 && !HasNoSideEffects(rest[0].op)
    requires FreshWraps(m, st.m.fn.blocks.Keys, ctx.wrappers, orig, idx, rest)
    requires w == ctx.wrappers[InstRef(orig, idx)] && ph == NeedsPlaceholder(m, rest[0])
    requires st' == StepState(st, ctx, cur, bMerge, prefix, rest, orig, idx, term)
    requires WrapBody(st', ctx, w.mergeBlockId, bMerge, StepPrefix(m, w, rest[0]), rest[1..], orig, idx + 1, term).0.m.fn.blocks.Keys
               == st'.m.fn.blocks.Keys + WrapIds(m, ctx.wrappers, orig, idx + 1, rest[1..])
    ensures WrapBody(st, ctx, cur, bMerge, prefix, rest, orig, idx, term).0.m.fn.blocks.Keys
              == st.m.fn.blocks.Keys + WrapIds(m, ctx.wrappers, orig, idx, rest)
  {
    WrapStep(m, st, ctx, cur, bMerge, prefix, rest, orig, idx, term, w, ph, st');
    WrapStepNext(m, st, ctx, cur, bMerge, prefix, rest, orig, idx, term, w, ph, st');
  }

  /** ... and changes no other existing block. */
  lemma {:induction false} WrapBodyFrame(m: Module, st: ApplyState, ctx: ArmContext, cur: Id, bMerge: Option<Merge>,
                                        prefix: seq<Instruction>, rest: seq<Instruction>, orig: Id, idx: nat, term: Terminator)
    requires st.m.typeIsVoid == m.typeIsVoid
    requires cur in st.m.fn.blocks && st.m.fn.blocks[cur] == Block(bMerge, prefix + rest, term)
    requires FreshWraps(m, st.m.fn.blocks.Keys, ctx.wrappers, orig, idx, rest)
    decreases |rest|
    ensures var st' := WrapBody(st, ctx, cur, bMerge, prefix, rest, orig, idx, term).0;
            forall x :: x in st.m.fn.blocks && x != cur ==> x in st'.m.fn.blocks && st'.m.fn.blocks[x] == st.m.fn.blocks[x]
  {
    if |rest| > 0 {
      var inst := rest[0];
      if HasNoSideEffects(inst.op) {
        assert prefix + rest == (prefix + [inst]) + rest[1..];
        WrapBodyFrame(m, st, ctx, cur, bMerge, prefix + [inst], rest[1..], orig, idx + 1, term);
      } else {
        var w, ph, st' := ShapeStep(m, st, ctx, cur, bMerge, prefix, rest, orig, idx, term);
        var prefix' := StepPrefix(m, w, inst);
        WrapBodyFrame(m, st', ctx, w.mergeBlockId, bMerge, prefix', rest[1..], orig, idx + 1, term);
      }
    }
  }

  /** ... and the block keeps the head of its prefix. */
  lemma {:induction false} WrapBodyHead(m: Module, st: ApplyState, ctx: ArmContext, cur: Id, bMerge: Option<Merge>,
                                        prefix: seq<Instruction>, rest: seq<Instruction>, orig: Id, idx: nat, term: Terminator)
    requires st.m.typeIsVoid == m.typeIsVoid
    requires cur in st.m.fn.blocks && st.m.fn.blocks[cur] == Block(bMerge, prefix + rest, term)
    requires FreshWraps(m, st.m.fn.blocks.Keys, ctx.wrappers, orig, idx, rest)
    decreases |rest|
    ensures var st' := WrapBody(st, ctx, cur, bMerge, prefix, rest, orig, idx, term).0;
            |prefix| > 0 ==> |st'.m.fn.blocks[cur].body| > 0 && st'.m.fn.blocks[cur].body[0] == prefix[0]
  {
    if |rest| > 0 {
      var inst := rest[0];
      if HasNoSideEffects(inst.op) {
        assert prefix + rest == (prefix + [inst]) + rest[1..];
        WrapBodyHead(m, st, ctx, cur, bMerge, prefix + [inst], rest[1..], orig, idx + 1, term);
      } else {
        var w, ph, st' := ShapeStep(m, st, ctx, cur, bMerge, prefix, rest, orig, idx, term);
        var prefix' := StepPrefix(m, w, inst);
        WrapBodyFrame(m, st', ctx, w.mergeBlockId, bMerge, prefix', rest[1..], orig, idx + 1, term);
      }
    }
  }

  /**
    The blocks side of the instruction loop of one block, under the same
    hypotheses: each side-effecting instruction of `rest` ends up guarded,
    in order (`Chain`).
   */
  lemma {:induction false} WrapBodyShape(m: Module, st: ApplyState, ctx: ArmContext, cur: Id, bMerge: Option<Merge>,
                                        prefix: seq<Instruction>, rest: seq<Instruction>, orig: Id, idx: nat, term: Terminator)
    requires st.m.typeIsVoid == m.typeIsVoid
    requires cur in st.m.fn.blocks && st.m.fn.blocks[cur] == Block(bMerge, prefix + rest, term)
    requires FreshWraps(m, st.m.fn.blocks.Keys, ctx.wrappers, orig, idx, rest)
    decreases |rest|
    ensures Chain(m, WrapBody(st, ctx, cur, bMerge, prefix, rest, orig, idx, term).0.m.fn.blocks, ctx.wrappers,
                  cur, orig, idx, rest, ctx.condition, ctx.execIfTrue)
  {
    if |rest| > 0 {
      var inst := rest[0];
      if HasNoSideEffects(inst.op) {
        assert prefix + rest == (prefix + [inst]) + rest[1..];
        WrapBodyShape(m, st, ctx, cur, bMerge, prefix + [inst], rest[1..], orig, idx + 1, term);
      } else {
        var w, ph, st' := ShapeStep(m, st, ctx, cur, bMerge, prefix, rest, orig, idx, term);
        var prefix' := StepPrefix(m, w, inst);
        WrapBodyShape(m, st', ctx, w.mergeBlockId, bMerge, prefix', rest[1..], orig, idx + 1, term);
        WrapBodyFrame(m, st', ctx, w.mergeBlockId, bMerge, prefix', rest[1..], orig, idx + 1, term);
        WrapBodyHead(m, st', ctx, w.mergeBlockId, bMerge, prefix', rest[1..], orig, idx + 1, term);
        var fin := WrapBody(st', ctx, w.mergeBlockId, bMerge, prefix', rest[1..], orig, idx + 1, term).0;
        assert ph ==> prefix'[0] == ResultPhi(w, inst);
        GuardedKept(st'.m.fn.blocks, fin.m.fn.blocks, cur, w, inst, ph, ctx.condition, ctx.execIfTrue);
      }
    }
  }

  // ---------------------------------------------------------------------------
  // Facts about one block's wraps

  /** Fresh wraps create blocks that were not there. */
  lemma {:induction false} FreshWrapsApart(m: Module, keys: set<Id>, wrappers: map<InstRef, WrapperInfo>, orig: Id, idx: nat,
                                          rest: seq<Instruction>)
    requires FreshWraps(m, keys, wrappers, orig, idx, rest)
    ensures WrapIds(m, wrappers, orig, idx, rest) !! keys
    decreases |rest|
  {
    if |rest| > 0 {
      if HasNoSideEffects(rest[0].op) {
        FreshWrapsApart(m, keys, wrappers, orig, idx + 1, rest[1..]);
      } else {
        var w := wrappers[InstRef(orig, idx)];
        FreshWrapsApart(m, keys + WrapBlocks(w, NeedsPlaceholder(m, rest[0])), wrappers, orig, idx + 1, rest[1..]);
      }
    }
  }

  /** The block the loop ends in is the one it started in or one of the merge blocks it created. */
  lemma {:induction false} ChainEndIn(m: Module, wrappers: map<InstRef, WrapperInfo>, cur: Id, orig: Id, idx: nat,
                                     rest: seq<Instruction>)
    ensures ChainEnd(wrappers, cur, orig, idx, rest) == cur
            || ChainEnd(wrappers, cur, orig, idx, rest) in WrapIds(m, wrappers, orig, idx, rest)
    decreases |rest|
  {
    if |rest| > 0 {
      if HasNoSideEffects(rest[0].op) || InstRef(orig, idx) !in wrappers {
        ChainEndIn(m, wrappers, cur, orig, idx + 1, rest[1..]);
      } else {
        ChainEndIn(m, wrappers, wrappers[InstRef(orig, idx)].mergeBlockId, orig, idx + 1, rest[1..]);
      }
    }
  }

  /** A chain survives any change that keeps away from its blocks. */
  lemma {:induction false} ChainKept(m: Module, b: map<Id, Block>, b2: map<Id, Block>, wrappers: map<InstRef, WrapperInfo>,
                                    cur: Id, orig: Id, idx: nat, rest: seq<Instruction>, condition: Id, execIfTrue: bool,
                                    changed: set<Id>)
    requires Chain(m, b, wrappers, cur, orig, idx, rest, condition, execIfTrue)
    requires forall x :: x in b && x !in changed ==> x in b2 && b2[x] == b[x]
    requires cur !in changed && WrapIds(m, wrappers, orig, idx, rest) !! changed
    ensures Chain(m, b2, wrappers, cur, orig, idx, rest, condition, execIfTrue)
    decreases |rest|
  {
    if |rest| > 0 {
      if HasNoSideEffects(rest[0].op) {
        ChainKept(m, b, b2, wrappers, cur, orig, idx + 1, rest[1..], condition, execIfTrue, changed);
      } else {
        var w := wrappers[InstRef(orig, idx)];
        var ph := NeedsPlaceholder(m, rest[0]);
        assert WrapBlocks(w, ph) <= WrapIds(m, wrappers, orig, idx, rest);
        assert GuardedBy(b2, cur, w, rest[0], ph, condition, execIfTrue);
        ChainKept(m, b, b2, wrappers, w.mergeBlockId, orig, idx + 1, rest[1..], condition, execIfTrue, changed);
      }
    }
  }
}

=== FILE: flatten_walk.dfy ===
/**
  What the walk of one arm leaves behind, for an arm given as the path of
  its blocks: every block of the path is moved after the previous one and
  has its side-effecting instructions guarded, the last block of each
  piece still branches to the next block of the path, and nothing off the
  path changes.
 */
module ArmWalk {
  import opened Ir
  import opened FlattenCheck
  import opened FlattenApply
  import opened FlattenShape
  import opened LayoutOrder

  // ---------------------------------------------------------------------------
  // The arm as a path

  /**
    Every block of path `p` has fresh wraps, given the blocks in `keys` and
    those the wraps of the earlier blocks of the path create.
   */
  predicate ArmFresh(m: Module, keys: set<Id>, wrappers: map<InstRef, WrapperInfo>, orig: map<Id, Block>, p: seq<Id>)
    decreases |p|
  {
    |p| == 0
    || (&& p[0] in orig
        && FreshWraps(m, keys, wrappers, p[0], 0, orig[p[0]].body)
        && ArmFresh(m, keys + WrapIds(m, wrappers, p[0], 0, orig[p[0]].body), wrappers, orig, p[1..]))
  }

  /** The blocks the wraps of the whole path create. */
  function ArmWrapIds(m: Module, wrappers: map<InstRef, WrapperInfo>, orig: map<Id, Block>, p: seq<Id>): set<Id>
    decreases |p|
  {
    if |p| == 0 then {}
    else (if p[0] in orig then WrapIds(m, wrappers, p[0], 0, orig[p[0]].body) else {}) + ArmWrapIds(m, wrappers, orig, p[1..])
  }

  /**
    Path `p` runs through `blocks` as in `orig`, without repeats and off the
    convergence block: each block branches to the next one, the last one to
    the convergence block.
   */
  predicate PathIn(orig: map<Id, Block>, blocks: map<Id, Block>, p: seq<Id>, conv: Id)
  {
    && NoDup(p)
    && forall i :: 0 <= i < |p| ==>
         && p[i] in orig && p[i] in blocks && blocks[p[i]] == orig[p[i]] && p[i] != conv
         && orig[p[i]].terminator == Branch(NextOnPath(p, i, conv))
  }

  /** The block after the `i`-th block of the path: the next one, or the convergence block after the last. */
  function NextOnPath(p: seq<Id>, i: nat, conv: Id): Id
  {
    if i + 1 < |p| then p[i + 1] else conv
  }

  /** What the walk of path `p` needs from the state it starts in. */
  predicate ArmReady(m: Module, st: ApplyState, wrappers: map<InstRef, WrapperInfo>, orig: map<Id, Block>, p: seq<Id>,
                     conv: Id, fuel: nat)
  {
    && st.m.typeIsVoid == m.typeIsVoid
    && |p| <= fuel
    && PathIn(orig, st.m.fn.blocks, p, conv)
    && ArmFresh(m, st.m.fn.blocks.Keys, wrappers, orig, p)
  }

  /** Once the first block of a path is rewritten and nothing else changes, the rest of the path is still in place. */
  lemma PathInTail(orig: map<Id, Block>, blocks: map<Id, Block>, blocks2: map<Id, Block>, p: seq<Id>, conv: Id)
    requires PathIn(orig, blocks, p, conv) && |p| > 0
    requires forall x :: x in blocks && x != p[0] ==> x in blocks2 && blocks2[x] == blocks[x]
    ensures PathIn(orig, blocks2, p[1..], conv)
    ensures forall x :: x in p[1..] ==> x in blocks && x != p[0]
  {
    var tail := p[1..];
    forall i | 0 <= i < |tail|
      ensures && tail[i] in orig && tail[i] in blocks2 && blocks2[tail[i]] == orig[tail[i]] && tail[i] != conv
              && orig[tail[i]].terminator == Branch(NextOnPath(tail, i, conv))
    {
      assert tail[i] == p[i + 1];
      assert NextOnPath(tail, i, conv) == NextOnPath(p, i + 1, conv);
    }
    assert NoDup(tail) by {
      forall i, j | 0 <= i < j < |tail| ensures tail[i] != tail[j] {
        assert tail[i] == p[i + 1] && tail[j] == p[j + 1];
      }
    }
    forall x | x in tail ensures x in blocks && x != p[0] {
      var i :| 0 <= i < |tail| && tail[i] == x;
      assert tail[i] == p[i + 1];
    }
  }

  /** The wraps of a fresh path create blocks that were not there. */
  lemma {:induction false} ArmFreshApart(m: Module, keys: set<Id>, wrappers: map<InstRef, WrapperInfo>, orig: map<Id, Block>,
                                        p: seq<Id>)
    requires ArmFresh(m, keys, wrappers, orig, p)
    ensures ArmWrapIds(m, wrappers, orig, p) !! keys
    decreases |p|
  {
    if |p| > 0 {
      var ids := WrapIds(m, wrappers, p[0], 0, orig[p[0]].body);
      FreshWrapsApart(m, keys, wrappers, p[0], 0, orig[p[0]].body);
      ArmFreshApart(m, keys + ids, wrappers, orig, p[1..]);
    }
  }

  // ---------------------------------------------------------------------------
  // One block of the walk

  /** The state once block `next` is moved after `current`. */
  function Moved(st: ApplyState, next: Id, current: Id): ApplyState
  {
    st.(m := st.m.(fn := st.m.fn.(layout := MoveAfter(st.m.fn.layout, next, current))))
  }

  /** Moving block `next` after `current` and wrapping its instructions: the state and the block the walk goes on from. */
  function ArmStep(st: ApplyState, ctx: ArmContext, current: Id, next: Id): (ApplyState, Id)
    requires next in st.m.fn.blocks
  {
    var blk := st.m.fn.blocks[next];
    WrapBody(Moved(st, next, current), ctx, next, blk.merge, [], blk.body, next, 0, blk.terminator)
  }

  /** The walk, unfolded once at a block that branches on. */
  lemma WalkArmUnfold(st: ApplyState, ctx: ArmContext, current: Id, next: Id, target: Id, conv: Id, fuel: nat)
    requires next != conv && fuel > 0 && next in st.m.fn.blocks && st.m.fn.blocks[next].terminator == Branch(target)
    ensures WalkArm(st, ctx, current, next, conv, fuel)
              == if target == conv then (ArmStep(st, ctx, current, next).0, Some(ArmStep(st, ctx, current, next).1))
                 else WalkArm(ArmStep(st, ctx, current, next).0, ctx, ArmStep(st, ctx, current, next).1, target, conv, fuel - 1)
  {
  }

  /** The walk, unfolded once at a block that branches on to the convergence block. */
  lemma WalkArmLastStep(st: ApplyState, ctx: ArmContext, current: Id, next: Id, conv: Id, fuel: nat, st2: ApplyState, last: Id)
    requires next != conv && fuel > 0 && next in st.m.fn.blocks && st.m.fn.blocks[next].terminator == Branch(conv)
    requires st2 == ArmStep(st, ctx, current, next).0 && last == ArmStep(st, ctx, current, next).1
    ensures WalkArm(st, ctx, current, next, conv, fuel) == (st2, Some(last))
  {
    WalkArmUnfold(st, ctx, current, next, conv, conv, fuel);
  }

  /** The walk, unfolded once at a block that branches on to another block of the arm. */
  lemma WalkArmNextStep(st: ApplyState, ctx: ArmContext, current: Id, next: Id, target: Id, conv: Id, fuel: nat,
                        st2: ApplyState, last: Id, f: nat)
    requires next != conv && fuel > 0 && next in st.m.fn.blocks && st.m.fn.blocks[next].terminator == Branch(target)
    requires target != conv && f == fuel - 1
    requires st2 == ArmStep(st, ctx, current, next).0 && last == ArmStep(st, ctx, current, next).1
    ensures WalkArm(st, ctx, current, next, conv, fuel) == WalkArm(st2, ctx, last, target, conv, f)
  {
    WalkArmUnfold(st, ctx, current, next, target, conv, fuel);
  }

  /**
    One block of a ready path: exactly the block's wraps are added, they
    are fresh, no other block changes, and the walk goes on from the block's
    chain end, which keeps the block's terminator.
   */
  lemma ArmStepBlocks(m: Module, st: ApplyState, ctx: ArmContext, orig: map<Id, Block>, current: Id, p: seq<Id>,
                      conv: Id, fuel: nat)
    requires ArmReady(m, st, ctx.wrappers, orig, p, conv, fuel) && |p| > 0
    ensures var r := ArmStep(st, ctx, current, p[0]);
            var body := orig[p[0]].body;
            && r.0.m.typeIsVoid == m.typeIsVoid
            && r.0.m.fn.blocks.Keys == st.m.fn.blocks.Keys + WrapIds(m, ctx.wrappers, p[0], 0, body)
            && (forall x :: x in st.m.fn.blocks && x != p[0] ==> x in r.0.m.fn.blocks && r.0.m.fn.blocks[x] == st.m.fn.blocks[x])
            && WrapIds(m, ctx.wrappers, p[0], 0, body) !! st.m.fn.blocks.Keys
            && r.1 == ChainEnd(ctx.wrappers, p[0], p[0], 0, body)
            && (r.1 == p[0] || r.1 in WrapIds(m, ctx.wrappers, p[0], 0, body))
            && r.1 in r.0.m.fn.blocks && r.0.m.fn.blocks[r.1].terminator == orig[p[0]].terminator
  {
    var b := p[0];
    var blk := orig[b];
    var st1 := Moved(st, b, current);
    assert st1.m.fn.blocks == st.m.fn.blocks;
    assert blk.body == [] + blk.body;
    assert ArmFresh(m, st.m.fn.blocks.Keys, ctx.wrappers, orig, p);
    WrapBodyKeys(m, st1, ctx, b, blk.merge, [], blk.body, b, 0, blk.terminator);
    WrapBodyFrame(m, st1, ctx, b, blk.merge, [], blk.body, b, 0, blk.terminator);
    WrapBodyEnd(m, st1, ctx, b, blk.merge, [], blk.body, b, 0, blk.terminator);
    FreshWrapsApart(m, st.m.fn.blocks.Keys, ctx.wrappers, b, 0, blk.body);
    ChainEndIn(m, ctx.wrappers, b, b, 0, blk.body);
  }

  /**
    After one block of a ready path, the rest of the path is ready from the
    new state, and the walk goes on from a block off the rest of the path.
   */
  lemma ArmStepReady(m: Module, st: ApplyState, ctx: ArmContext, orig: map<Id, Block>, current: Id, p: seq<Id>,
                     conv: Id, fuel: nat)
    requires ArmReady(m, st, ctx.wrappers, orig, p, conv, fuel) && |p| > 0
    ensures ArmReady(m, ArmStep(st, ctx, current, p[0]).0, ctx.wrappers, orig, p[1..], conv, fuel - 1)
    ensures ArmStep(st, ctx, current, p[0]).1 !in p[1..]
  {
    var b := p[0];
    var r := ArmStep(st, ctx, current, b);
    ArmStepBlocks(m, st, ctx, orig, current, p, conv, fuel);
    PathInTail(orig, st.m.fn.blocks, r.0.m.fn.blocks, p, conv);
  }

  /** After one block, that block's instructions are guarded in order. */
  lemma ArmStepChain(m: Module, st: ApplyState, ctx: ArmContext, orig: map<Id, Block>, current: Id, p: seq<Id>,
                     conv: Id, fuel: nat)
    requires ArmReady(m, st, ctx.wrappers, orig, p, conv, fuel) && |p| > 0
    ensures Chain(m, ArmStep(st, ctx, current, p[0]).0.m.fn.blocks, ctx.wrappers, p[0], p[0], 0, orig[p[0]].body,
                  ctx.condition, ctx.execIfTrue)
  {
    var b := p[0];
    var blk := orig[b];
    var st1 := Moved(st, b, current);
    assert blk.body == [] + blk.body;
    WrapBodyShape(m, st1, ctx, b, blk.merge, [], blk.body, b, 0, blk.terminator);
  }

  // ---------------------------------------------------------------------------
  // The whole arm

  /** The first block of the path, or the convergence block for an empty arm. */
  function Entry(p: seq<Id>, conv: Id): Id
  {
    if |p| > 0 then p[0] else conv
  }

  /** The blocks the walk adds are exactly the wraps of the path, and no block off the path changes. */
  lemma WalkArmFrame(m: Module, st: ApplyState, ctx: ArmContext, orig: map<Id, Block>, current: Id,
                     p: seq<Id>, conv: Id, fuel: nat)
    requires ArmReady(m, st, ctx.wrappers, orig, p, conv, fuel)
    ensures var r := WalkArm(st, ctx, current, Entry(p, conv), conv, fuel).0;
            && r.m.fn.blocks.Keys == st.m.fn.blocks.Keys + ArmWrapIds(m, ctx.wrappers, orig, p)
            && forall x :: x in st.m.fn.blocks && x !in p ==> x in r.m.fn.blocks && r.m.fn.blocks[x] == st.m.fn.blocks[x]
  {
    WalkArmKeys(m, st, ctx, orig, current, p, conv, fuel);
    WalkArmKeeps(m, st, ctx, orig, current, p, conv, fuel);
  }

  /** The blocks the walk adds are exactly the wraps of the path. */
  lemma {:induction false} WalkArmKeys(m: Module, st: ApplyState, ctx: ArmContext, orig: map<Id, Block>, current: Id,
                                      p: seq<Id>, conv: Id, fuel: nat)
    requires ArmReady(m, st, ctx.wrappers, orig, p, conv, fuel)
    decreases |p|
    ensures WalkArm(st, ctx, current, Entry(p, conv), conv, fuel).0.m.fn.blocks.Keys
              == st.m.fn.blocks.Keys + ArmWrapIds(m, ctx.wrappers, orig, p)
  {
    if |p| > 0 {
      var s2 := ArmStep(st, ctx, current, p[0]);
      var st2, last, tail := s2.0, s2.1, p[1..];
      var ids := WrapIds(m, ctx.wrappers, p[0], 0, orig[p[0]].body);
      ArmStepBlocks(m, st, ctx, orig, current, p, conv, fuel);
      assert ArmWrapIds(m, ctx.wrappers, orig, p) == ids + ArmWrapIds(m, ctx.wrappers, orig, tail);
      if |p| == 1 {
        WalkArmLastStep(st, ctx, current, p[0], conv, fuel, st2, last);
        KeysAdd(st.m.fn.blocks.Keys, st2.m.fn.blocks.Keys, st2.m.fn.blocks.Keys, ids, {},
                ArmWrapIds(m, ctx.wrappers, orig, p));
      } else {
        var f: nat := fuel - 1;
        ArmStepReady(m, st, ctx, orig, current, p, conv, fuel);
        WalkArmNextStep(st, ctx, current, p[0], p[1], conv, fuel, st2, last, f);
        assert Entry(tail, conv) == p[1];
        WalkArmKeys(m, st2, ctx, orig, last, tail, conv, f);
        KeysAdd(st.m.fn.blocks.Keys, st2.m.fn.blocks.Keys, WalkArm(st2, ctx, last, p[1], conv, f).0.m.fn.blocks.Keys,
                ids, ArmWrapIds(m, ctx.wrappers, orig, tail), ArmWrapIds(m, ctx.wrappers, orig, p));
      }
    }
  }

  /** Adding keys `a`, then keys `b`, adds their union. */
  lemma KeysAdd(k0: set<Id>, k1: set<Id>, k2: set<Id>, a: set<Id>, b: set<Id>, ab: set<Id>)
    requires k1 == k0 + a && k2 == k1 + b && ab == a + b
    ensures k2 == k0 + ab
  {
  }

  /** No block off the path changes. */
  lemma {:induction false} WalkArmKeeps(m: Module, st: ApplyState, ctx: ArmContext, orig: map<Id, Block>, current: Id,
                                       p: seq<Id>, conv: Id, fuel: nat)
    requires ArmReady(m, st, ctx.wrappers, orig, p, conv, fuel)
    decreases |p|
    ensures var r := WalkArm(st, ctx, current, Entry(p, conv), conv, fuel).0;
            forall x :: x in st.m.fn.blocks && x !in p ==> x in r.m.fn.blocks && r.m.fn.blocks[x] == st.m.fn.blocks[x]
  {
    if |p| > 0 {
      var s2 := ArmStep(st, ctx, current, p[0]);
      var st2, last, tail := s2.0, s2.1, p[1..];
      ArmStepBlocks(m, st, ctx, orig, current, p, conv, fuel);
      if |p| == 1 {
        WalkArmLastStep(st, ctx, current, p[0], conv, fuel, st2, last);
      } else {
        var f: nat := fuel - 1;
        ArmStepReady(m, st, ctx, orig, current, p, conv, fuel);
        WalkArmNextStep(st, ctx, current, p[0], p[1], conv, fuel, st2, last, f);
        assert Entry(tail, conv) == p[1];
        WalkArmKeeps(m, st2, ctx, orig, last, tail, conv, f);
        forall x | x in st.m.fn.blocks && x !in p
          ensures x in st2.m.fn.blocks && st2.m.fn.blocks[x] == st.m.fn.blocks[x] && x !in tail
        {
          assert x != p[0];
        }
      }
    }
  }

  /** The walk returns the chain end of the last block of the path, or nothing for an empty arm. */
  lemma {:induction false} WalkArmEnd(m: Module, st: ApplyState, ctx: ArmContext, orig: map<Id, Block>, current: Id,
                                     p: seq<Id>, conv: Id, fuel: nat)
    requires ArmReady(m, st, ctx.wrappers, orig, p, conv, fuel)
    decreases |p|
    ensures WalkArm(st, ctx, current, Entry(p, conv), conv, fuel).1 == ArmLast(ctx.wrappers, orig, p)
  {
    if |p| > 0 {
      var s2 := ArmStep(st, ctx, current, p[0]);
      var st2, last, tail := s2.0, s2.1, p[1..];
      var target := NextOnPath(p, 0, conv);
      if |p| == 1 {
        WalkArmLastStep(st, ctx, current, p[0], conv, fuel, st2, last);
        ArmStepBlocks(m, st, ctx, orig, current, p, conv, fuel);
      } else {
        var f: nat := fuel - 1;
        WalkArmNextStep(st, ctx, current, p[0], target, conv, fuel, st2, last, f);
        ArmStepReady(m, st, ctx, orig, current, p, conv, fuel);
        assert Entry(tail, conv) == target;
        WalkArmEnd(m, st2, ctx, orig, last, tail, conv, f);
        assert ArmLast(ctx.wrappers, orig, p) == ArmLast(ctx.wrappers, orig, tail);
      }
    }
  }

  /** The chain end of the last block of the path, or nothing for an empty path. */
  function ArmLast(wrappers: map<InstRef, WrapperInfo>, orig: map<Id, Block>, p: seq<Id>): Option<Id>
    decreases |p|
  {
    if |p| == 0 then None
    else if |p| == 1 then
      if p[0] in orig then Some(ChainEnd(wrappers, p[0], p[0], 0, orig[p[0]].body)) else None
    else ArmLast(wrappers, orig, p[1..])
  }

  /**
    Every block of the path has its side-effecting instructions guarded in
    order, and its chain end branches on to the next block of the path (the
    last one to the convergence block).
   */
  predicate ArmChains(m: Module, blocks: map<Id, Block>, ctx: ArmContext, orig: map<Id, Block>, p: seq<Id>, conv: Id)
  {
    forall i :: 0 <= i < |p| ==>
      && p[i] in orig
      && Chain(m, blocks, ctx.wrappers, p[i], p[i], 0, orig[p[i]].body, ctx.condition, ctx.execIfTrue)
      && ChainEnd(ctx.wrappers, p[i], p[i], 0, orig[p[i]].body) in blocks
      && blocks[ChainEnd(ctx.wrappers, p[i], p[i], 0, orig[p[i]].body)].terminator == Branch(NextOnPath(p, i, conv))
  }

  /**
    The chains of a path are those of its rest, once its first block's chain
    is in place and the rest of the walk leaves that chain alone.
   */
  lemma ArmChainsCons(m: Module, b1: map<Id, Block>, b2: map<Id, Block>, ctx: ArmContext, orig: map<Id, Block>,
                      p: seq<Id>, conv: Id)
    requires |p| > 1 && p[0] in orig && p[0] !in p[1..]
    requires ArmChains(m, b2, ctx, orig, p[1..], conv)
    requires var body := orig[p[0]].body;
             && Chain(m, b1, ctx.wrappers, p[0], p[0], 0, body, ctx.condition, ctx.execIfTrue)
             && ChainEnd(ctx.wrappers, p[0], p[0], 0, body) in b1
             && b1[ChainEnd(ctx.wrappers, p[0], p[0], 0, body)].terminator == Branch(p[1])
             && (ChainEnd(ctx.wrappers, p[0], p[0], 0, body) == p[0]
                 || ChainEnd(ctx.wrappers, p[0], p[0], 0, body) in WrapIds(m, ctx.wrappers, p[0], 0, body))
             && forall x :: x in p[1..] ==> x !in WrapIds(m, ctx.wrappers, p[0], 0, body)
    requires forall x :: x in b1 && x !in p[1..] ==> x in b2 && b2[x] == b1[x]
    ensures ArmChains(m, b2, ctx, orig, p, conv)
  {
    var tail := p[1..];
    var body := orig[p[0]].body;
    var changed := set x | x in tail;
    ChainKept(m, b1, b2, ctx.wrappers, p[0], p[0], 0, body, ctx.condition, ctx.execIfTrue, changed);
    forall i | 1 <= i < |p|
      ensures && p[i] in orig
              && Chain(m, b2, ctx.wrappers, p[i], p[i], 0, orig[p[i]].body, ctx.condition, ctx.execIfTrue)
              && ChainEnd(ctx.wrappers, p[i], p[i], 0, orig[p[i]].body) in b2
              && b2[ChainEnd(ctx.wrappers, p[i], p[i], 0, orig[p[i]].body)].terminator == Branch(NextOnPath(p, i, conv))
    {
      assert p[i] == tail[i - 1];
      assert NextOnPath(p, i, conv) == NextOnPath(tail, i - 1, conv);
    }
  }

  /** The walk leaves every block of a ready path guarded in order and still branching along the path. */
  lemma {:induction false} WalkArmChains(m: Module, st: ApplyState, ctx: ArmContext, orig: map<Id, Block>, current: Id,
                                        p: seq<Id>, conv: Id, fuel: nat)
    requires ArmReady(m, st, ctx.wrappers, orig, p, conv, fuel)
    decreases |p|
    ensures ArmChains(m, WalkArm(st, ctx, current, Entry(p, conv), conv, fuel).0.m.fn.blocks, ctx, orig, p, conv)
  {
    if |p| > 0 {
      var s2 := ArmStep(st, ctx, current, p[0]);
      var st2, last, tail := s2.0, s2.1, p[1..];
      ArmStepBlocks(m, st, ctx, orig, current, p, conv, fuel);
      ArmStepReady(m, st, ctx, orig, current, p, conv, fuel);
      ArmStepChain(m, st, ctx, orig, current, p, conv, fuel);
      if |p| == 1 {
        WalkArmLastStep(st, ctx, current, p[0], conv, fuel, st2, last);
      } else {
        var f: nat := fuel - 1;
        WalkArmNextStep(st, ctx, current, p[0], p[1], conv, fuel, st2, last, f);
        assert Entry(tail, conv) == p[1];
        var r := WalkArm(st2, ctx, last, p[1], conv, f).0;
        WalkArmChains(m, st2, ctx, orig, last, tail, conv, f);
        WalkArmFrame(m, st2, ctx, orig, last, tail, conv, f);
        PathInTail(orig, st.m.fn.blocks, st2.m.fn.blocks, p, conv);
        ArmChainsCons(m, st2.m.fn.blocks, r.m.fn.blocks, ctx, orig, p, conv);
      }
    }
  }

  // ---------------------------------------------------------------------------
  // Layout of the arm

  /**
    Layout `r` follows `s` with path `p` laid out after `current`, in path
    order, ahead of every block that followed `current`; the other blocks
    keep their order.
   */
  ghost predicate ArmLaidOut(s: seq<Id>, r: seq<Id>, current: Id, p: seq<Id>)
  {
    && (forall i :: 0 <= i < |p| ==> Before(r, current, p[i]))
    && (forall i, j :: 0 <= i < j < |p| ==> Before(r, p[i], p[j]))
    && (forall a, b :: a !in p && b !in p && Before(s, a, b) ==> Before(r, a, b))
    && (forall i, c :: 0 <= i < |p| && c !in p && Before(s, current, c) ==> Before(r, p[i], c))
  }

  /**
    The layout of one block of the walk composed with that of the rest:
    `l1` moves `p[0]` after `current`, `l2` adds its wraps after it up to
    `last`, and `l3` lays out the rest of the path after `last`.
   */
  lemma ArmLaidOutCons(l0: seq<Id>, l1: seq<Id>, l2: seq<Id>, l3: seq<Id>, current: Id, last: Id, p: seq<Id>)
    requires |p| > 0 && NoDup(p) && current !in p && last !in p[1..] && NoDup(l3)
    requires Before(l1, current, p[0])
    requires forall a, b :: a != p[0] && b != p[0] && Before(l0, a, b) ==> Before(l1, a, b)
    requires forall c :: c != p[0] && Before(l0, current, c) ==> Before(l1, p[0], c)
    requires forall a, b :: Before(l1, a, b) ==> Before(l2, a, b)
    requires last == p[0] || Before(l2, p[0], last)
    requires forall c :: Before(l1, p[0], c) ==> Before(l2, last, c)
    requires ArmLaidOut(l2, l3, last, p[1..])
    ensures ArmLaidOut(l0, l3, current, p)
  {
    var tail := p[1..];
    assert p == [p[0]] + tail;
    assert p[0] !in tail;
    assert Before(l3, current, p[0]);
    assert Before(l3, p[0], last) || last == p[0];
    forall i | 0 <= i < |p| ensures Before(l3, current, p[i]) && (i > 0 ==> Before(l3, p[0], p[i])) {
      if i > 0 {
        assert p[i] == tail[i - 1];
        assert Before(l3, last, p[i]);
        if last != p[0] {
          BeforeTrans(l3, p[0], last, p[i]);
        }
        BeforeTrans(l3, current, p[0], p[i]);
      }
    }
    forall i, j | 0 <= i < j < |p| ensures Before(l3, p[i], p[j]) {
      if i > 0 {
        assert p[i] == tail[i - 1] && p[j] == tail[j - 1];
      }
    }
    forall i, c | 0 <= i < |p| && c !in p && Before(l0, current, c) ensures Before(l3, p[i], c) {
      assert Before(l2, last, c);
      if i == 0 {
        assert Before(l2, p[0], c);
      } else {
        assert p[i] == tail[i - 1];
      }
    }
  }

  /** The wraps of one block go after it, ahead of whatever followed it, and old blocks keep their order. */
  lemma ArmStepLaysOut(m: Module, st: ApplyState, ctx: ArmContext, orig: map<Id, Block>, current: Id, p: seq<Id>,
                       conv: Id, fuel: nat)
    requires ArmReady(m, st, ctx.wrappers, orig, p, conv, fuel) && |p| > 0
    requires LayoutOk(Moved(st, p[0], current).m.fn)
    ensures var r := ArmStep(st, ctx, current, p[0]);
            var l1 := Moved(st, p[0], current).m.fn.layout;
            && LayoutOk(r.0.m.fn)
            && (forall a, c :: Before(l1, a, c) ==> Before(r.0.m.fn.layout, a, c))
            && (r.1 == p[0] || Before(r.0.m.fn.layout, p[0], r.1))
            && (forall c :: Before(l1, p[0], c) ==> Before(r.0.m.fn.layout, r.1, c))
  {
    var b := p[0];
    var blk := orig[b];
    var st1 := Moved(st, b, current);
    assert blk.body == [] + blk.body;
    assert st1.m.fn.blocks == st.m.fn.blocks && st.m.fn.blocks[b] == blk;
    assert FreshWraps(m, st1.m.fn.blocks.Keys, ctx.wrappers, b, 0, blk.body);
    WrapBodyLayout(m, st1, ctx, b, blk.merge, [], blk.body, b, 0, blk.terminator);
  }

  /**
    One block of the walk on the layout: the layout stays well formed, and
    whatever lays the rest of the path out after the block the walk goes on
    from lays the whole path out after `current`.
   */
  lemma ArmStepLayout(m: Module, st: ApplyState, ctx: ArmContext, orig: map<Id, Block>, current: Id, p: seq<Id>,
                      conv: Id, fuel: nat, st2: ApplyState, last: Id, l3: seq<Id>)
    requires ArmReady(m, st, ctx.wrappers, orig, p, conv, fuel) && |p| > 0
    requires current in st.m.fn.blocks && current !in p && LayoutOk(st.m.fn)
    requires (st2, last) == ArmStep(st, ctx, current, p[0])
    ensures LayoutOk(st2.m.fn)
    ensures NoDup(l3) && ArmLaidOut(st2.m.fn.layout, l3, last, p[1..]) ==> ArmLaidOut(st.m.fn.layout, l3, current, p)
  {
    var b := p[0];
    var blk := orig[b];
    var st1 := Moved(st, b, current);
    var l0, l1, l2 := st.m.fn.layout, st1.m.fn.layout, st2.m.fn.layout;
    assert b in st.m.fn.blocks && b != current && NoDup(p);
    MovedLayout(st, b, current);
    ArmStepLaysOut(m, st, ctx, orig, current, p, conv, fuel);
    assert last !in p[1..] by {
      ArmStepReady(m, st, ctx, orig, current, p, conv, fuel);
    }
    if NoDup(l3) && ArmLaidOut(l2, l3, last, p[1..]) {
      ArmLaidOutCons(l0, l1, l2, l3, current, last, p);
    }
  }

  /**
    The walk lays the path out right after `current`, in path order and
    ahead of whatever followed `current`, keeps the order of every other
    block, and leaves a layout that lists every block once.
   */
  lemma {:induction false} WalkArmLayout(m: Module, st: ApplyState, ctx: ArmContext, orig: map<Id, Block>, current: Id,
                                        p: seq<Id>, conv: Id, fuel: nat)
    requires ArmReady(m, st, ctx.wrappers, orig, p, conv, fuel)
    requires current in st.m.fn.blocks && current !in p && LayoutOk(st.m.fn)
    decreases |p|
    ensures var r := WalkArm(st, ctx, current, Entry(p, conv), conv, fuel).0;
            LayoutOk(r.m.fn) && ArmLaidOut(st.m.fn.layout, r.m.fn.layout, current, p)
  {
    if |p| == 0 {
      ArmLaidOutEmpty(st.m.fn.layout, current);
    } else {
      var s2 := ArmStep(st, ctx, current, p[0]);
      var st2, last, tail := s2.0, s2.1, p[1..];
      ArmStepBlocks(m, st, ctx, orig, current, p, conv, fuel);
      ArmStepReady(m, st, ctx, orig, current, p, conv, fuel);
      if |p| == 1 {
        WalkArmLastStep(st, ctx, current, p[0], conv, fuel, st2, last);
        assert tail == [];
        ArmLaidOutEmpty(st2.m.fn.layout, last);
        ArmStepLayout(m, st, ctx, orig, current, p, conv, fuel, st2, last, st2.m.fn.layout);
      } else {
        var f: nat := fuel - 1;
        WalkArmNextStep(st, ctx, current, p[0], p[1], conv, fuel, st2, last, f);
        assert Entry(tail, conv) == p[1];
        ArmStepLayout(m, st, ctx, orig, current, p, conv, fuel, st2, last, st2.m.fn.layout);
        WalkArmLayout(m, st2, ctx, orig, last, tail, conv, f);
        var r := WalkArm(st2, ctx, last, p[1], conv, f).0;
        ArmStepLayout(m, st, ctx, orig, current, p, conv, fuel, st2, last, r.m.fn.layout);
      }
    }
  }

  /** An empty path leaves the layout as it is. */
  lemma ArmLaidOutEmpty(s: seq<Id>, current: Id)
    ensures ArmLaidOut(s, s, current, [])
  {
  }

  /** Moving a block of the function after another keeps the layout well formed, as `MoveAfterOrder` says. */
  lemma MovedLayout(st: ApplyState, next: Id, current: Id)
    requires LayoutOk(st.m.fn) && current in st.m.fn.blocks && next in st.m.fn.blocks && next != current
    ensures var l0, l1 := st.m.fn.layout, Moved(st, next, current).m.fn.layout;
            && LayoutOk(Moved(st, next, current).m.fn)
            && Before(l1, current, next)
            && (forall a, b :: a != next && b != next && Before(l0, a, b) ==> Before(l1, a, b))
            && (forall c :: c != next && Before(l0, current, c) ==> Before(l1, next, c))
  {
    var l0 := st.m.fn.layout;
    assert current in (set x | x in l0);
    MoveAfterOrder(l0, next, current);
    MovedKeys(l0, MoveAfter(l0, next, current), st.m.fn.blocks.Keys, next);
  }
}

=== FILE: ir.dfy ===
/**
  An abstract SPIR-V function as the "flatten conditional branch" fuzzer
  transformation sees it: an arena of basic blocks keyed by their label id,
  a layout order, module-level definitions, a type table, the id bound, and
  the dominance and post-dominance relations supplied as data.
 */
module Ir {
  import opened Seqs

  type Id = nat

  datatype Option<+T> = None | Some(value: T)

  /** Opcodes, grouped by how the transformation treats them. */
  datatype Opcode =
    | Phi
    | Select
    | CopyObject
    | Undef
    | ControlBarrier
    | MemoryBarrier
    | NamedBarrierInitialize
    | MemoryNamedBarrier
    | TypeNamedBarrier
    | SampledImage
      // any other opcode without side effects (arithmetic, loads of constants, ...)
    | OtherPure(code: nat)
      // any other opcode with side effects (stores, calls, atomics, ...)
    | OtherEffectful(code: nat)

  /** The classification the fuzzer's utility `InstructionHasNoSideEffects` provides. */
  predicate HasNoSideEffects(op: Opcode)
  {
    op.Phi? || op.Select? || op.CopyObject? || op.Undef? || op.OtherPure?
  }

  /** The five barrier opcodes that can never be enclosed in a conditional. */
  predicate IsBarrier(op: Opcode)
  {
    op.ControlBarrier? || op.MemoryBarrier? || op.NamedBarrierInitialize?
    || op.MemoryNamedBarrier? || op.TypeNamedBarrier?
  }

  /** A non-terminator instruction: opcode, optional result id, type id and in-operands. */
  datatype Instruction = Instruction(op: Opcode, resultId: Option<Id>, typeId: Id, operands: seq<Id>)

  /** The merge instruction a structured header may carry. */
  datatype Merge = SelectionMerge(mergeBlock: Id) | LoopMerge(mergeBlock: Id, continueTarget: Id)

  /** Block terminators; every other terminator (return, switch, kill, ...) is `OtherTerminator`. */
  datatype Terminator =
    | Branch(target: Id)
    | BranchConditional(condition: Id, trueTarget: Id, falseTarget: Id)
    | OtherTerminator(code: nat)

  datatype Block = Block(merge: Option<Merge>, body: seq<Instruction>, terminator: Terminator)

  /** The blocks of the enclosing function and the order in which they are laid out. */
  datatype Function = Function(blocks: map<Id, Block>, layout: seq<Id>)

  /**
    The parts of the module the transformation reads: the function, the
    module-level definitions (constants, globals) with their type ids, the
    type table (true for the void type), zero constants per (type, irrelevant),
    the ids that module-level instructions outside the function (debug names,
    decorations) take as input operands, the ids the other functions of the
    module define (their own ids, labels and results), and the id bound.
   */
  datatype Module = Module(
    fn: Function,
    globals: map<Id, Id>,
    typeIsVoid: map<Id, bool>,
    zeroConstants: map<(Id, bool), Id>,
    annotationUses: set<Id>,
    otherDefs: set<Id>,
    idBound: nat)

  /** Dominance and post-dominance of the function, as pairs (a, b) meaning "a (post-)dominates b". */
  datatype Dominance = Dominance(dom: set<(Id, Id)>, postDom: set<(Id, Id)>)
  {
    predicate Dominates(a: Id, b: Id) { (a, b) in dom }
    predicate PostDominates(a: Id, b: Id) { (a, b) in postDom }
  }

  /** Where an instruction sits in the function: a block label and a position in its body. */
  datatype InstRef = InstRef(block: Id, index: nat)

  predicate Resolves(f: Function, r: InstRef)
  {
    r.block in f.blocks && r.index < |f.blocks[r.block].body|
  }

  function InstructionAt(f: Function, r: InstRef): Instruction
    requires Resolves(f, r)
  {
    f.blocks[r.block].body[r.index]
  }

  /** Some instruction of the function defines `id`. */
  predicate DefinedByInstruction(f: Function, id: Id)
  {
    exists b, i :: b in f.blocks && 0 <= i < |f.blocks[b].body| && f.blocks[b].body[i].resultId == Some(id)
  }

  /**
    `id` already names something in the module: a label or result of this
    function, a global, a type, or anything another function defines.
   */
  predicate IsDefined(m: Module, id: Id)
  {
    id in m.fn.blocks || id in m.globals || id in m.typeIsVoid || id in m.otherDefs || DefinedByInstruction(m.fn, id)
  }

  /** The fuzzer's freshness test: the id is not defined anywhere in the module. */
  predicate IsFresh(m: Module, id: Id)
  {
    !IsDefined(m, id)
  }

  /**
    There is a definition of `id` whose type id is `ty`. Labels and type
    declarations have type id 0, as their SPIR-V instructions carry no type.
   */
  predicate DefinedWithType(m: Module, id: Id, ty: Id)
  {
    || (id in m.globals && m.globals[id] == ty)
    || ((id in m.fn.blocks || id in m.typeIsVoid) && ty == 0)
    || exists b, i :: b in m.fn.blocks && 0 <= i < |m.fn.blocks[b].body|
         && m.fn.blocks[b].body[i].resultId == Some(id) && m.fn.blocks[b].body[i].typeId == ty
  }

  /**
    `id` may be used just before the instruction at `r`: it is a module-level
    definition, it is defined earlier in the same block, or it is defined in
    another block that dominates the instruction's block.
   */
  predicate AvailableBefore(m: Module, d: Dominance, r: InstRef, id: Id)
    requires Resolves(m.fn, r)
  {
    || id in m.globals
    || (exists i :: 0 <= i < r.index && m.fn.blocks[r.block].body[i].resultId == Some(id))
    || (exists b, i :: b in m.fn.blocks && b != r.block && d.Dominates(b, r.block)
          && 0 <= i < |m.fn.blocks[b].body| && m.fn.blocks[b].body[i].resultId == Some(id))
  }

  /**
    `id` has a use as an input operand anywhere in the module: in an
    instruction or branch condition of the function, or in a module-level
    instruction such as `OpName` or `OpDecorate`.
   */
  predicate UsedAsInOperand(m: Module, id: Id)
  {
    || id in m.annotationUses
    || (exists b, i :: b in m.fn.blocks && 0 <= i < |m.fn.blocks[b].body| && id in m.fn.blocks[b].body[i].operands)
    || (exists b :: b in m.fn.blocks && m.fn.blocks[b].terminator.BranchConditional?
          && m.fn.blocks[b].terminator.condition == id)
  }

  /** The id bound after the fuzzer registers `id`: it must exceed every id in use. */
  function UpdateIdBound(bound: nat, id: Id): (r: nat)
    ensures r >= bound && r > id
    ensures bound > id ==> r == bound
    ensures bound <= id ==> r == id + 1
  {
    if id < bound then bound else id + 1
  }

  /** `s` with the first occurrence of `x` removed. */
  function RemoveFirst(s: seq<Id>, x: Id): (r: seq<Id>)
    ensures x in s ==> |r| == |s| - 1
    ensures x !in s ==> r == s
    ensures forall y :: y in s && y != x ==> y in r
    ensures forall y :: y in r ==> y in s
  {
    var k := FirstIndex(s, x);
    if k == |s| then s else s[..k] + s[k + 1..]
  }

  /** Layout after inserting `ids` right after `anchor` (at the end when `anchor` is absent). */
  function InsertAfter(layout: seq<Id>, anchor: Id, ids: seq<Id>): (r: seq<Id>)
    ensures |r| == |layout| + |ids|
    ensures forall y :: y in r <==> y in layout || y in ids
    ensures anchor in layout ==> exists k :: 0 <= k && k + |ids| < |r| && r[k] == anchor && r[k + 1..k + 1 + |ids|] == ids
  {
    var k := FirstIndex(layout, anchor);
    if k == |layout| then layout + ids
    else
      var r := layout[..k + 1] + ids + layout[k + 1..];
      assert layout == layout[..k + 1] + layout[k + 1..];
      assert forall y :: y in layout <==> y in layout[..k + 1] || y in layout[k + 1..];
      assert r[k] == anchor;
      assert r[k + 1..k + 1 + |ids|] == ids;
      r
  }

  /** `MoveBasicBlockToAfter`: the block `id` is taken out of the layout and put right after `anchor`. */
  function MoveAfter(layout: seq<Id>, id: Id, anchor: Id): (r: seq<Id>)
    ensures forall y :: y in r <==> y in layout || y == id
    ensures anchor in layout && anchor != id ==> exists k :: 0 <= k < |r| - 1 && r[k] == anchor && r[k + 1] == id
  {
    var l := RemoveFirst(layout, id);
    var r := InsertAfter(l, anchor, [id]);
    InsertedRunStart(l, anchor, [id], r);
    r
  }

  /** The first inserted id sits right after the anchor. */
  lemma InsertedRunStart(layout: seq<Id>, anchor: Id, ids: seq<Id>, r: seq<Id>)
    requires |ids| > 0 && r == InsertAfter(layout, anchor, ids)
    ensures anchor in layout ==> exists k :: 0 <= k < |r| - 1 && r[k] == anchor && r[k + 1] == ids[0]
  {
    if anchor in layout {
      var k :| 0 <= k && k + |ids| < |r| && r[k] == anchor && r[k + 1..k + 1 + |ids|] == ids;
      assert r[k + 1] == r[k + 1..k + 1 + |ids|][0];
    }
  }
}

=== FILE: layout.dfy ===
/**
  Relative order in a function's block layout: which block comes before
  which, and how the layout edits `Apply` makes (moving a block after
  another, inserting new blocks after one) keep or establish that order.
 */
module LayoutOrder {
  import opened Seqs
  import opened Ir

  /** No block is laid out twice. */
  predicate NoDup(s: seq<Id>)
  {
    forall i, j :: 0 <= i < j < |s| ==> s[i] != s[j]
  }

  /** `a` is laid out before `b`. */
  predicate Before(s: seq<Id>, a: Id, b: Id)
  {
    exists i, j :: 0 <= i < j < |s| && s[i] == a && s[j] == b
  }

  /** The layout lists every block of the function exactly once, and nothing else. */
  predicate LayoutOk(f: Function)
  {
    NoDup(f.layout) && (set x | x in f.layout) == f.blocks.Keys
  }

  lemma BeforeTrans(s: seq<Id>, a: Id, b: Id, c: Id)
    requires NoDup(s) && Before(s, a, b) && Before(s, b, c)
    ensures Before(s, a, c)
  {
    var i, j :| 0 <= i < j < |s| && s[i] == a && s[j] == b;
    var j', k :| 0 <= j' < k < |s| && s[j'] == b && s[k] == c;
    assert j == j';
  }

  /**
    Two layout edits in a row, the first placing `mid` after `cur` and the
    second `last` after (or at) `mid`, each keeping the order of the blocks
    before it and putting its block ahead of whatever followed its anchor:
    together they do the same for `last` after `cur`.
   */
  lemma LayoutCompose(l0: seq<Id>, l1: seq<Id>, l2: seq<Id>, cur: Id, mid: Id, last: Id)
    requires NoDup(l2)
    requires forall a, b :: Before(l0, a, b) ==> Before(l1, a, b)
    requires Before(l1, cur, mid)
    requires forall c :: Before(l0, cur, c) ==> Before(l1, mid, c)
    requires forall a, b :: Before(l1, a, b) ==> Before(l2, a, b)
    requires last == mid || Before(l2, mid, last)
    requires forall c :: Before(l1, mid, c) ==> Before(l2, last, c)
    ensures forall a, b :: Before(l0, a, b) ==> Before(l2, a, b)
    ensures last == cur || Before(l2, cur, last)
    ensures forall c :: Before(l0, cur, c) ==> Before(l2, last, c)
  {
    assert Before(l2, cur, mid);
    if last != mid {
      BeforeTrans(l2, cur, mid, last);
    }
  }

  /** Order is irreflexive in a layout without duplicates. */
  lemma BeforeIrreflexive(s: seq<Id>, a: Id)
    requires NoDup(s)
    ensures !Before(s, a, a)
  {
  }

  lemma NoDupConcat(a: seq<Id>, b: seq<Id>)
    requires NoDup(a) && NoDup(b) && forall x :: x in a ==> x !in b
    ensures NoDup(a + b)
  {
    forall i, j | 0 <= i < j < |a + b| ensures (a + b)[i] != (a + b)[j] {
      if j < |a| {
        assert (a + b)[i] == a[i] && (a + b)[j] == a[j];
      } else if i < |a| {
        assert (a + b)[i] == a[i] && (a + b)[j] == b[j - |a|];
        assert a[i] in a && b[j - |a|] in b;
      } else {
        assert (a + b)[i] == b[i - |a|] && (a + b)[j] == b[j - |a|];
      }
    }
  }

  lemma NoDupSplit(a: seq<Id>, b: seq<Id>)
    requires NoDup(a + b)
    ensures NoDup(a) && NoDup(b) && forall x :: x in a ==> x !in b
  {
    assert forall i :: 0 <= i < |a| ==> a[i] == (a + b)[i];
    assert forall i :: 0 <= i < |b| ==> b[i] == (a + b)[|a| + i];
  }

  /** Taking one block out keeps the order of the others. */
  lemma RemoveFirstOrder(s: seq<Id>, y: Id)
    requires NoDup(s)
    ensures NoDup(RemoveFirst(s, y)) && y !in RemoveFirst(s, y)
    ensures forall a, b :: a != y && b != y && Before(s, a, b) ==> Before(RemoveFirst(s, y), a, b)
  {
    RemoveFirstNoDup(s, y);
    RemoveFirstKeeps(s, y);
  }

  /** Taking the one copy of a block out leaves no duplicates and no copy of it. */
  lemma RemoveFirstNoDup(s: seq<Id>, y: Id)
    requires NoDup(s)
    ensures NoDup(RemoveFirst(s, y)) && y !in RemoveFirst(s, y)
  {
    var k := FirstIndex(s, y);
    var r := RemoveFirst(s, y);
    if k < |s| {
      assert r == s[..k] + s[k + 1..];
      forall i | 0 <= i < |r| ensures r[i] != y {
        if i < k { assert s[..k][i] == r[i]; } else { assert r[i] == s[i + 1]; }
      }
    }
  }

  /** Taking one block out keeps the order of the others. */
  lemma RemoveFirstKeeps(s: seq<Id>, y: Id)
    ensures forall a, b :: a != y && b != y && Before(s, a, b) ==> Before(RemoveFirst(s, y), a, b)
  {
    var k := FirstIndex(s, y);
    var r := RemoveFirst(s, y);
    if k < |s| {
      assert r == s[..k] + s[k + 1..];
      assert forall i :: 0 <= i < k ==> r[i] == s[i];
      assert forall i :: k < i < |s| ==> r[i - 1] == s[i];
      forall a, b | a != y && b != y && Before(s, a, b) ensures Before(r, a, b) {
        var i, j :| 0 <= i < j < |s| && s[i] == a && s[j] == b;
        var i' := if i < k then i else i - 1;
        var j' := if j < k then j else j - 1;
        assert r[i'] == a && r[j'] == b;
      }
    }
  }


  /** The layout after an insertion, cut at the anchor. */
  lemma InsertAfterSplit(s: seq<Id>, anchor: Id, ids: seq<Id>) returns (k: nat)
    requires anchor in s
    ensures k < |s| && s[k] == anchor && anchor !in s[..k]
    ensures InsertAfter(s, anchor, ids) == s[..k + 1] + ids + s[k + 1..]
  {
    k := FirstIndex(s, anchor);
  }

  lemma InsertAfterNoDup(s: seq<Id>, anchor: Id, ids: seq<Id>)
    requires NoDup(s) && NoDup(ids) && anchor in s
    requires forall x :: x in ids ==> x !in s
    ensures NoDup(InsertAfter(s, anchor, ids))
  {
    var k := InsertAfterSplit(s, anchor, ids);
    var front, back := s[..k + 1], s[k + 1..];
    assert s == front + back;
    NoDupSplit(front, back);
    NoDupConcat(front, ids);
    NoDupConcat(front + ids, back);
  }

  lemma InsertAfterKeeps(s: seq<Id>, anchor: Id, ids: seq<Id>)
    requires anchor in s
    ensures forall a, b :: Before(s, a, b) ==> Before(InsertAfter(s, anchor, ids), a, b)
  {
    var k := InsertAfterSplit(s, anchor, ids);
    var r := InsertAfter(s, anchor, ids);
    var n := |ids|;
    forall a, b | Before(s, a, b) ensures Before(r, a, b) {
      var i, j :| 0 <= i < j < |s| && s[i] == a && s[j] == b;
      var i' := if i <= k then i else i + n;
      var j' := if j <= k then j else j + n;
      assert r[i'] == a && r[j'] == b;
    }
  }

  lemma InsertAfterPlaces(s: seq<Id>, anchor: Id, ids: seq<Id>)
    requires NoDup(s) && anchor in s
    ensures forall x :: x in ids ==> Before(InsertAfter(s, anchor, ids), anchor, x)
    ensures forall x, c :: x in ids && Before(s, anchor, c) ==> Before(InsertAfter(s, anchor, ids), x, c)
  {
    InsertAfterFollows(s, anchor, ids);
    InsertAfterPrecedes(s, anchor, ids);
  }

  /** Each inserted block follows the anchor. */
  lemma InsertAfterFollows(s: seq<Id>, anchor: Id, ids: seq<Id>)
    requires anchor in s
    ensures forall x :: x in ids ==> Before(InsertAfter(s, anchor, ids), anchor, x)
  {
    var k := InsertAfterSplit(s, anchor, ids);
    var r := InsertAfter(s, anchor, ids);
    forall x | x in ids ensures Before(r, anchor, x) {
      var i :| 0 <= i < |ids| && ids[i] == x;
      assert r[k] == anchor && r[k + 1 + i] == x;
    }
  }

  /** Each inserted block precedes every block that followed the anchor. */
  lemma InsertAfterPrecedes(s: seq<Id>, anchor: Id, ids: seq<Id>)
    requires NoDup(s) && anchor in s
    ensures forall x, c :: x in ids && Before(s, anchor, c) ==> Before(InsertAfter(s, anchor, ids), x, c)
  {
    var k := InsertAfterSplit(s, anchor, ids);
    var r := InsertAfter(s, anchor, ids);
    forall x, c | x in ids && Before(s, anchor, c) ensures Before(r, x, c) {
      var i :| 0 <= i < |ids| && ids[i] == x;
      var a, j :| 0 <= a < j < |s| && s[a] == anchor && s[j] == c;
      assert a == k;
      assert r[k + 1 + i] == x && r[j + |ids|] == c;
    }
  }


  /**
    Inserting new blocks right after `anchor` keeps the order of the old
    ones, and puts each new block after the anchor and before every block
    that followed it.
   */
  lemma InsertAfterOrder(s: seq<Id>, anchor: Id, ids: seq<Id>)
    requires NoDup(s) && NoDup(ids) && anchor in s
    requires forall x :: x in ids ==> x !in s
    ensures NoDup(InsertAfter(s, anchor, ids))
    ensures forall a, b :: Before(s, a, b) ==> Before(InsertAfter(s, anchor, ids), a, b)
    ensures forall x :: x in ids ==> Before(InsertAfter(s, anchor, ids), anchor, x)
    ensures forall x, c :: x in ids && Before(s, anchor, c) ==> Before(InsertAfter(s, anchor, ids), x, c)
  {
    InsertAfterNoDup(s, anchor, ids);
    InsertAfterKeeps(s, anchor, ids);
    InsertAfterPlaces(s, anchor, ids);
  }

  /** Adding new blocks to a function and laying them out right after block `b`. */
  lemma InsertLaidOut(f: Function, g: Function, b: Id, ids: seq<Id>)
    requires LayoutOk(f) && b in f.blocks && NoDup(ids)
    requires forall x :: x in ids ==> x !in f.blocks
    requires g.blocks.Keys == f.blocks.Keys + (set x | x in ids) && g.layout == InsertAfter(f.layout, b, ids)
    ensures LayoutOk(g)
    ensures forall a, c :: Before(f.layout, a, c) ==> Before(g.layout, a, c)
    ensures forall x :: x in ids ==> Before(g.layout, b, x)
    ensures forall x, c :: x in ids && Before(f.layout, b, c) ==> Before(g.layout, x, c)
  {
    assert b in f.layout by {
      assert b in (set x | x in f.layout);
    }
    forall x | x in ids ensures x !in f.layout {
      assert x in f.layout ==> x in (set y | y in f.layout);
    }
    InsertAfterOrder(f.layout, b, ids);
    LaidOutKeys(f, g, ids);
  }

  /** `InsertLaidOut`, for one of the new blocks: it follows `b` and precedes whatever followed `b`. */
  lemma InsertLaidOutAt(f: Function, g: Function, b: Id, ids: seq<Id>, y: Id)
    requires LayoutOk(f) && b in f.blocks && NoDup(ids) && y in ids
    requires (set x | x in ids) !! f.blocks.Keys
    requires g.blocks.Keys == f.blocks.Keys + (set x | x in ids) && g.layout == InsertAfter(f.layout, b, ids)
    ensures LayoutOk(g)
    ensures forall a, c :: Before(f.layout, a, c) ==> Before(g.layout, a, c)
    ensures Before(g.layout, b, y)
    ensures forall c :: Before(f.layout, b, c) ==> Before(g.layout, y, c)
  {
    forall x | x in ids ensures x !in f.blocks {
      assert x in (set z | z in ids);
    }
    InsertLaidOut(f, g, b, ids);
  }

  /** The layout after an insertion lists the old blocks and the new ones. */
  lemma LaidOutKeys(f: Function, g: Function, ids: seq<Id>)
    requires (set x | x in f.layout) == f.blocks.Keys
    requires g.blocks.Keys == f.blocks.Keys + (set x | x in ids)
    requires forall y :: y in g.layout <==> y in f.layout || y in ids
    ensures (set x | x in g.layout) == g.blocks.Keys
  {
    forall y ensures y in (set x | x in g.layout) <==> y in g.blocks.Keys {
      assert y in f.layout <==> y in (set x | x in f.layout);
      assert y in ids <==> y in (set x | x in ids);
    }
  }

  /** Moving a block already laid out lists the same blocks. */
  lemma MovedKeys(l0: seq<Id>, l1: seq<Id>, keys: set<Id>, y: Id)
    requires (set x | x in l0) == keys && y in keys
    requires forall z :: z in l1 <==> z in l0 || z == y
    ensures (set x | x in l1) == keys
  {
    forall z ensures z in (set x | x in l1) <==> z in keys {
      assert z in l0 <==> z in (set x | x in l0);
    }
  }

  /**
    `MoveBasicBlockToAfter` keeps the order of the other blocks and puts the
    moved block right after the anchor, ahead of every block that followed
    the anchor.
   */
  lemma MoveAfterOrder(s: seq<Id>, y: Id, anchor: Id)
    requires NoDup(s) && anchor in s && anchor != y
    ensures NoDup(MoveAfter(s, y, anchor))
    ensures forall a, b :: a != y && b != y && Before(s, a, b) ==> Before(MoveAfter(s, y, anchor), a, b)
    ensures Before(MoveAfter(s, y, anchor), anchor, y)
    ensures forall c :: c != y && Before(s, anchor, c) ==> Before(MoveAfter(s, y, anchor), y, c)
  {
    var l := RemoveFirst(s, y);
    RemoveFirstOrder(s, y);
    assert anchor in l;
    InsertAfterOrder(l, anchor, [y]);
    assert MoveAfter(s, y, anchor) == InsertAfter(l, anchor, [y]);
  }
}

=== FILE: region.dfy ===
/**
  What the breadth-first region walk of `IsApplicable` computes, stated
  without the queue: the blocks of each arm, followed from the header's
  targets along unconditional branches up to the first block that
  post-dominates the header, and the side-effecting instructions in them.
 */
module Region {
  import opened Ir
  import opened FlattenCheck

  /**
    `x` lies on the arm that starts at `b`, at most `n` branches after `b`,
    with no block up to and including `x` post-dominating `h`.
   */
  predicate OnArm(m: Module, d: Dominance, h: Id, b: Id, x: Id, n: nat)
    decreases n
  {
    !d.PostDominates(b, h)
    && (x == b || (n > 0 && b in m.fn.blocks && m.fn.blocks[b].terminator.Branch?
                   && OnArm(m, d, h, m.fn.blocks[b].terminator.target, x, n - 1)))
  }

  /** The divergent region of a selection header: the blocks on either arm. */
  ghost predicate InRegion(m: Module, d: Dominance, h: Id, x: Id)
    requires IsSelectionHeader(m.fn, h)
  {
    var t := m.fn.blocks[h].terminator;
    exists n: nat :: OnArm(m, d, h, t.trueTarget, x, n) || OnArm(m, d, h, t.falseTarget, x, n)
  }

  /** Every side-effecting instruction of block `x` is in `s`. */
  predicate Covers(m: Module, s: set<InstRef>, x: Id)
  {
    x in m.fn.blocks
    && forall i :: 0 <= i < |m.fn.blocks[x].body| && !HasNoSideEffects(m.fn.blocks[x].body[i].op) ==> InstRef(x, i) in s
  }

  // ---------------------------------------------------------------------------
  // Arms that converge

  /**
    Following unconditional branches from `b`, a block that post-dominates
    `h` is reached within `n` steps, and every block passed on the way is
    one the region walk accepts.
   */
  predicate ArmConverges(m: Module, d: Dominance, h: Id, b: Id, n: nat)
    decreases n
  {
    d.PostDominates(b, h)
    || (n > 0 && Flattenable(m, b) && ArmConverges(m, d, h, m.fn.blocks[b].terminator.target, n - 1))
  }

  lemma {:induction false} ArmConvergesMonotone(m: Module, d: Dominance, h: Id, b: Id, n: nat, n': nat)
    requires ArmConverges(m, d, h, b, n) && n <= n'
    ensures ArmConverges(m, d, h, b, n')
    decreases n
  {
    if !d.PostDominates(b, h) {
      ArmConvergesMonotone(m, d, h, m.fn.blocks[b].terminator.target, n - 1, n' - 1);
    }
  }

  /** The blocks of a converging arm, in branch order, up to (not including) the first post-dominator. */
  function ArmPath(m: Module, d: Dominance, h: Id, b: Id, n: nat): (p: seq<Id>)
    requires ArmConverges(m, d, h, b, n)
    decreases n
    ensures |p| <= n
    ensures forall i :: 0 <= i < |p| ==> Flattenable(m, p[i]) && !d.PostDominates(p[i], h)
    ensures forall i :: 0 <= i < |p| - 1 ==> Flattenable(m, p[i]) && p[i + 1] == m.fn.blocks[p[i]].terminator.target
    ensures |p| > 0 ==> p[0] == b
    ensures |p| == 0 <==> d.PostDominates(b, h)
    ensures ArmConverges(m, d, h, b, |p|)
  {
    if d.PostDominates(b, h) then []
    else
      var rest := ArmPath(m, d, h, m.fn.blocks[b].terminator.target, n - 1);
      assert forall i :: 1 <= i < |rest| + 1 ==> ([b] + rest)[i] == rest[i - 1];
      [b] + rest
  }

  /** The path does not depend on the fuel it was computed with. */
  lemma {:induction false} ArmPathFuel(m: Module, d: Dominance, h: Id, b: Id, n1: nat, n2: nat)
    requires ArmConverges(m, d, h, b, n1) && ArmConverges(m, d, h, b, n2)
    ensures ArmPath(m, d, h, b, n1) == ArmPath(m, d, h, b, n2)
    decreases n1
  {
    if !d.PostDominates(b, h) {
      ArmPathFuel(m, d, h, m.fn.blocks[b].terminator.target, n1 - 1, n2 - 1);
    }
  }

  /** The last block of a non-empty path branches to a post-dominator. */
  lemma {:induction false} ArmPathEnd(m: Module, d: Dominance, h: Id, b: Id, n: nat)
    requires ArmConverges(m, d, h, b, n)
    ensures var p := ArmPath(m, d, h, b, n);
            |p| > 0 ==> d.PostDominates(m.fn.blocks[p[|p| - 1]].terminator.target, h)
    decreases n
  {
    if !d.PostDominates(b, h) {
      var t := m.fn.blocks[b].terminator.target;
      ArmPathEnd(m, d, h, t, n - 1);
      var rest := ArmPath(m, d, h, t, n - 1);
      assert ArmPath(m, d, h, b, n) == [b] + rest;
    }
  }

  /** The path from the `i`-th block of a path is the rest of that path. */
  lemma {:induction false} ArmPathSuffix(m: Module, d: Dominance, h: Id, b: Id, n: nat, i: nat)
    requires ArmConverges(m, d, h, b, n)
    requires i < |ArmPath(m, d, h, b, n)|
    ensures var p := ArmPath(m, d, h, b, n);
            ArmConverges(m, d, h, p[i], n) && ArmPath(m, d, h, p[i], n) == p[i..]
    decreases i
  {
    var p := ArmPath(m, d, h, b, n);
    if i > 0 {
      ArmPathSuffix(m, d, h, b, n, i - 1);
      var a := p[i - 1];
      var t := m.fn.blocks[a].terminator.target;
      assert t == p[i];
      // The path from `a` is `a` followed by the path from its target.
      assert ArmConverges(m, d, h, t, n - 1);
      assert ArmPath(m, d, h, a, n) == [a] + ArmPath(m, d, h, t, n - 1);
      assert ArmPath(m, d, h, t, n - 1) == p[i..] by {
        assert p[i - 1..] == [a] + p[i..];
      }
      ArmConvergesMonotone(m, d, h, t, n - 1, n);
      ArmPathFuel(m, d, h, t, n - 1, n);
    }
  }

  /** A converging arm visits no block twice. */
  lemma ArmPathDistinct(m: Module, d: Dominance, h: Id, b: Id, n: nat, p: seq<Id>)
    requires ArmConverges(m, d, h, b, n) && p == ArmPath(m, d, h, b, n)
    ensures forall i, j :: 0 <= i < j < |p| ==> p[i] != p[j]
  {
    forall i, j | 0 <= i < j < |p| ensures p[i] != p[j] {
      ArmPathSuffix(m, d, h, b, n, i);
      ArmPathSuffix(m, d, h, b, n, j);
      assert |p[i..]| != |p[j..]|;
    }
  }

  /** A sequence without repetitions over a set is no longer than the set is large. */
  lemma {:induction false} DistinctWithin(p: seq<Id>, s: set<Id>)
    requires forall i :: 0 <= i < |p| ==> p[i] in s
    requires forall i, j :: 0 <= i < j < |p| ==> p[i] != p[j]
    ensures |p| <= |s|
    decreases |p|
  {
    if |p| > 0 {
      var last := p[|p| - 1];
      var front := p[..|p| - 1];
      assert forall i :: 0 <= i < |front| ==> front[i] == p[i];
      DistinctWithin(front, s - {last});
    }
  }

  /** An arm that converges at all converges within as many steps as the function has blocks. */
  lemma ArmConvergesWithinBlocks(m: Module, d: Dominance, h: Id, b: Id, n: nat)
    requires ArmConverges(m, d, h, b, n)
    ensures ArmConverges(m, d, h, b, |m.fn.blocks|)
  {
    var p := ArmPath(m, d, h, b, n);
    ArmPathDistinct(m, d, h, b, n, p);
    assert forall i :: 0 <= i < |p| ==> p[i] in m.fn.blocks.Keys;
    DistinctWithin(p, m.fn.blocks.Keys);
    ArmConvergesMonotone(m, d, h, b, |p|, |m.fn.blocks|);
  }

  /** The blocks on a converging arm are exactly the blocks of its path. */
  lemma {:induction false} OnArmIffInPath(m: Module, d: Dominance, h: Id, b: Id, n: nat, x: Id, k: nat)
    requires ArmConverges(m, d, h, b, n)
    ensures OnArm(m, d, h, b, x, k) ==> x in ArmPath(m, d, h, b, n)
    ensures x in ArmPath(m, d, h, b, n) ==> OnArm(m, d, h, b, x, n)
    decreases n
  {
    if !d.PostDominates(b, h) {
      var t := m.fn.blocks[b].terminator.target;
      assert ArmPath(m, d, h, b, n) == [b] + ArmPath(m, d, h, t, n - 1);
      OnArmIffInPath(m, d, h, t, n - 1, x, if k > 0 then k - 1 else 0);
      if x != b && x in ArmPath(m, d, h, t, n - 1) {
        OnArmMonotone(m, d, h, t, x, n - 1, n - 1);
      }
    }
  }

  lemma {:induction false} OnArmMonotone(m: Module, d: Dominance, h: Id, b: Id, x: Id, n: nat, n': nat)
    requires OnArm(m, d, h, b, x, n) && n <= n'
    ensures OnArm(m, d, h, b, x, n')
    decreases n
  {
    if x != b {
      OnArmMonotone(m, d, h, m.fn.blocks[b].terminator.target, x, n - 1, n' - 1);
    }
  }

  // ---------------------------------------------------------------------------
  // The region walk, exactly

  /** Every block still queued by a successful region walk leads to convergence within the walk's fuel. */
  lemma {:induction false} RegionWalkConverges(m: Module, d: Dominance, h: Id, queue: seq<Id>, needs: set<InstRef>, fuel: nat)
    requires RegionWalk(m, d, h, queue, needs, fuel).Some?
    ensures forall k :: 0 <= k < |queue| ==> ArmConverges(m, d, h, queue[k], fuel)
    decreases fuel
  {
    if queue != [] {
      var b := queue[0];
      if d.PostDominates(b, h) {
        RegionWalkConverges(m, d, h, queue[1..], needs, fuel - 1);
        forall k | 1 <= k < |queue| ensures ArmConverges(m, d, h, queue[k], fuel) {
          assert queue[k] == queue[1..][k - 1];
          ArmConvergesMonotone(m, d, h, queue[k], fuel - 1, fuel);
        }
      } else {
        var blk := m.fn.blocks[b];
        var found := CheckBody(m, b, blk.body, 0).value;
        var q' := queue[1..] + [blk.terminator.target];
        RegionWalkConverges(m, d, h, q', needs + found, fuel - 1);
        assert q'[|q'| - 1] == blk.terminator.target;
        forall k | 1 <= k < |queue| ensures ArmConverges(m, d, h, queue[k], fuel) {
          assert queue[k] == q'[k - 1];
          ArmConvergesMonotone(m, d, h, queue[k], fuel - 1, fuel);
        }
      }
    }
  }

  /**
    Completeness: every block on an arm from a queued block is flattenable,
    and all its side-effecting instructions are collected.
   */
  lemma {:induction false} RegionWalkComplete(m: Module, d: Dominance, h: Id, queue: seq<Id>, needs: set<InstRef>, fuel: nat)
    requires RegionWalk(m, d, h, queue, needs, fuel).Some?
    ensures forall k, x, n: nat :: 0 <= k < |queue| && OnArm(m, d, h, queue[k], x, n) ==>
              Flattenable(m, x) && Covers(m, RegionWalk(m, d, h, queue, needs, fuel).value, x)
    decreases fuel
  {
    var r := RegionWalk(m, d, h, queue, needs, fuel).value;
    if queue != [] {
      var b := queue[0];
      if d.PostDominates(b, h) {
        RegionWalkComplete(m, d, h, queue[1..], needs, fuel - 1);
        assert r == RegionWalk(m, d, h, queue[1..], needs, fuel - 1).value;
        forall k, x, n: nat | 0 <= k < |queue| && OnArm(m, d, h, queue[k], x, n) ensures Flattenable(m, x) && Covers(m, r, x) {
          assert k > 0;
          assert queue[k] == queue[1..][k - 1];
          assert OnArm(m, d, h, queue[1..][k - 1], x, n);
        }
      } else {
        var blk := m.fn.blocks[b];
        var found := CheckBody(m, b, blk.body, 0).value;
        var q' := queue[1..] + [blk.terminator.target];
        RegionWalkComplete(m, d, h, q', needs + found, fuel - 1);
        assert r == RegionWalk(m, d, h, q', needs + found, fuel - 1).value;
        forall k, x, n: nat | 0 <= k < |queue| && OnArm(m, d, h, queue[k], x, n) ensures Flattenable(m, x) && Covers(m, r, x) {
          if k > 0 {
            assert queue[k] == q'[k - 1];
            assert OnArm(m, d, h, q'[k - 1], x, n);
          } else if x != b {
            assert q'[|q'| - 1] == blk.terminator.target;
            assert OnArm(m, d, h, q'[|q'| - 1], x, n - 1);
          } else {
            assert forall i :: 0 <= i < |blk.body| && !HasNoSideEffects(blk.body[i].op) ==> InstRef(b, i) in found;
          }
        }
      }
    }
  }

  /** `x` lies on an arm from one of the queued blocks. */
  ghost predicate ReachedFrom(m: Module, d: Dominance, h: Id, queue: seq<Id>, x: Id)
  {
    exists k, n: nat :: 0 <= k < |queue| && OnArm(m, d, h, queue[k], x, n)
  }

  /** Soundness: everything the walk adds to `needs` lies on an arm from a queued block. */
  lemma {:induction false} RegionWalkSound(m: Module, d: Dominance, h: Id, queue: seq<Id>, needs: set<InstRef>, fuel: nat)
    requires RegionWalk(m, d, h, queue, needs, fuel).Some?
    ensures forall ref :: ref in RegionWalk(m, d, h, queue, needs, fuel).value && ref !in needs ==>
              ReachedFrom(m, d, h, queue, ref.block)
    decreases fuel
  {
    var r := RegionWalk(m, d, h, queue, needs, fuel).value;
    if queue != [] {
      var b := queue[0];
      if d.PostDominates(b, h) {
        RegionWalkSound(m, d, h, queue[1..], needs, fuel - 1);
        assert r == RegionWalk(m, d, h, queue[1..], needs, fuel - 1).value;
        forall ref | ref in r && ref !in needs ensures ReachedFrom(m, d, h, queue, ref.block) {
          var k': nat, n': nat :| 0 <= k' < |queue[1..]| && OnArm(m, d, h, queue[1..][k'], ref.block, n');
          assert queue[k' + 1] == queue[1..][k'];
          assert OnArm(m, d, h, queue[k' + 1], ref.block, n');
        }
      } else {
        var blk := m.fn.blocks[b];
        var found := CheckBody(m, b, blk.body, 0).value;
        var q' := queue[1..] + [blk.terminator.target];
        RegionWalkSound(m, d, h, q', needs + found, fuel - 1);
        assert r == RegionWalk(m, d, h, q', needs + found, fuel - 1).value;
        forall ref | ref in r && ref !in needs ensures ReachedFrom(m, d, h, queue, ref.block) {
          if ref in found {
            assert OnArm(m, d, h, queue[0], ref.block, 0);
          } else {
            var k': nat, n': nat :| 0 <= k' < |q'| && OnArm(m, d, h, q'[k'], ref.block, n');
            if k' < |queue| - 1 {
              assert queue[k' + 1] == q'[k'];
            } else {
              assert q'[k'] == blk.terminator.target;
              assert OnArm(m, d, h, queue[0], ref.block, n' + 1);
            }
          }
        }
      }
    }
  }

  /** The sum of a sequence of step counts. */
  function Total(ns: seq<nat>): nat
  {
    if |ns| == 0 then 0 else ns[0] + Total(ns[1..])
  }

  lemma {:induction false} TotalAppend(ns: seq<nat>, x: nat)
    ensures Total(ns + [x]) == Total(ns) + x
    decreases |ns|
  {
    if |ns| > 0 {
      assert (ns + [x])[1..] == ns[1..] + [x];
      TotalAppend(ns[1..], x);
    }
  }

  /**
    The walk succeeds when every queued block converges within its own
    step count and the fuel covers all steps plus one pop per queued block.
   */
  lemma {:induction false} RegionWalkSucceeds(m: Module, d: Dominance, h: Id, queue: seq<Id>, needs: set<InstRef>, fuel: nat,
                                              ns: seq<nat>)
    requires |ns| == |queue|
    requires forall k :: 0 <= k < |queue| ==> ArmConverges(m, d, h, queue[k], ns[k])
    requires Total(ns) + |ns| <= fuel
    ensures RegionWalk(m, d, h, queue, needs, fuel).Some?
    decreases fuel
  {
    if queue != [] {
      var b := queue[0];
      if d.PostDominates(b, h) {
        assert forall k :: 0 <= k < |queue| - 1 ==> queue[1..][k] == queue[k + 1] && ns[1..][k] == ns[k + 1];
        RegionWalkSucceeds(m, d, h, queue[1..], needs, fuel - 1, ns[1..]);
      } else {
        var blk := m.fn.blocks[b];
        var found := CheckBody(m, b, blk.body, 0);
        assert found.Some?;
        var q' := queue[1..] + [blk.terminator.target];
        var ns' := ns[1..] + [ns[0] - 1];
        TotalAppend(ns[1..], ns[0] - 1);
        forall k | 0 <= k < |q'| ensures ArmConverges(m, d, h, q'[k], ns'[k]) {
          if k < |queue| - 1 {
            assert q'[k] == queue[k + 1] && ns'[k] == ns[k + 1];
          }
        }
        RegionWalkSucceeds(m, d, h, q', needs + found.value, fuel - 1, ns');
      }
    }
  }

  /**
    `GetProblematicInstructionsIfConditionalCanBeFlattened`, exactly: it
    succeeds if and only if the header dominates its merge block, the merge
    block post-dominates the header, and both arms converge through
    flattenable blocks; and then it returns precisely the side-effecting
    instructions of the blocks in the region.
   */
  lemma ProblematicInstructionsExact(m: Module, d: Dominance, h: Id)
    requires IsSelectionHeader(m.fn, h)
    ensures var mb := m.fn.blocks[h].merge.value.mergeBlock;
            var t := m.fn.blocks[h].terminator;
            ProblematicInstructions(m, d, h).Some? <==>
              d.Dominates(h, mb) && d.PostDominates(mb, h)
              && ArmConverges(m, d, h, t.trueTarget, |m.fn.blocks|) && ArmConverges(m, d, h, t.falseTarget, |m.fn.blocks|)
    ensures ProblematicInstructions(m, d, h).Some? ==>
              forall ref :: ref in ProblematicInstructions(m, d, h).value <==>
                Resolves(m.fn, ref) && InRegion(m, d, h, ref.block) && !HasNoSideEffects(InstructionAt(m.fn, ref).op)
  {
    var mb := m.fn.blocks[h].merge.value.mergeBlock;
    var t := m.fn.blocks[h].terminator;
    var queue := [t.trueTarget, t.falseTarget];
    var fuel := WalkFuel(m.fn);
    assert queue[0] == t.trueTarget && queue[1] == t.falseTarget;
    if d.Dominates(h, mb) && d.PostDominates(mb, h) {
      assert ProblematicInstructions(m, d, h) == RegionWalk(m, d, h, queue, {}, fuel);
      if RegionWalk(m, d, h, queue, {}, fuel).Some? {
        RegionWalkConverges(m, d, h, queue, {}, fuel);
        ArmConvergesWithinBlocks(m, d, h, t.trueTarget, fuel);
        ArmConvergesWithinBlocks(m, d, h, t.falseTarget, fuel);
        var r := RegionWalk(m, d, h, queue, {}, fuel).value;
        RegionWalkComplete(m, d, h, queue, {}, fuel);
        RegionWalkSound(m, d, h, queue, {}, fuel);
        forall ref | Resolves(m.fn, ref) && InRegion(m, d, h, ref.block) && !HasNoSideEffects(InstructionAt(m.fn, ref).op)
          ensures ref in r
        {
          var n :| OnArm(m, d, h, t.trueTarget, ref.block, n) || OnArm(m, d, h, t.falseTarget, ref.block, n);
          if OnArm(m, d, h, t.trueTarget, ref.block, n) {
            assert OnArm(m, d, h, queue[0], ref.block, n);
          } else {
            assert OnArm(m, d, h, queue[1], ref.block, n);
          }
          assert Covers(m, r, ref.block);
        }
        forall ref | ref in r
          ensures Resolves(m.fn, ref) && InRegion(m, d, h, ref.block)
        {
          var k, n :| 0 <= k < |queue| && OnArm(m, d, h, queue[k], ref.block, n);
          assert OnArm(m, d, h, t.trueTarget, ref.block, n) || OnArm(m, d, h, t.falseTarget, ref.block, n);
        }
      } else if ArmConverges(m, d, h, t.trueTarget, |m.fn.blocks|) && ArmConverges(m, d, h, t.falseTarget, |m.fn.blocks|) {
        var ns := [|m.fn.blocks|, |m.fn.blocks|];
        assert ns[1..] == [|m.fn.blocks|] && ns[1..][1..] == [];
        assert Total(ns[1..]) == |m.fn.blocks|;
        RegionWalkSucceeds(m, d, h, queue, {}, fuel, ns);
      }
    }
  }

  /** Both arms of an applicable header reach a post-dominating block within the walk's fuel. */
  lemma ApplicableArmsConverge(m: Module, d: Dominance, ov: OverflowIds, t: FlattenMessage)
    requires IsApplicable(m, d, ov, t)
    ensures ArmConverges(m, d, t.headerBlockId, m.fn.blocks[t.headerBlockId].terminator.trueTarget, WalkFuel(m.fn))
    ensures ArmConverges(m, d, t.headerBlockId, m.fn.blocks[t.headerBlockId].terminator.falseTarget, WalkFuel(m.fn))
  {
    var h := t.headerBlockId;
    var tm := m.fn.blocks[h].terminator;
    RegionWalkConverges(m, d, h, [tm.trueTarget, tm.falseTarget], {}, WalkFuel(m.fn));
    assert [tm.trueTarget, tm.falseTarget][1] == tm.falseTarget;
  }
}

=== FILE: scene.dfy ===
/**
  The scene's actor list: `TestScene::addActor` appends, and
  `TestScene::removeActor` removes by swapping the found actor with the last
  one and popping the back. The list is unordered, so the swap is cheaper
  than an erase; the two game projects share the same removal.
 */
module Scene {
  import opened Seqs

  /** An actor's identity (its address in the game). */
  type ActorId = nat

  /** `TestScene::addActor`: the actor goes to the back. */
  function AddActor(actors: seq<ActorId>, a: ActorId): (r: seq<ActorId>)
    ensures |r| == |actors| + 1 && r[|actors|] == a
    ensures r[..|actors|] == actors
  {
    actors + [a]
  }

  /** Swap-and-pop of the first occurrence of `a`; nothing happens when `a` is absent. */
  function SwapRemove(actors: seq<ActorId>, a: ActorId): seq<ActorId>
  {
    var k := FirstIndex(actors, a);
    if k == |actors| then actors
    else actors[k := actors[|actors| - 1]][..|actors| - 1]
  }

  /** `TestScene::removeActor`: `std::find`, `std::iter_swap` with the last element, `pop_back`. */
  method RemoveActor(actors: seq<ActorId>, a: ActorId) returns (r: seq<ActorId>)
    ensures r == SwapRemove(actors, a)
    ensures a !in actors ==> r == actors
    ensures a in actors ==> |r| == |actors| - 1
  {
    var i := 0;
    while i < |actors| && actors[i] != a
      invariant 0 <= i <= |actors|
      invariant a !in actors[..i]
    {
      assert actors[..i + 1] == actors[..i] + [actors[i]];
      i := i + 1;
    }
    assert i == FirstIndex(actors, a);
    if i < |actors| {
      var last := |actors| - 1;
      var swapped := actors[i := actors[last]][last := actors[i]];
      r := swapped[..last];
    } else {
      r := actors;
    }
  }

  /**
    After removing the actor found at position `k`: the former last actor
    sits at `k` (unless `k` was the last position) and every other position
    below the new length keeps its actor.
   */
  lemma SwapRemoveLayout(actors: seq<ActorId>, a: ActorId)
    requires a in actors
    ensures var k := FirstIndex(actors, a);
            var r := SwapRemove(actors, a);
            && |r| == |actors| - 1
            && (k < |r| ==> r[k] == actors[|actors| - 1])
            && (forall i :: 0 <= i < |r| && i != k ==> r[i] == actors[i])
  {
  }

  /** The list around position `k < n` (with `n` the last position): front, the actor at `k`, middle, last actor. */
  lemma {:induction false} AroundPosition(actors: seq<ActorId>, k: nat)
    requires k < |actors| - 1
    ensures var n := |actors| - 1;
            actors == actors[..k] + [actors[k]] + actors[k + 1..n] + [actors[n]]
  {
    var n := |actors| - 1;
    var rhs := actors[..k] + [actors[k]] + actors[k + 1..n] + [actors[n]];
    assert |rhs| == |actors|;
    forall i | 0 <= i < |actors| ensures rhs[i] == actors[i] {
      if i < k {
      } else if i == k {
      } else if i < n {
        assert rhs[i] == actors[k + 1..n][i - k - 1];
      }
    }
  }

  /** Overwriting position `k < n` with the last actor and dropping the last slot. */
  lemma {:induction false} SwapPopShape(actors: seq<ActorId>, k: nat)
    requires k < |actors| - 1
    ensures var n := |actors| - 1;
            actors[k := actors[n]][..n] == actors[..k] + [actors[n]] + actors[k + 1..n]
  {
    var n := |actors| - 1;
    var lhs := actors[k := actors[n]][..n];
    var rhs := actors[..k] + [actors[n]] + actors[k + 1..n];
    assert |lhs| == |rhs| == n;
    forall i | 0 <= i < n ensures lhs[i] == rhs[i] {
      if k < i {
        assert rhs[i] == actors[k + 1..n][i - k - 1];
      }
    }
  }

  /**
    The list around the first occurrence `k` of `a`: when `a` is last, the
    removal keeps the front; otherwise it keeps the front, the former last
    actor and the middle.
   */
  lemma {:induction false} SwapRemoveSplit(actors: seq<ActorId>, a: ActorId)
    requires a in actors
    ensures var k, n := FirstIndex(actors, a), |actors| - 1;
            k == n ==> actors == actors[..k] + [a] && SwapRemove(actors, a) == actors[..k]
    ensures var k, n := FirstIndex(actors, a), |actors| - 1;
            k < n ==> && actors == actors[..k] + [a] + actors[k + 1..n] + [actors[n]]
                      && SwapRemove(actors, a) == actors[..k] + [actors[n]] + actors[k + 1..n]
  {
    var k, n := FirstIndex(actors, a), |actors| - 1;
    if k < n {
      AroundPosition(actors, k);
      SwapPopShape(actors, k);
    } else {
      assert actors == actors[..n] + [actors[n]];
      assert actors[k := actors[n]] == actors;
    }
  }

  /**
    Exactly one occurrence of the actor goes, the first one: the list loses
    one copy of `a` and nothing else, so a later duplicate stays.
   */
  lemma {:induction false} SwapRemoveTakesOneCopy(actors: seq<ActorId>, a: ActorId)
    requires a in actors
    ensures multiset(SwapRemove(actors, a)) == multiset(actors) - multiset{a}
    ensures a !in actors[..FirstIndex(actors, a)]
    ensures multiset(actors)[a] > 1 ==> a in SwapRemove(actors, a)
  {
    var k, n := FirstIndex(actors, a), |actors| - 1;
    var r := SwapRemove(actors, a);
    SwapRemoveSplit(actors, a);
    if k == n {
      assert multiset(actors) == multiset(r) + multiset{a};
    } else {
      var front, back, last := actors[..k], actors[k + 1..n], actors[n];
      assert multiset(r) == multiset(front) + multiset{last} + multiset(back);
      assert multiset(actors) == multiset(front) + multiset{a} + multiset(back) + multiset{last};
    }
    if multiset(actors)[a] > 1 {
      assert a in multiset(r);
    }
  }

  /** Adding an actor that is not in the scene and removing it again gives back the same list. */
  lemma {:induction false} RemoveUndoesAdd(actors: seq<ActorId>, a: ActorId)
    requires a !in actors
    ensures SwapRemove(AddActor(actors, a), a) == actors
  {
    var r := AddActor(actors, a);
    assert r[..|actors|] == actors;
    assert FirstIndex(r, a) == |actors|;
  }
}

=== FILE: seqs.dfy ===
/** Sequence helpers shared by the actor and component lists. */
module Seqs {

  /** The position `std::find` returns: the first occurrence of `x`, or `|s|` when there is none. */
  function FirstIndex<T(==)>(s: seq<T>, x: T): (k: nat)
    ensures k <= |s|
    ensures k < |s| ==> s[k] == x
    ensures x !in s[..k]
    ensures k == |s| <==> x !in s
  {
    if |s| == 0 then 0
    else if s[0] == x then 0
    else
      var k := FirstIndex(s[1..], x);
      assert s[1..][..k] == s[1..k + 1];
      assert s[..k + 1] == [s[0]] + s[1..k + 1];
      k + 1
  }

}
